=== FILE: README.md ===
# A verified model of the maids-backend request handlers

This project models, in Dafny, the request-handling core of `maids-backend`, an Express and
Mongoose service for a cleaning company. The model covers these parts:

- **Auth.** Registration, login, e-mail verification, resending the verification mail,
  forgotten and reset passwords, `me` and logout.
- **Access gate.** `protect` (bearer-token parsing, then the token and user checks) and
  `restrictToAdmin`.
- **Routers.** The five routers, their guard tables, and how the application mounts them.
- **Bookings.** The booking handlers, together with the booking schema as a validity
  predicate.
- **Staff and users.** The staff handlers with the staff schema, and the user handlers.
- **Client summary.** The aggregator that groups bookings into one summary per client.
- **Errors and envelopes.** The central error handler, the 404 handler, and the `sendSuccess`
  and `sendError` envelopes.

The document store is a `Tables.Table<R>`: a finite map from id to document, plus a counter
that hands out the next id. Ids go up in creation order. So `findOne` is the least matching
id, and `find()` lists documents in creation order. A handler is a pure function. It takes a
store and returns a `Handled` or `Effect` value, which holds:

- the store afterwards;
- either the reply or the error passed to `next`;
- for the auth handlers, the mails that were attempted.

Hashing (sha256), password hashing and comparison, and JWT signing and verification are
fields of a `Crypto` value of uninterpreted functions passed in as a parameter. The clock is
an integer `now`. Whether a mail is sent is a boolean `sendOk`.

The modules follow the source tree:

- `Outcomes`, `Text`, `Dates`, `Js`, `Sorting`, `Tables`: JavaScript and Mongoose semantics
  the handlers rely on.
- `Http`: src/utils/response.ts.
- `Errors`: src/middleware/error.middleware.ts.
- `Accounts`: the account documents.
- `AuthMiddleware`: src/middleware/auth.middleware.ts.
- `AuthController`, `UserController`, `BookingModel`, `BookingController`, `StaffModel`,
  `StaffController`, `ClientSummary`: the modules under src/modules.
- `Routing`: the `*.routes.ts` files, src/routes/index.ts and src/app.ts.

## Model

| member | source | states |
|---|---|---|
| Http.SendSuccess | src/utils/response.ts:19-33 | a success envelope carries the data and no error; message defaults to "Success", status to 200 |
| Http.Delivered | src/utils/response.ts:32 | the envelope `res.json` sends reaches the client exactly when the status is neither 204 nor 304, which Express sends without a body |
| Http.SendError | src/utils/response.ts:38-54 | nothing is written once headers were sent; otherwise a failure envelope with no data, message defaulting to "An error occurred", status to 500, and `error` equal to the explicit error if truthy, else the message |
| Http.EnvelopesDistinguishable | src/utils/response.ts:8-14 | a success body and an error body always differ in `success`, in the presence of `data` and in the presence of `error` |
| Errors.Classify | src/middleware/error.middleware.ts:10-61 | an AppError keeps its status and message; otherwise, in the handler's order: a ValidationError gives 400 with the joined messages, a duplicate key 400 naming the field, a CastError 400 "Invalid <path>: <value>", a JsonWebTokenError and a TokenExpiredError their own 401 messages; anything else 500, with a fixed message in production and the error's own message (or a default) otherwise |
| Errors.ErrorHandler | src/middleware/error.middleware.ts:10-61 | the answer is the classified (status, message) in a failure envelope whose error is the message; nothing once headers were sent |
| Errors.NotFoundHandler | src/middleware/error.middleware.ts:67-73 | an unmatched route answers 404 with "Route <url> not found" |
| Errors.Respond | src/middleware/error.middleware.ts:10-61 | a success envelope exactly when the handler succeeded, with its status and data, and that envelope reaches the client unless the status is 204 or 304; otherwise the classified error |
| Errors.AppErrorTakesPrecedence | src/middleware/error.middleware.ts:20-22 | an AppError keeps its own status and message even when its name or code would match a later case |
| Errors.ValidationMessagesJoined | src/middleware/error.middleware.ts:25-30 | a validation error answers 400 with "Validation Error: " and the field messages joined by ", " |
| Errors.DuplicateKeyNamesField | src/middleware/error.middleware.ts:33-37 | a duplicate-key error answers 400 with "<field> already exists" |
| Errors.ProductionHidesDetails | src/middleware/error.middleware.ts:55-60 | in production every unclassified error gets the same answer, 500 "Something went wrong!" |
| Errors.DevelopmentShowsMessage | src/middleware/error.middleware.ts:55-60 | outside production an unclassified error shows its message, or "Internal server error" when it has none |
| Text.Trim | src/modules/staff/staff.model.ts:14-24 | the result is no longer than the input and has no leading or trailing white space |
| Text.TrimIsSlice | src/modules/staff/staff.model.ts:14-24 | `trim()` removes exactly the leading and trailing white-space runs |
| Text.TrimIdempotent | src/modules/booking/booking.model.ts:41-45 | trimming twice is trimming once |
| Text.ToLower | src/modules/auth/auth.controller.ts:34 | lower-casing keeps the length, maps each character on its own, and leaves no upper-case letter |
| Text.LowerOfLower | src/modules/auth/auth.controller.ts:41 | lower-casing a lower-case string changes nothing |
| Text.EmailShapeMatches | src/modules/booking/booking.model.ts:91-96 | every `local@domain.tld` with non-empty, space-free parts matches `^\S+@\S+\.\S+$` |
| Text.SpacedNeverMatches | src/modules/booking/booking.model.ts:91-96 | a string containing white space never matches the email pattern |
| Dates.DateOrderIsCalendarOrder | src/modules/booking/booking.model.ts:61-65 | for `YYYY-MM-DD` strings, string `<` is (year, month, day) order and string equality is date equality |
| Sorting.Sort | src/modules/client/client.controller.ts:44 | the sort is a permutation of its input |
| Sorting.SortOrderedAndStable | src/modules/client/client.controller.ts:44 | for a strict weak order the result is ordered, and elements that tie keep their input order |
| Accounts.ProfileOf | src/modules/user/user.controller.ts:10 | a profile is the account's id and every field but the password, keeping its name, email and role |
| Accounts.ProfileHidesPassword | src/modules/user/user.controller.ts:17 | two accounts that differ only in their password have the same profile |
| Accounts.FindByEmail | src/modules/auth/auth.controller.ts:34 | the account found holds exactly this email; none exactly when no account holds it |
| Accounts.FindByEmailUnique | src/modules/auth/auth.controller.ts:83 | with unique emails, the account found is the only holder of the email |
| AuthMiddleware.Split | src/middleware/auth.middleware.ts:37 | `split(' ')` gives at least one piece, and no piece contains a space |
| AuthMiddleware.SplitJoin | src/middleware/auth.middleware.ts:37 | joining the pieces of a split with single spaces gives the header back |
| AuthMiddleware.JoinSplit | src/middleware/auth.middleware.ts:37 | splitting space-free pieces joined by single spaces gives the pieces back |
| AuthMiddleware.BearerToken | src/middleware/auth.middleware.ts:36-38 | a token is read only from a header starting with "Bearer", and never contains a space |
| AuthMiddleware.BearerPrefixed | src/middleware/auth.middleware.ts:36-38 | for "Bearer " followed by anything, the token is the second piece of the split |
| AuthMiddleware.BearerRoundTrip | src/middleware/auth.middleware.ts:36-38 | the header `Bearer <t> …` built from space-free pieces yields exactly `t` |
| AuthMiddleware.MalformedHeadersHaveNoToken | src/middleware/auth.middleware.ts:36-43 | a bare "Bearer" yields no token, and "Bearer" with a double space yields the empty (falsy) token |
| AuthMiddleware.Protect | src/middleware/auth.middleware.ts:26-63 | OPTIONS passes with no user; no truthy token gives 401; every rejection is one of the three 401s; a pass outside OPTIONS means a verified token whose user still exists, and that user is attached |
| AuthMiddleware.RestrictToAdmin | src/middleware/auth.middleware.ts:70-82 | no attached user gives 401, a non-admin 403; the request passes exactly for an admin, who stays attached |
| AuthMiddleware.FlagsIgnored | src/middleware/auth.middleware.ts:47-58 | changing an account's verified, suspended, deleted or active flags never changes whether `protect` lets its token through |
| AuthController.NewAccount | src/modules/auth/auth.controller.ts:39-53 | a new account has a lower-cased email, the user role, is unverified, unsuspended, undeleted and active, and holds the hashed verification token |
| AuthController.Register | src/modules/auth/auth.controller.ts:21-73 | missing fields give 400 first, the admin role 403 next, a taken email (compared lower-cased) 400 "User with this email already exists" after; success exactly when all three pass; then a new account is stored, answered with 201, and one verification mail is tried; errors change nothing; emails stay unique |
| AuthController.RegisterIgnoresMailFailure | src/modules/auth/auth.controller.ts:56-71 | registration gives the same state and answer whether or not the mail was sent |
| AuthController.Credentials | src/modules/auth/auth.controller.ts:83-87 | the account that signs in holds the lower-cased email |
| AuthController.Login | src/modules/auth/auth.controller.ts:75-115 | login never writes; missing fields give 400; a session is issued only to an account with matching credentials in good standing; a 403 means the credentials matched, and carries the message of the first failing standing check |
| AuthController.Admit | src/modules/auth/auth.controller.ts:89-113 | after the credentials matched: a session exactly when the account is in good standing; otherwise the 403 of the first failing check, in the order deleted, suspended, inactive, unverified, each with its own message |
| AuthController.LoginReportsFirstFailedCheck | src/modules/auth/auth.controller.ts:89-107 | with the right credentials, login answers the first failing standing check's message: an account both deleted and unverified is told it was deleted |
| AuthController.LoginSucceedsIff | src/modules/auth/auth.controller.ts:83-109 | with unique emails, login succeeds exactly when an account holds the lower-cased email, the password matches, and the account is neither deleted nor suspended, is active, and is verified |
| AuthController.LoginHidesWhichPartWasWrong | src/modules/auth/auth.controller.ts:85-87 | an unknown email and a wrong password give the identical 401 |
| AuthController.GetMe | src/modules/auth/auth.controller.ts:117-123 | the caller's profile, or 404 when the caller is gone; nothing is written |
| AuthController.Logout | src/modules/auth/auth.controller.ts:125-129 | logout answers 200 and changes no state |
| AuthController.VerifyEmail | src/modules/auth/auth.controller.ts:134-163 | a missing token gives 400; success exactly when some account holds the token's hash unexpired; then that account is verified and its token fields are cleared; any other failure with a token is the 400 "Invalid or expired verification token" |
| AuthController.VerifyEmailSingleUse | src/modules/auth/auth.controller.ts:156-159 | replaying a verification token never verifies the same account again |
| AuthController.VerifyEmailReplayRefused | src/modules/auth/auth.controller.ts:143-159 | when no other account holds the token's hash, a second use of a link that worked answers 400 "Invalid or expired verification token" |
| AuthController.ResendVerification | src/modules/auth/auth.controller.ts:168-198 | 400 without an email; 404 for an unknown one; 400 when already verified; otherwise the new token is stored and kept, the mail is tried, and a failed send answers 500 |
| AuthController.ResendRetiresOldLink | src/modules/auth/auth.controller.ts:186-188 | after a resend, the previous verification token no longer verifies the account |
| AuthController.ForgotPassword | src/modules/auth/auth.controller.ts:203-235 | 400 without an email; an unknown email answers the generic success and writes nothing; a known one goes through the reset step |
| AuthController.IssueReset | src/modules/auth/auth.controller.ts:219-233 | the reset mail is tried; on success the hashed token and expiry are stored; on failure both are cleared and the answer is 500 |
| AuthController.ForgotPasswordHidesAccounts | src/modules/auth/auth.controller.ts:211-227 | when mail works, the answer is the same whether or not the email exists |
| AuthController.ResetPassword | src/modules/auth/auth.controller.ts:240-274 | missing fields give 400; success exactly when some account holds the token's hash unexpired; then only its password and reset fields change, and a session is returned; any other failure with both fields is the 400 "Invalid or expired reset token" |
| AuthController.ResetPasswordSingleUse | src/modules/auth/auth.controller.ts:262-264 | replaying a reset token never resets the same account again |
| AuthController.ResetPasswordReplayRefused | src/modules/auth/auth.controller.ts:248-264 | when no other account holds the token's hash, a second use of a link that worked answers 400 "Invalid or expired reset token" |
| AuthController.ResetThenLogin | src/modules/auth/auth.controller.ts:262-268 | after a reset, the new password signs in to a lower-case-email account in good standing |
| AuthController.ResetIgnoresStanding | src/modules/auth/auth.controller.ts:252-259 | a reset succeeds for a matching account whatever its flags, even where login would refuse |
| UserController.Profiles | src/modules/user/user.controller.ts:10 | each listed account becomes its profile, in the same order |
| UserController.ProfilesOfEntries | src/modules/user/user.controller.ts:10 | the profiles listed are exactly the profiles of the stored accounts |
| UserController.NewerProfileIsStrictWeakOrder | src/modules/user/user.controller.ts:10 | `createdAt: -1` is a strict weak order |
| UserController.GetAllUsers | src/modules/user/user.controller.ts:8-13 | every account's profile exactly once (a permutation), newest first, ties in creation order |
| UserController.GetUserById | src/modules/user/user.controller.ts:15-22 | the profile exactly when the id is stored, else 404 |
| UserController.GetCurrentUser | src/modules/user/user.controller.ts:24-30 | the caller's profile exactly when the caller is stored, else 404 |
| UserController.CurrentUserIsGetMe | src/modules/user/user.controller.ts:24-30 | `/users/me` and `/auth/me` answer identically |
| UserController.ProfileUpdate | src/modules/user/user.controller.ts:37-39 | only a truthy name or email replaces the old value; no other field changes |
| UserController.UpdateUserProfile | src/modules/user/user.controller.ts:32-50 | 404 when the caller is gone; otherwise only the caller's name and email change, the email as supplied, not lower-cased |
| UserController.UpdateUserProfileIdempotent | src/modules/user/user.controller.ts:32-50 | sending the same profile update twice has the effect of sending it once |
| UserController.UpdateKeepsRoleAndStanding | src/modules/user/user.controller.ts:37-39 | a profile update keeps the role, the password and every flag |
| UserController.DeleteUser | src/modules/user/user.controller.ts:52-59 | the account is removed outright with 204 exactly when it exists, else 404 |
| UserController.DeleteUserSendsNoBody | src/modules/user/user.controller.ts:52-59 | the client of a successful delete gets the 204 status and no body at all; exactly an unknown id gets an envelope, the 404 |
| UserController.DeletedUserIsLockedOut | src/modules/user/user.controller.ts:52-59 | after deletion, reading the user gives 404 and `protect` refuses the user's token with 401 |
| StaffModel.ParseRole | src/modules/staff/staff.model.ts:25-29 | a string is a role exactly when it is one of the three names |
| StaffModel.RoleNamesRoundTrip | src/modules/staff/staff.model.ts:25-29 | each role is read back from its name |
| StaffModel.RoleViolation | src/modules/staff/staff.model.ts:25-29 | the role validators fail exactly when the value is not one of the three roles |
| StaffModel.Violations | src/modules/staff/staff.model.ts:14-29 | the written paths pass exactly when the trimmed name and phone are non-empty and the role is in the enum |
| StaffModel.BlankNameRejected | src/modules/staff/staff.model.ts:14-18 | a name of white space alone passes the handler's truthiness check but fails the schema's required check |
| StaffController.PhoneHolder | src/modules/staff/staff.model.ts:19-24 | finds another member holding the phone, and none exactly when no other member does |
| StaffController.CreateStaff | src/modules/staff/staff.controller.ts:13-18 | missing fields give 400, then schema violations, then a held phone is a duplicate key; success exactly when all pass; the new member is trimmed, active and stored with 201; phones stay unique |
| StaffController.SecondCreateWithPhoneRefused | src/modules/staff/staff.model.ts:19-24 | a second member with the same trimmed phone is refused with a duplicate key on `phone` |
| StaffController.Patched | src/modules/staff/staff.controller.ts:23-24 | each given field is replaced (name and phone trimmed); fields left out are kept |
| StaffController.UpdateStaff | src/modules/staff/staff.controller.ts:21-27 | validation first, then 404, then a phone another member holds gives the duplicate-key error on `phone` (400 "phone already exists"); on success only the given fields change; validity and unique phones are kept |
| StaffController.EmptyUpdateTouchesOnlyTimestamp | src/modules/staff/staff.controller.ts:23-24 | an empty body changes nothing but the update instant |
| StaffController.SetStaffActive | src/modules/staff/staff.controller.ts:30-36 | `active` becomes `!!active` and nothing else changes; 404 for an unknown id |
| StaffController.SetActiveIsUpdateOfActive | src/modules/staff/staff.controller.ts:33 | the switch agrees with a full update of `active` alone |
| StaffController.DeleteStaff | src/modules/staff/staff.controller.ts:39-44 | the member is removed and returned exactly when it exists, else 404 |
| StaffController.DeletedStaffNotFound | src/modules/staff/staff.controller.ts:39-44 | after a deletion, updating, switching or deleting the member again gives 404 |
| StaffController.StaffBeforeIsStrictWeakOrder | src/modules/staff/staff.controller.ts:8 | `{ active: -1, name: 1 }` is a strict weak order |
| StaffController.StaffTiedIffSameKey | src/modules/staff/staff.controller.ts:8 | two members tie exactly when they agree on `active` and name |
| StaffController.OrderedByKeys | src/modules/staff/staff.controller.ts:8 | an ordered list has active members first, then names ascending within each group |
| StaffController.GetAllStaff | src/modules/staff/staff.controller.ts:7-10 | every member exactly once (a permutation), active first, then by name, ties in creation order |
| BookingModel.ParseStatus | src/modules/booking/booking.model.ts:107-111 | a string is a status exactly when it is one of the five |
| BookingModel.ParsePaymentStatus | src/modules/booking/booking.model.ts:113-117 | a string is a payment status exactly when it is one of the three |
| BookingModel.ParseMethod | src/modules/booking/booking.model.ts:118-121 | a string is a payment method exactly when it is cash, card or transfer |
| BookingModel.ParseMaterials | src/modules/booking/booking.model.ts:56-60 | a string is a materials choice exactly when it is with or without |
| BookingModel.EnumNamesRoundTrip | src/modules/booking/booking.model.ts:3-5 | each enumeration value is read back from its name |
| BookingModel.Violations | src/modules/booking/booking.model.ts:39-139 | a normalized document has no violation exactly when the validators accept it |
| BookingModel.JobViolations | src/modules/booking/booking.model.ts:41-74 | no violation exactly when service, time and area are present, hours and cleaners are at least 1, materials is in its enum, and the date is `YYYY-MM-DD` |
| BookingModel.ClientViolations | src/modules/booking/booking.model.ts:80-97 | no violation exactly when the client name and phone are present and a non-empty email matches the pattern |
| BookingModel.ChargeViolations | src/modules/booking/booking.model.ts:102-121 | no violation exactly when `totalQAR >= 0` and the status, payment status and given method are in their enums |
| BookingModel.EmailNormalized | src/modules/booking/booking.model.ts:91-96 | after the trim and lowercase setters an email is trimmed and lower case |
| BookingModel.NormalizeSettles | src/modules/booking/booking.model.ts:41-100 | after the setters, every trimmed path is trimmed and the client email is lower case |
| BookingModel.NormalizeKeepsSettled | src/modules/booking/booking.model.ts:41-100 | the setters leave an already settled document unchanged |
| BookingModel.CastValid | src/modules/booking/booking.model.ts:39-139 | a settled document the validators accept casts to a schema-valid booking |
| BookingModel.CastKeepsFields | src/modules/booking/booking.model.ts:39-139 | casting keeps the numbers, date, time, enums, staff, user and timestamps, and the trimmed strings |
| BookingModel.Validate | src/modules/booking/booking.model.ts:39-139 | an accepted document is schema-valid and keeps the given fields (strings trimmed); a refused one has at least one message |
| BookingModel.ValidRoundTrip | src/modules/booking/booking.model.ts:39-139 | re-validating a valid stored booking gives it back unchanged |
| BookingModel.ValidateIdempotent | src/modules/booking/booking.model.ts:39-139 | validating a validated booking again changes nothing |
| BookingController.CreateBooking | src/modules/booking/booking.controller.ts:11-59 | a falsy required field gives 400, then a missing client name or phone 400, then a document the schema refuses gives a ValidationError with the schema's messages; a stored booking is exactly what the schema makes of the request's document, and is schema-valid, pending, unpaid with no method or invoice, has no staff and an empty address if none was given; errors change nothing |
| BookingController.CreateSucceedsIffSchemaAccepts | src/modules/booking/booking.controller.ts:28-55 | creation succeeds exactly when both checks pass and the schema accepts the document |
| BookingController.ZeroRejected | src/modules/booking/booking.controller.ts:28-30 | zero hours or zero QAR are rejected by the truthiness check, before the schema |
| BookingController.SelectEntries | src/modules/booking/booking.controller.ts:70-76 | exactly the bookings passing the status and payment filters are kept |
| BookingController.NewerBookingIsStrictWeakOrder | src/modules/booking/booking.controller.ts:91 | `createdAt: -1` is a strict weak order |
| BookingController.GetAllBookings | src/modules/booking/booking.controller.ts:64-97 | exactly the stored bookings passing the filters, each once (a permutation), newest first |
| BookingController.NoFilterListsAll | src/modules/booking/booking.controller.ts:70-76 | an absent or `'all'` filter excludes nothing |
| BookingController.GetBookingById | src/modules/booking/booking.controller.ts:102-114 | the stored booking exactly when the id is stored, else 404 |
| BookingController.UpdateBookingStatus | src/modules/booking/booking.controller.ts:119-140 | 400 outside the five statuses, then 404; on success only the status and timestamp change |
| BookingController.AnyStatusTransition | src/modules/booking/booking.controller.ts:124-132 | every status can be set from every status |
| BookingController.UpdatePaymentStatus | src/modules/booking/booking.controller.ts:145-178 | 400 outside the three statuses; then a ValidationError for an unknown method, before the lookup; then 404; success exactly when all three pass; method and invoice id change only when given; nothing outside the payment changes |
| BookingController.PaymentUpdateIdempotent | src/modules/booking/booking.controller.ts:145-178 | sending the same payment update twice has the effect of sending it once |
| BookingController.AssignStaff | src/modules/booking/booking.controller.ts:183-204 | a non-array gives 400, an unknown id 404; success exactly otherwise, and then the staff list is replaced wholesale and nothing else changes |
| BookingController.AssignStaffIdempotent | src/modules/booking/booking.controller.ts:183-204 | assigning the same list twice has the effect of assigning it once |
| BookingController.ApplyPatch | src/modules/booking/booking.controller.ts:212-221 | the patched document keeps the stored creation time and takes the update time from the clock |
| BookingController.CastUpdate | src/modules/booking/booking.controller.ts:214-223 | the update the validators see: `_id` and both timestamps gone, the setters run, every other written path as given |
| BookingController.WritePaths | src/modules/booking/booking.controller.ts:219-223 | the stored booking keeps its creation time and every path the update leaves alone, and takes the update time from the clock |
| BookingController.UpdateBooking | src/modules/booking/booking.controller.ts:209-231 | the written paths are validated before the lookup, so an invalid patch gives its ValidationError even for an unknown id; then 404; success exactly when both pass; then the written paths are stored, agreeing with whole-document validation on a valid booking; schema validity is kept |
| BookingController.PatchAgreesWithWholeDocument | src/modules/booking/booking.controller.ts:219-223 | on a schema-valid booking, validating only the written paths and validating the whole patched document give the same messages and the same stored booking |
| BookingController.PatchedViolations | src/modules/booking/booking.model.ts:39-139 | the schema's validators on the whole patched document report exactly the written paths' messages |
| BookingController.PatchedBooking | src/modules/booking/booking.model.ts:39-139 | a patched document the schema accepts casts to the booking the update stores |
| BookingController.UpdateIgnoresProtectedFields | src/modules/booking/booking.controller.ts:214-217 | `_id`, `createdAt` and `updatedAt` in the body make no difference |
| BookingController.EmptyPatchTouchesOnly | src/modules/booking/booking.controller.ts:219-223 | an empty patch on any stored booking changes only the update timestamp |
| BookingController.DeleteBooking | src/modules/booking/booking.controller.ts:236-248 | the booking is removed with 204 exactly when it exists, else 404 |
| BookingController.DeleteBookingSendsNoBody | src/modules/booking/booking.controller.ts:236-248 | the client of a successful delete gets the 204 status and no body at all; exactly an unknown id gets an envelope, the 404 |
| ClientSummary.AbsorbSummarizes | src/modules/client/client.controller.ts:33-41 | counting a booking into the summary of some bookings gives the summary of those bookings plus it |
| ClientSummary.FreshSummarizes | src/modules/client/client.controller.ts:21-41 | a new entry, once its first booking is counted, summarizes that booking |
| ClientSummary.AbsorbCounts | src/modules/client/client.controller.ts:33-35 | the count, value sum and status tally each grow by exactly this booking |
| ClientSummary.AbsorbLatest | src/modules/client/client.controller.ts:36-40 | date, service and area stay those of the first booking with the greatest date |
| ClientSummary.AbsorbEmail | src/modules/client/client.controller.ts:21-41 | the email stays the first truthy one, and is never overwritten once set |
| ClientSummary.StepSkip | src/modules/client/client.controller.ts:18 | a booking without a truthy phone leaves the grouping as it was |
| ClientSummary.StepGrouped | src/modules/client/client.controller.ts:17-43 | one iteration keeps the map a faithful grouping of the bookings seen so far |
| ClientSummary.FoldGrouped | src/modules/client/client.controller.ts:16-43 | after the loop, each key appears once, each entry summarizes exactly its bookings, every counted booking has an entry, entries are in first-seen order, and totals sum to the number of counted bookings |
| ClientSummary.CountStatusSum | src/modules/client/client.controller.ts:35 | the five status counts of a list add up to its length |
| ClientSummary.StatusTallyIsTotal | src/modules/client/client.controller.ts:35 | in every summary the status tally adds up to `totalBookings` |
| ClientSummary.LatestUnique | src/modules/client/client.controller.ts:36-40 | only one booking can be the one whose date a summary shows |
| ClientSummary.LatestIsCalendarLatest | src/modules/client/client.controller.ts:36 | with `YYYY-MM-DD` dates, the date shown is the calendar-latest one |
| ClientSummary.SamePhoneKeyIffName | src/modules/client/client.controller.ts:19 | with equal phones, two keys are equal exactly when the names are |
| ClientSummary.KeysAgreeWithoutColon | src/modules/client/client.controller.ts:19 | when no phone contains a colon, the string key and the (phone, name) pair agree |
| ClientSummary.FoldOne | src/modules/client/client.controller.ts:17-43 | one counted booking yields one entry under its key |
| ClientSummary.FoldTwo | src/modules/client/client.controller.ts:17-43 | two counted bookings share an entry of two exactly when their keys agree |
| ClientSummary.StringKeyCollides | src/modules/client/client.controller.ts:19 | phone `5::a` with name `b` and phone `5` with name `a::b` are valid and end up in one summary |
| ClientSummary.FoldRespectsPartition | src/modules/client/client.controller.ts:16-43 | two keys that split the bookings the same way give the same summaries in the same order |
| ClientSummary.StringKeyHarmlessWithoutColons | src/modules/client/client.controller.ts:19 | without colons in phones, grouping by the string key equals grouping by the pair |
| ClientSummary.HigherValueIsStrictWeakOrder | src/modules/client/client.controller.ts:44 | `b.lifetimeValue - a.lifetimeValue` is a strict weak order |
| ClientSummary.Summarize | src/modules/client/client.controller.ts:44 | the answer is a permutation of the map's values, by non-increasing lifetime value, ties in first-seen order |
| ClientSummary.PairSummariesCorrect | src/modules/client/client.controller.ts:16-44 | under the pair key, each summary summarizes exactly its client's bookings, every client with a phone has one, and no client has two |
| ClientSummary.GetClientSummaries | src/modules/client/client.controller.ts:10-47 | one correct summary per client with a phone, by non-increasing value, ties in order of first booking |
| ClientSummary.StringSummariesSummarize | src/modules/client/client.controller.ts:16-44 | under the string key, each summary summarizes the bookings filed under its `key` |
| ClientSummary.StringSummariesCorrect | src/modules/client/client.controller.ts:16-44 | under the string key: each summary summarizes the bookings filed under its key, every booking with a phone has a summary under its key, and no key has two |
| ClientSummary.GetClientSummariesAsWritten | src/modules/client/client.controller.ts:10-47 | the answer as written: each summary covers exactly the bookings under its string key, every booking with a phone is counted, keys are distinct, by non-increasing value with ties in first-seen order |
| Routing.Matches | src/modules/booking/booking.routes.ts:16-22 | a pattern matches only a path of its own length |
| Routing.PatternShapes | src/modules/booking/booking.routes.ts:16-22 | `/`, `/word`, `/:id` and `/:id/word` match exactly the paths of their shape, with non-empty parameters |
| Routing.RouteStep | src/modules/booking/booking.routes.ts:16-22 | a route layer answers a request it matches and passes any other to the next layer |
| Routing.Landing | src/modules/booking/booking.routes.ts:16-22 | a request reaches a handler exactly when an endpoint names one |
| Routing.AuthGuards | src/modules/auth/auth.routes.ts:7-12 | register and login are public, `me` and logout need a token, and nothing else is routed |
| Routing.UserGuards | src/modules/user/user.routes.ts:7-13 | exactly the five user handlers are routed, each behind `protect` only |
| Routing.GuardFromFinds | src/modules/booking/booking.routes.ts:11-22 | the first route naming a handler gets the level of the gates before it |
| Routing.BookingGuards | src/modules/booking/booking.routes.ts:8-22 | creation is public, and the seven other booking handlers are admin-only |
| Routing.BookingGates | src/modules/booking/booking.routes.ts:11-14 | every booking handler but creation sits behind both gates |
| Routing.StaffGuards | src/modules/staff/staff.routes.ts:7-14 | exactly the five staff handlers are routed, all admin-only |
| Routing.ClientGuards | src/modules/client/client.routes.ts:8-11 | only the summary is routed, admin-only |
| Routing.RunSound | src/modules/booking/booking.routes.ts:11-22 | a handler is reached only through a route naming it, with the user its gates vouch for |
| Routing.DispatchSound | src/modules/booking/booking.routes.ts:11-22 | a request reaching a handler through a router satisfies that handler's guard level |
| Routing.RunNeedsVerb | src/modules/booking/booking.routes.ts:16-22 | no handler is reached when no route has the request's method |
| Routing.PreflightReachesNoHandler | src/middleware/auth.middleware.ts:29-31 | an OPTIONS request passes `protect` but reaches no handler, as no router has an OPTIONS route |
| Routing.GatedFrom | src/modules/staff/staff.routes.ts:7-8 | behind `protect` then `restrictToAdmin`, a request is refused by `protect`, refused with 403, or continues as an admin's |
| Routing.NoTokenNeverForbidden | src/modules/client/client.routes.ts:8-9 | without a token the answer is 401, never 403 |
| Routing.StaffRoutesResolve | src/modules/staff/staff.routes.ts:10-14 | past the gates, the staff router lands on the endpoint the method and path name |
| Routing.StaffRouter | src/modules/staff/staff.routes.ts:7-14 | `/staff`: a `protect` refusal is passed on; no token gives 401; a non-admin gets 403; an admin lands on the named endpoint |
| Routing.StaffEndpointsAreFive | src/modules/staff/staff.routes.ts:10-14 | exactly five staff endpoints exist |
| Routing.ClientRouter | src/modules/client/client.routes.ts:8-11 | `/clients`: the aggregator is reached exactly by an admin's `GET /summary` |
| Routing.BookingRoutesResolve | src/modules/booking/booking.routes.ts:16-22 | past the gates, the booking router lands on the endpoint the method and path name |
| Routing.BookingRouter | src/modules/booking/booking.routes.ts:8-22 | `POST /` reaches creation with no gate; everything else faces both gates, and an admin lands on the named endpoint |
| Routing.UserRouter | src/modules/user/user.routes.ts:7-13 | `/users`: `protect` only; a signed-in caller lands on the named endpoint, `/me` ahead of `/:id` |
| Routing.AuthRouter | src/modules/auth/auth.routes.ts:7-12 | register and login need nothing; the rest faces `protect` and lands on `me`, logout or nothing; no other auth handler is reached |
| Routing.OnlyAuthAndUsersMounted | src/routes/index.ts:9-18 | only the health check and the auth and user handlers can ever be reached |

## Left out

- The search filter of `getAllBookings` (booking.controller.ts:78-88) is not modelled, because it builds a user-supplied regular expression.
- `populate`, ObjectId casting and the CastError it raises are not modelled. Route ids are store ids.
- `totalQAR`, `hours` and `cleaners` are integers. Floating-point values and summation are not modelled.
- Text.ToLower: lower-cases ASCII letters only. JavaScript's full Unicode case mapping is not modelled.
- Text.LexLess: compares characters, whereas JavaScript compares UTF-16 code units. They agree on the basic multilingual plane.
- src/modules/user/user.model.ts (the user schema, `comparePassword` and the token generators), src/utils/appError.ts and src/utils/email.ts are not part of this model:
  - hashing, password comparison, JWT signing and verification are uninterpreted parameters;
  - a mail's delivery is the boolean `sendOk`.
- CORS and its OPTIONS preflight answer in src/app.ts are not modelled. Neither are Express's case-insensitive and trailing-slash matching or its HEAD handling. The API version is one path segment.
- The other plumbing is left out as I/O:
  - the body-parser and development request-logging middleware of src/app.ts;
  - database connection, server start-up, environment loading and the seed script.
- Mongoose behaviour assumed (version 6 or later): the schema's setters run on an update, update validators run only on the paths written and before the document is looked up, and a key whose value is `undefined` is stripped from an update. So `updateStaff` writes only the fields given.
- BookingController.UpdateBooking: a written `client` or `payment` object replaces the stored one whole, as a `$set` of a nested object does. An update body with dotted paths such as `"client.name"` is not modelled.
- BookingController.UpdateBooking: when a body breaks two or more rules, the model lists the messages in the schema's path order. Mongoose runs update validators path by path in the order of the body's keys, so the real order of the joined messages follows the client's key order. A body that breaks a single rule gets the exact message.
- BookingController.UpdateBooking: a written `payment` object always carries a status in the model. The schema gives `payment.status` an enum and a default but does not require it, and an update does not apply the default. So Mongoose accepts a body such as `{payment: {method: "card"}}` and stores a payment with no status. A stored booking here always has a payment status, so such a body is not modelled. Its nearest form, an empty status, gets the enum ValidationError instead.
- Casting of request-body values is not modelled: numbers arrive as integers and booleans as booleans. A string such as `hours: "2"`, which Mongoose would cast, or a value that fails to cast and raises a CastError, is outside the model.
- AuthController.Register: `User.create` runs the user schema's validators and unique indexes. That schema is not part of this model, so creation is taken to pass once the handler's own checks have.
- UserController.UpdateUserProfile: `runValidators` applies the user schema's validators to the written name and email, and a unique index on the email would refuse one another account holds. That schema is not part of this model, so the update is taken to pass. In the model two accounts can therefore end up sharing an email, which `Accounts.UniqueEmails` would otherwise rule out.
- Sort ties: MongoDB leaves the order of equal sort keys unspecified. The model keeps creation order for them.
- Account `updatedAt` timestamps are not tracked. `toJSON()` is taken to give the profile, without the password.
- AuthController.ResetPassword: the save after a reset runs the user schema's validators. That schema is not part of this model, so the save is taken to pass.
- AuthController.IssueReset: the intermediate save of the reset token before the mail is tried is modelled by its end state. Only the state after the handler returns is observable.

## Findings

| source | as written | input that shows it | evidently intended | confidence | as-written member | corrected member |
|---|---|---|---|---|---|---|
| src/modules/client/client.controller.ts:19 | bookings are grouped by the string `phone + "::" + name`, which can be the same for two different (phone, name) pairs | phone `5::a` with name `b`, and phone `5` with name `a::b`: both give the key `5::a::b`, and the two clients are merged into one summary of two bookings | one summary per (phone, name) pair | not executed | ClientSummary.StringKeyCollides | ClientSummary.PairSummariesCorrect |

=== FILE: accounts.dfy ===
/**
 * User accounts as the auth controller, the auth middleware and the user controller see
 * them. src/modules/user/user.model.ts is not part of this model: the fields below are the
 * ones those files read and write, and the model's hooks and token generators are replaced
 * by parameters (see `Crypto` and the `issued` tokens of the auth handlers).
 */
module Accounts {
  import opened Outcomes
  import opened Tables

  datatype Role = UserRole | AdminRole

  /**
   * A stored user. `password` is what the model's save hook stores; it is only ever
   * compared through `Crypto.passwordMatches`. The token fields hold the sha256 of the
   * one-time tokens mailed out, with their expiry instants.
   */
  datatype Account = Account(
    name: string,
    email: string,
    password: string,
    phone: Option<string>,
    role: Role,
    isVerified: bool,
    isSuspended: bool,
    isDeleted: bool,
    isActive: bool,
    verifyToken: Option<string>,
    verifyExpires: Option<int>,
    resetToken: Option<string>,
    resetExpires: Option<int>,
    createdAt: int)

  type Accounts = Table<Account>

  /** An account as `select('-password')` returns it: everything but the password. */
  datatype Profile = Profile(
    id: nat,
    name: string,
    email: string,
    phone: Option<string>,
    role: Role,
    isVerified: bool,
    isSuspended: bool,
    isDeleted: bool,
    isActive: bool,
    verifyToken: Option<string>,
    verifyExpires: Option<int>,
    resetToken: Option<string>,
    resetExpires: Option<int>,
    createdAt: int)

  function ProfileOf(id: nat, a: Account): (p: Profile)
    ensures p.id == id && p.name == a.name && p.email == a.email && p.role == a.role
  {
    Profile(id, a.name, a.email, a.phone, a.role, a.isVerified, a.isSuspended, a.isDeleted, a.isActive,
            a.verifyToken, a.verifyExpires, a.resetToken, a.resetExpires, a.createdAt)
  }

  /** Two accounts differing only in their password have the same profile. */
  lemma ProfileHidesPassword(id: nat, a: Account, password: string)
    ensures ProfileOf(id, a.(password := password)) == ProfileOf(id, a)
  {
  }

  /**
   * The foreign calls: `crypto.createHash('sha256')` as a hex digest, the model's password
   * comparison, `jwt.sign({ id })` and `jwt.verify` (which yields the id of a well-formed,
   * unexpired token, and nothing otherwise).
   */
  datatype Crypto = Crypto(
    sha256: string -> string,
    passwordMatches: (string, string) -> bool,
    sign: nat -> string,
    verify: string -> Option<nat>)

  /** `findOne({ email })`: the earliest account with exactly this email. */
  function FindByEmail(store: Accounts, email: string): (r: Option<nat>)
    requires store.Valid()
    ensures r.Some? ==> r.value in store.rows && store.rows[r.value].email == email
    ensures r.None? <==> forall k :: k in store.rows ==> store.rows[k].email != email
  {
    store.FirstWhere((a: Account) => a.email == email)
  }

  /** No two accounts share an email. */
  ghost predicate UniqueEmails(store: Accounts)
  {
    forall i, j :: i in store.rows && j in store.rows && store.rows[i].email == store.rows[j].email ==> i == j
  }

  /** With unique emails, the account found for an email is the only one holding it. */
  lemma FindByEmailUnique(store: Accounts, email: string, k: nat)
    requires store.Valid() && UniqueEmails(store)
    requires k in store.rows && store.rows[k].email == email
    ensures FindByEmail(store, email) == Some(k)
  {
  }

  /** Rewriting an account without touching its email keeps the emails unique. */
  lemma PutKeepsEmailsUnique(store: Accounts, id: nat, a: Account)
    requires id in store.rows && a.email == store.rows[id].email
    ensures UniqueEmails(store) ==> UniqueEmails(store.Put(id, a))
  {
  }
}

=== FILE: auth_controller.dfy ===
/**
 * The decisions of src/modules/auth/auth.controller.ts: registration, login, the current
 * profile, logout, e-mail verification and the password-reset flow.
 *
 * The random one-time tokens the user model generates are parameters (`raw`, with its
 * expiry instant `expires`); the model stores their sha256, as `Crypto.sha256` computes it.
 * Whether a mail could be sent is the parameter `sendOk`; each handler returns the mails it
 * tried to send.
 */
module AuthController {
  import opened Outcomes
  import opened Js
  import opened Text
  import opened Tables
  import opened Errors
  import opened Accounts

  /** A mail the handler tried to send, with the raw token it carries. */
  datatype Mail =
    | VerificationMail(to: string, name: string, token: string)
    | ResetMail(to: string, name: string, token: string)

  /** What a handler does: the accounts afterwards, its answer or error, and the mails tried. */
  datatype Effect<+D> = Effect(state: Accounts, outcome: Result<Reply<D>, Thrown>, mails: seq<Mail>)

  /** A signed-in answer: the profile and a fresh JWT for it. */
  datatype Session = Session(user: Profile, token: string)

  function Fail<D>(store: Accounts, e: Thrown): (r: Effect<D>)
    ensures r.state == store && r.outcome.Err? && r.mails == []
  {
    Effect(store, Err(e), [])
  }

  const RegisteredMessage := "Registration successful. Please check your email to verify your account."
  const ResetRequestedMessage := "If the email exists, a password reset link has been sent"
  const InvalidVerificationMessage := "Invalid or expired verification token"
  const InvalidResetMessage := "Invalid or expired reset token"

  /** The fresh account `register` creates: lower-cased email, user role, unverified, active. */
  function NewAccount(name: string, email: string, password: string, phone: Option<string>,
                      crypto: Crypto, raw: string, expires: int, now: int): (a: Account)
    ensures a.email == ToLower(email) && a.role == UserRole
    ensures a.isActive && !a.isVerified && !a.isSuspended && !a.isDeleted
    ensures a.verifyToken == Some(crypto.sha256(raw)) && a.verifyExpires == Some(expires)
    ensures a.phone.Some? <==> Given(phone)
  {
    Account(name, ToLower(email), password, if Given(phone) then phone else None, UserRole,
            false, false, false, true, Some(crypto.sha256(raw)), Some(expires), None, None, now)
  }

  /**
   * `register`: name, email and password are required; asking for the admin role is
   * refused; an email already taken (compared lower-cased) is refused; otherwise a user
   * account is created and a verification mail is tried, whose failure does not matter.
   */
  function Register(store: Accounts, name: Option<string>, email: Option<string>, password: Option<string>,
                    phone: Option<string>, role: Option<string>,
                    crypto: Crypto, raw: string, expires: int, sendOk: bool, now: int): (r: Effect<Profile>)
    requires store.Valid()
    ensures r.state.Valid()
    ensures r.outcome.Err? ==> r.state == store && r.mails == []
    ensures !Given(name) || !Given(email) || !Given(password) ==>
              r.outcome == Err(AppError("Please provide name, email, and password", 400))
    ensures Given(name) && Given(email) && Given(password) && role == Some("admin") ==>
              r.outcome == Err(AppError("Admin accounts cannot be created through registration", 403))
    ensures Given(name) && Given(email) && Given(password) && role != Some("admin")
            && FindByEmail(store, ToLower(email.value)).Some? ==>
              r.outcome == Err(AppError("User with this email already exists", 400))
    ensures r.outcome.Ok? <==>
              && Given(name) && Given(email) && Given(password) && role != Some("admin")
              && forall k :: k in store.rows ==> store.rows[k].email != ToLower(email.value)
    ensures r.outcome.Ok? ==>
              var id := r.outcome.value.data.id;
              && id !in store.rows
              && r.state.rows == store.rows[id := NewAccount(name.value, email.value, password.value, phone, crypto, raw, expires, now)]
              && r.outcome.value.status == 201 && r.outcome.value.message == RegisteredMessage
              && r.outcome.value.data == ProfileOf(id, r.state.rows[id])
              && r.mails == [VerificationMail(ToLower(email.value), name.value, raw)]
    ensures UniqueEmails(store) ==> UniqueEmails(r.state)
  {
    if !Given(name) || !Given(email) || !Given(password) then
      Fail(store, AppError("Please provide name, email, and password", 400))
    else if role == Some("admin") then
      Fail(store, AppError("Admin accounts cannot be created through registration", 403))
    else if FindByEmail(store, ToLower(email.value)).Some? then
      Fail(store, AppError("User with this email already exists", 400))
    else
      var a := NewAccount(name.value, email.value, password.value, phone, crypto, raw, expires, now);
      var (store', id) := store.Insert(a);
      Effect(store', Ok(Reply(201, RegisteredMessage, ProfileOf(id, a))),
             [VerificationMail(a.email, a.name, raw)])
  }

  /** Registration answers the same whether or not the verification mail went out. */
  lemma RegisterIgnoresMailFailure(store: Accounts, name: Option<string>, email: Option<string>, password: Option<string>,
                                   phone: Option<string>, role: Option<string>, crypto: Crypto, raw: string, expires: int, now: int)
    requires store.Valid()
    ensures Register(store, name, email, password, phone, role, crypto, raw, expires, true, now)
         == Register(store, name, email, password, phone, role, crypto, raw, expires, false, now)
  {
  }

  /** The account an email and password sign in to, if the credentials are right. */
  function Credentials(store: Accounts, email: string, password: string, crypto: Crypto): (r: Option<nat>)
    requires store.Valid()
    ensures r.Some? ==> r.value in store.rows && store.rows[r.value].email == ToLower(email)
                        && crypto.passwordMatches(password, store.rows[r.value].password)
  {
    match FindByEmail(store, ToLower(email))
    case None => None
    case Some(id) => if crypto.passwordMatches(password, store.rows[id].password) then Some(id) else None
  }

  const DeletedMessage := "This account has been deleted"
  const SuspendedMessage := "This account has been suspended. Please contact support."
  const InactiveMessage := "This account is inactive. Please contact support."
  const UnverifiedMessage := "Please verify your email address before logging in"

  /** An account may sign in: not deleted, not suspended, active and verified. */
  predicate InGoodStanding(a: Account)
  {
    !a.isDeleted && !a.isSuspended && a.isActive && a.isVerified
  }

  /**
   * `login`: both fields are required; an unknown email and a wrong password get the same
   * 401; then deleted, suspended, inactive and unverified accounts are refused, in that
   * order; otherwise the profile and a signed token are returned. Nothing is written.
   */
  function Login(store: Accounts, email: Option<string>, password: Option<string>, crypto: Crypto): (r: Effect<Session>)
    requires store.Valid()
    ensures r.state == store && r.mails == []
    ensures !Given(email) || !Given(password) ==> r.outcome == Err(AppError("Please provide email and password", 400))
    ensures r.outcome.Ok? ==>
              && Given(email) && Given(password)
              && Credentials(store, email.value, password.value, crypto) == Some(r.outcome.value.data.user.id)
              && InGoodStanding(store.rows[r.outcome.value.data.user.id])
              && r.outcome.value == Reply(200, "Login successful",
                   Session(ProfileOf(r.outcome.value.data.user.id, store.rows[r.outcome.value.data.user.id]),
                           crypto.sign(r.outcome.value.data.user.id)))
    ensures r.outcome.Err? && r.outcome.error.appStatus == Some(403) ==>
              Given(email) && Given(password) && Credentials(store, email.value, password.value, crypto).Some?
  {
    if !Given(email) || !Given(password) then
      Fail(store, AppError("Please provide email and password", 400))
    else match Credentials(store, email.value, password.value, crypto)
      case None => Fail(store, AppError("Invalid email or password", 401))
      case Some(id) => Admit(store, id, crypto)
  }

  /**
   * The standing checks of `login` once the credentials are right: deleted, suspended,
   * inactive and unverified accounts are refused with 403, in that order.
   */
  function Admit(store: Accounts, id: nat, crypto: Crypto): (r: Effect<Session>)
    requires id in store.rows
    ensures r.state == store && r.mails == []
    ensures r.outcome.Ok? <==> InGoodStanding(store.rows[id])
    ensures r.outcome.Ok? ==>
              r.outcome.value == Reply(200, "Login successful", Session(ProfileOf(id, store.rows[id]), crypto.sign(id)))
    ensures var a := store.rows[id];
            a.isDeleted ==> r.outcome == Err(AppError(DeletedMessage, 403))
    ensures var a := store.rows[id];
            !a.isDeleted && a.isSuspended ==> r.outcome == Err(AppError(SuspendedMessage, 403))
    ensures var a := store.rows[id];
            !a.isDeleted && !a.isSuspended && !a.isActive ==> r.outcome == Err(AppError(InactiveMessage, 403))
    ensures var a := store.rows[id];
            !a.isDeleted && !a.isSuspended && a.isActive && !a.isVerified ==>
              r.outcome == Err(AppError(UnverifiedMessage, 403))
  {
    var a := store.rows[id];
    if a.isDeleted then Fail(store, AppError(DeletedMessage, 403))
    else if a.isSuspended then Fail(store, AppError(SuspendedMessage, 403))
    else if !a.isActive then Fail(store, AppError(InactiveMessage, 403))
    else if !a.isVerified then Fail(store, AppError(UnverifiedMessage, 403))
    else Effect(store, Ok(Reply(200, "Login successful", Session(ProfileOf(id, a), crypto.sign(id)))), [])
  }

  /**
   * With unique emails, login succeeds exactly for an account holding the lower-cased
   * email, matching the password, and in good standing.
   */
  lemma LoginSucceedsIff(store: Accounts, email: string, password: string, crypto: Crypto)
    requires store.Valid() && UniqueEmails(store)
    requires email != "" && password != ""
    ensures Login(store, Some(email), Some(password), crypto).outcome.Ok? <==>
            exists k :: k in store.rows && store.rows[k].email == ToLower(email)
                        && crypto.passwordMatches(password, store.rows[k].password)
                        && InGoodStanding(store.rows[k])
  {
    if k :| k in store.rows && store.rows[k].email == ToLower(email)
            && crypto.passwordMatches(password, store.rows[k].password) && InGoodStanding(store.rows[k]) {
      FindByEmailUnique(store, ToLower(email), k);
    }
  }

  /**
   * A wrong guess reveals nothing: an email nobody holds and a known email with the wrong
   * password get the same answer.
   */
  lemma LoginHidesWhichPartWasWrong(store: Accounts, unknown: string, known: string, password: string, crypto: Crypto)
    requires store.Valid()
    requires unknown != "" && known != "" && password != ""
    requires forall k :: k in store.rows ==> store.rows[k].email != ToLower(unknown)
    requires forall k :: k in store.rows && store.rows[k].email == ToLower(known) ==>
               !crypto.passwordMatches(password, store.rows[k].password)
    ensures Login(store, Some(unknown), Some(password), crypto) == Login(store, Some(known), Some(password), crypto)
    ensures Login(store, Some(unknown), Some(password), crypto).outcome == Err(AppError("Invalid email or password", 401))
  {
  }

  /**
   * Once the credentials are right, login reports the first standing check that fails, in
   * the order deleted, suspended, inactive, unverified: an account that is both deleted and
   * unverified is told it was deleted.
   */
  lemma LoginReportsFirstFailedCheck(store: Accounts, email: string, password: string, crypto: Crypto)
    requires store.Valid()
    requires email != "" && password != ""
    requires Credentials(store, email, password, crypto).Some?
    ensures var a := store.rows[Credentials(store, email, password, crypto).value];
            var r := Login(store, Some(email), Some(password), crypto).outcome;
            && (a.isDeleted ==> r == Err(AppError(DeletedMessage, 403)))
            && (!a.isDeleted && a.isSuspended ==> r == Err(AppError(SuspendedMessage, 403)))
            && (!a.isDeleted && !a.isSuspended && !a.isActive ==> r == Err(AppError(InactiveMessage, 403)))
            && (!a.isDeleted && !a.isSuspended && a.isActive && !a.isVerified ==> r == Err(AppError(UnverifiedMessage, 403)))
  {
  }

  /** `getMe`: the caller's profile, or 404 when the caller is gone. */
  function GetMe(store: Accounts, caller: Option<nat>): (r: Effect<Profile>)
    ensures r.state == store && r.mails == []
    ensures r.outcome.Ok? <==> caller.Some? && caller.value in store.rows
    ensures r.outcome.Ok? ==> r.outcome.value == Reply(200, "User profile retrieved successfully",
                                                       ProfileOf(caller.value, store.rows[caller.value]))
    ensures r.outcome.Err? ==> r.outcome.error == AppError("User not found", 404)
  {
    if caller.Some? && caller.value in store.rows then
      Effect(store, Ok(Reply(200, "User profile retrieved successfully", ProfileOf(caller.value, store.rows[caller.value]))), [])
    else Fail(store, AppError("User not found", 404))
  }

  /** `logout`: answers and writes nothing, so the caller's token stays valid. */
  function Logout(store: Accounts): (r: Effect<()>)
    ensures r.state == store && r.mails == []
    ensures r.outcome.Ok? && r.outcome.value.status == 200
  {
    Effect(store, Ok(Reply(200, "Logged out successfully", ())), [])
  }

  /** The pending verification an account holds for a hashed token, still unexpired at `now`. */
  predicate VerifiesWith(a: Account, hashed: string, now: int)
  {
    a.verifyToken == Some(hashed) && a.verifyExpires.Some? && a.verifyExpires.value > now
  }

  /** The pending password reset an account holds for a hashed token, still unexpired at `now`. */
  predicate ResetsWith(a: Account, hashed: string, now: int)
  {
    a.resetToken == Some(hashed) && a.resetExpires.Some? && a.resetExpires.value > now
  }

  /**
   * `verifyEmail`: the token must be a non-empty string; the first account holding its
   * hash unexpired is marked verified and its pending verification is cleared; no such
   * account gives 400.
   */
  function VerifyEmail(store: Accounts, token: Value, crypto: Crypto, now: int): (r: Effect<Profile>)
    requires store.Valid()
    ensures r.state.Valid() && r.mails == []
    ensures r.outcome.Err? ==> r.state == store
    ensures !(token.Str? && token.s != "") ==> r.outcome == Err(AppError("Verification token is required", 400))
    ensures token.Str? && token.s != "" ==>
              (r.outcome.Ok? <==> exists k :: k in store.rows && VerifiesWith(store.rows[k], crypto.sha256(token.s), now))
    ensures token.Str? && token.s != "" && r.outcome.Err? ==>
              r.outcome.error == AppError(InvalidVerificationMessage, 400)
    ensures r.outcome.Ok? ==>
              var id := r.outcome.value.data.id;
              && token.Str? && id in store.rows && VerifiesWith(store.rows[id], crypto.sha256(token.s), now)
              && r.state.rows == store.rows[id := store.rows[id].(isVerified := true, verifyToken := None, verifyExpires := None)]
              && r.outcome.value == Reply(200, "Email verified successfully", ProfileOf(id, r.state.rows[id]))
    ensures UniqueEmails(store) ==> UniqueEmails(r.state)
  {
    if !(token.Str? && token.s != "") then
      Fail(store, AppError("Verification token is required", 400))
    else
      var hashed := crypto.sha256(token.s);
      match store.FirstWhere((a: Account) => VerifiesWith(a, hashed, now))
      case None => Fail(store, AppError(InvalidVerificationMessage, 400))
      case Some(id) =>
        var a := store.rows[id].(isVerified := true, verifyToken := None, verifyExpires := None);
        var store' := store.Put(id, a);
        Effect(store', Ok(Reply(200, "Email verified successfully", ProfileOf(id, a))), [])
  }

  /** A verification link works once: using it again never verifies the same account twice. */
  lemma VerifyEmailSingleUse(store: Accounts, token: Value, crypto: Crypto, now: int, later: int)
    requires store.Valid()
    ensures var first := VerifyEmail(store, token, crypto, now);
            var second := VerifyEmail(first.state, token, crypto, later);
            first.outcome.Ok? && second.outcome.Ok? ==> second.outcome.value.data.id != first.outcome.value.data.id
  {
  }

  /**
   * Replaying a verification link answers 400: once the link has verified its account, a
   * second use fails, provided no other account holds the same token hash.
   */
  lemma VerifyEmailReplayRefused(store: Accounts, token: string, crypto: Crypto, now: int, later: int)
    requires store.Valid()
    requires token != ""
    requires forall j, k ::
               (j in store.rows && k in store.rows && store.rows[j].verifyToken == Some(crypto.sha256(token))
                && store.rows[k].verifyToken == Some(crypto.sha256(token))) ==> j == k
    ensures var first := VerifyEmail(store, Str(token), crypto, now);
            first.outcome.Ok? ==>
              VerifyEmail(first.state, Str(token), crypto, later).outcome == Err(AppError(InvalidVerificationMessage, 400))
  {
    var first := VerifyEmail(store, Str(token), crypto, now);
    if first.outcome.Ok? {
      var id := first.outcome.value.data.id;
      var h := crypto.sha256(token);
      forall k | k in first.state.rows
        ensures !VerifiesWith(first.state.rows[k], h, later)
      {
        if k != id {
          assert first.state.rows[k] == store.rows[k];
        }
      }
    }
  }

  /**
   * `resendVerificationEmail`: the email is required, its account must exist and be
   * unverified; a new verification token replaces the old one and is kept even when the
   * mail then fails, which answers 500.
   */
  function ResendVerification(store: Accounts, email: Option<string>, crypto: Crypto,
                              raw: string, expires: int, sendOk: bool): (r: Effect<()>)
    requires store.Valid()
    ensures r.state.Valid()
    ensures !Given(email) ==> r.outcome == Err(AppError("Email is required", 400))
    ensures Given(email) && FindByEmail(store, ToLower(email.value)).None? ==> r.outcome == Err(AppError("User not found", 404))
    ensures Given(email) && FindByEmail(store, ToLower(email.value)).Some? ==>
              var id := FindByEmail(store, ToLower(email.value)).value;
              var a := store.rows[id];
              && (a.isVerified ==> r == Fail(store, AppError("Email is already verified", 400)))
              && (!a.isVerified ==>
                    && r.state.rows == store.rows[id := a.(verifyToken := Some(crypto.sha256(raw)), verifyExpires := Some(expires))]
                    && r.mails == [VerificationMail(a.email, a.name, raw)]
                    && r.outcome == if sendOk then Ok(Reply(200, "Verification email sent successfully", ()))
                                    else Err(AppError("Failed to send verification email", 500)))
    ensures r.outcome.Err? && r.mails == [] ==> r.state == store
    ensures UniqueEmails(store) ==> UniqueEmails(r.state)
  {
    if !Given(email) then Fail(store, AppError("Email is required", 400))
    else match FindByEmail(store, ToLower(email.value))
      case None => Fail(store, AppError("User not found", 404))
      case Some(id) =>
        var a := store.rows[id];
        if a.isVerified then Fail(store, AppError("Email is already verified", 400))
        else
          var a' := a.(verifyToken := Some(crypto.sha256(raw)), verifyExpires := Some(expires));
          var store' := store.Put(id, a');
          var mails := [VerificationMail(a.email, a.name, raw)];
          if sendOk then Effect(store', Ok(Reply(200, "Verification email sent successfully", ())), mails)
          else Effect(store', Err(AppError("Failed to send verification email", 500)), mails)
  }

  /**
   * A resent verification retires the earlier link: once the new token is stored for an
   * unverified account, a raw token with a different hash no longer verifies it, even
   * when the mail failed.
   */
  lemma ResendRetiresOldLink(store: Accounts, email: string, crypto: Crypto, raw: string, expires: int,
                             sendOk: bool, earlier: string, now: int)
    requires store.Valid()
    requires crypto.sha256(earlier) != crypto.sha256(raw)
    ensures var r := ResendVerification(store, Some(email), crypto, raw, expires, sendOk);
            email != "" && FindByEmail(store, ToLower(email)).Some? ==>
              var id := FindByEmail(store, ToLower(email)).value;
              !store.rows[id].isVerified ==> !VerifiesWith(r.state.rows[id], crypto.sha256(earlier), now)
  {
  }

  /**
   * `forgotPassword`: the email is required; an unknown email answers as if a mail had
   * gone out; otherwise a reset token is stored and a mail tried; when that mail fails,
   * the account's reset fields are cleared and the answer is 500.
   */
  function ForgotPassword(store: Accounts, email: Option<string>, crypto: Crypto,
                          raw: string, expires: int, sendOk: bool): (r: Effect<()>)
    requires store.Valid()
    ensures r.state.Valid()
    ensures !Given(email) ==> r.outcome == Err(AppError("Email is required", 400)) && r.state == store
    ensures Given(email) && FindByEmail(store, ToLower(email.value)).None? ==>
              r == Effect(store, Ok(Reply(200, ResetRequestedMessage, ())), [])
    ensures Given(email) && FindByEmail(store, ToLower(email.value)).Some? ==>
              r == IssueReset(store, FindByEmail(store, ToLower(email.value)).value, crypto, raw, expires, sendOk)
    ensures UniqueEmails(store) ==> UniqueEmails(r.state)
  {
    if !Given(email) then Fail(store, AppError("Email is required", 400))
    else match FindByEmail(store, ToLower(email.value))
      case None => Effect(store, Ok(Reply(200, ResetRequestedMessage, ())), [])
      case Some(id) => IssueReset(store, id, crypto, raw, expires, sendOk)
  }

  /**
   * The reset step of `forgotPassword` for the account found: the token's hash and expiry
   * are stored and the mail is tried; when it fails, both are cleared again and the
   * answer is 500.
   */
  function IssueReset(store: Accounts, id: nat, crypto: Crypto, raw: string, expires: int, sendOk: bool): (r: Effect<()>)
    requires store.Valid() && id in store.rows
    ensures r.state.Valid()
    ensures var a := store.rows[id];
            && r.mails == [ResetMail(a.email, a.name, raw)]
            && (sendOk ==> r.outcome == Ok(Reply(200, ResetRequestedMessage, ()))
                           && r.state.rows == store.rows[id := a.(resetToken := Some(crypto.sha256(raw)), resetExpires := Some(expires))])
            && (!sendOk ==> r.outcome == Err(AppError("Failed to send password reset email", 500))
                            && r.state.rows == store.rows[id := a.(resetToken := None, resetExpires := None)])
    ensures UniqueEmails(store) ==> UniqueEmails(r.state)
  {
    var a := store.rows[id];
    var mails := [ResetMail(a.email, a.name, raw)];
    if sendOk then
      var issued := a.(resetToken := Some(crypto.sha256(raw)), resetExpires := Some(expires));
      PutKeepsEmailsUnique(store, id, issued);
      Effect(store.Put(id, issued), Ok(Reply(200, ResetRequestedMessage, ())), mails)
    else
      // the token saved before the mail was tried is cleared and saved again
      var cleared := a.(resetToken := None, resetExpires := None);
      PutKeepsEmailsUnique(store, id, cleared);
      Effect(store.Put(id, cleared), Err(AppError("Failed to send password reset email", 500)), mails)
  }

  /** When mail works, the answer does not tell whether the email belongs to anyone. */
  lemma ForgotPasswordHidesAccounts(store: Accounts, email: string, other: string, crypto: Crypto,
                                    raw: string, expires: int)
    requires store.Valid() && email != "" && other != ""
    ensures ForgotPassword(store, Some(email), crypto, raw, expires, true).outcome
         == ForgotPassword(store, Some(other), crypto, raw, expires, true).outcome
  {
  }

  /**
   * `resetPassword`: token and password are required; the first account holding the
   * token's hash unexpired gets the new password, its reset fields are cleared, and a
   * session is returned; no such account gives 400.
   */
  function ResetPassword(store: Accounts, token: Option<string>, password: Option<string>,
                         crypto: Crypto, now: int): (r: Effect<Session>)
    requires store.Valid()
    ensures r.state.Valid() && r.mails == []
    ensures r.outcome.Err? ==> r.state == store
    ensures !Given(token) || !Given(password) ==> r.outcome == Err(AppError("Token and password are required", 400))
    ensures Given(token) && Given(password) ==>
              (r.outcome.Ok? <==> exists k :: k in store.rows && ResetsWith(store.rows[k], crypto.sha256(token.value), now))
    ensures Given(token) && Given(password) && r.outcome.Err? ==>
              r.outcome.error == AppError(InvalidResetMessage, 400)
    ensures r.outcome.Ok? ==>
              var id := r.outcome.value.data.user.id;
              && Given(token) && Given(password)
              && id in store.rows && ResetsWith(store.rows[id], crypto.sha256(token.value), now)
              && r.state.rows == store.rows[id := store.rows[id].(password := password.value, resetToken := None, resetExpires := None)]
              && r.outcome.value == Reply(200, "Password reset successfully",
                                          Session(ProfileOf(id, r.state.rows[id]), crypto.sign(id)))
    ensures UniqueEmails(store) ==> UniqueEmails(r.state)
  {
    if !Given(token) || !Given(password) then
      Fail(store, AppError("Token and password are required", 400))
    else
      var hashed := crypto.sha256(token.value);
      match store.FirstWhere((a: Account) => ResetsWith(a, hashed, now))
      case None => Fail(store, AppError(InvalidResetMessage, 400))
      case Some(id) =>
        var a := store.rows[id].(password := password.value, resetToken := None, resetExpires := None);
        var store' := store.Put(id, a);
        Effect(store', Ok(Reply(200, "Password reset successfully", Session(ProfileOf(id, a), crypto.sign(id)))), [])
  }

  /** A reset link works once: using it again never resets the same account twice. */
  lemma ResetPasswordSingleUse(store: Accounts, token: Option<string>, password: Option<string>,
                               password': Option<string>, crypto: Crypto, now: int, later: int)
    requires store.Valid()
    ensures var first := ResetPassword(store, token, password, crypto, now);
            var second := ResetPassword(first.state, token, password', crypto, later);
            first.outcome.Ok? && second.outcome.Ok? ==> second.outcome.value.data.user.id != first.outcome.value.data.user.id
  {
  }

  /**
   * Replaying a reset link answers 400: once the link has reset its account's password, a
   * second use fails, provided no other account holds the same token hash.
   */
  lemma ResetPasswordReplayRefused(store: Accounts, token: string, password: string, password': string,
                                   crypto: Crypto, now: int, later: int)
    requires store.Valid()
    requires token != "" && password != "" && password' != ""
    requires forall j, k ::
               (j in store.rows && k in store.rows && store.rows[j].resetToken == Some(crypto.sha256(token))
                && store.rows[k].resetToken == Some(crypto.sha256(token))) ==> j == k
    ensures var first := ResetPassword(store, Some(token), Some(password), crypto, now);
            first.outcome.Ok? ==>
              ResetPassword(first.state, Some(token), Some(password'), crypto, later).outcome
                == Err(AppError(InvalidResetMessage, 400))
  {
    var first := ResetPassword(store, Some(token), Some(password), crypto, now);
    if first.outcome.Ok? {
      var id := first.outcome.value.data.user.id;
      var h := crypto.sha256(token);
      forall k | k in first.state.rows
        ensures !ResetsWith(first.state.rows[k], h, later)
      {
        if k != id {
          assert first.state.rows[k] == store.rows[k];
        }
      }
    }
  }

  /**
   * After a reset, the new password signs in with the account's email, provided the
   * account is in good standing and its stored email is in lower case.
   */
  lemma ResetThenLogin(store: Accounts, token: string, password: string, email: string, crypto: Crypto, now: int)
    requires store.Valid() && UniqueEmails(store)
    requires token != "" && password != "" && email != ""
    requires forall p :: crypto.passwordMatches(p, p)
    ensures var r := ResetPassword(store, Some(token), Some(password), crypto, now);
            r.outcome.Ok? ==>
              var a := r.state.rows[r.outcome.value.data.user.id];
              a.email == ToLower(email) && InGoodStanding(a) ==>
                Login(r.state, Some(email), Some(password), crypto).outcome.Ok?
  {
    var r := ResetPassword(store, Some(token), Some(password), crypto, now);
    if r.outcome.Ok? {
      var id := r.outcome.value.data.user.id;
      var a := r.state.rows[id];
      if a.email == ToLower(email) && InGoodStanding(a) {
        assert crypto.passwordMatches(password, a.password);
        LoginSucceedsIff(r.state, email, password, crypto);
      }
    }
  }

  /**
   * A reset checks none of the account's flags: a suspended, deleted, inactive or
   * unverified account still gets a session, which login would have refused.
   */
  lemma ResetIgnoresStanding(store: Accounts, token: string, password: string, crypto: Crypto, now: int, id: nat)
    requires store.Valid()
    requires token != "" && password != ""
    requires id in store.rows && ResetsWith(store.rows[id], crypto.sha256(token), now)
    ensures ResetPassword(store, Some(token), Some(password), crypto, now).outcome.Ok?
  {
  }
}

=== FILE: auth_middleware.dfy ===
/**
 * The access gate of src/middleware/auth.middleware.ts: `protect` reads a bearer token,
 * verifies it and loads its user; `restrictToAdmin` then lets only admins through.
 */
module AuthMiddleware {
  import opened Outcomes
  import opened Js
  import opened Tables
  import opened Errors
  import opened Accounts

  /** What the gate reads of a request: its method and its `Authorization` header. */
  datatype Request = Request(verb: string, authorization: Option<string>)

  /** A gate either calls `next()` (with the user attached, if any) or `next(error)`. */
  datatype Gate = Pass(user: Option<Entry<Account>>) | Reject(error: Thrown)

  const NotLoggedIn := AppError("You are not logged in. Please log in to get access.", 401)
  const BadToken := AppError("Invalid or expired token. Please log in again.", 401)
  const UserGone := AppError("The user belonging to this token no longer exists.", 401)
  const NotAdmin := AppError("You do not have permission to perform this action", 403)

  function StartsWith(s: string, prefix: string): bool
  {
    |prefix| <= |s| && s[..|prefix|] == prefix
  }

  /** The position of the first space in `s`, or `|s|` when there is none. */
  function SpaceIndex(s: string): (i: nat)
    ensures i <= |s|
    ensures i < |s| ==> s[i] == ' '
    ensures forall j :: 0 <= j < i ==> s[j] != ' '
  {
    if |s| == 0 then 0
    else if s[0] == ' ' then 0
    else 1 + SpaceIndex(s[1..])
  }

  /** `s.split(' ')`: the pieces between single spaces (empty pieces included). */
  function Split(s: string): (parts: seq<string>)
    ensures |parts| >= 1
    ensures forall k :: 0 <= k < |parts| ==> ' ' !in parts[k]
    decreases |s|
  {
    var i := SpaceIndex(s);
    if i == |s| then [s]
    else [s[..i]] + Split(s[i + 1..])
  }

  /** The first space is where the first space is. */
  lemma SpaceIndexAt(s: string, i: nat)
    requires i <= |s|
    requires i < |s| ==> s[i] == ' '
    requires forall j :: 0 <= j < i ==> s[j] != ' '
    ensures SpaceIndex(s) == i
  {
  }

  /** One step of `Split` at the first space. */
  lemma SplitAt(s: string, i: nat)
    requires i < |s| && s[i] == ' '
    requires forall j :: 0 <= j < i ==> s[j] != ' '
    ensures Split(s) == [s[..i]] + Split(s[i + 1..])
  {
    SpaceIndexAt(s, i);
  }

  /** Splitting and joining with single spaces gives the header back. */
  lemma {:induction false} SplitJoin(s: string)
    ensures Join(Split(s), " ") == s
    decreases |s|
  {
    var i := SpaceIndex(s);
    if i < |s| {
      var rest := s[i + 1..];
      var tail := Split(rest);
      SplitAt(s, i);
      SplitJoin(rest);
      var parts := Split(s);
      assert parts[0] == s[..i] && parts[1..] == tail;
      calc {
        Join(parts, " ");
        s[..i] + " " + Join(tail, " ");
        s[..i] + " " + rest;
        { assert s == s[..i] + [s[i]] + rest; }
        s;
      }
    }
  }

  /** Joining space-free pieces and splitting again gives the pieces back. */
  lemma {:induction false} JoinSplit(parts: seq<string>)
    requires |parts| >= 1
    requires forall k :: 0 <= k < |parts| ==> ' ' !in parts[k]
    ensures Split(Join(parts, " ")) == parts
  {
    if |parts| == 1 {
      SpaceIndexAt(parts[0], |parts[0]|);
    } else {
      var head := parts[0];
      var rest := Join(parts[1..], " ");
      var s := head + " " + rest;
      assert Join(parts, " ") == s;
      assert s[..|head|] == head;
      assert s[|head| + 1..] == rest;
      SplitAt(s, |head|);
      JoinSplit(parts[1..]);
      assert parts == [head] + parts[1..];
    }
  }

  /**
   * The token `protect` reads: present only when the header is truthy and starts with
   * `Bearer`, and then the second space-separated piece, if there is one.
   */
  function BearerToken(header: Option<string>): (t: Option<string>)
    ensures t.Some? ==> ' ' !in t.value
    ensures header.None? || !StartsWith(header.value, "Bearer") ==> t.None?
  {
    if header.Some? && header.value != "" && StartsWith(header.value, "Bearer") then
      var parts := Split(header.value);
      if |parts| > 1 then Some(parts[1]) else None
    else None
  }

  /** A header that starts with `Bearer` followed by a space is read by its split. */
  lemma BearerPrefixed(h: string, r: string)
    requires h == "Bearer" + " " + r
    ensures BearerToken(Some(h)) == (if |Split(h)| > 1 then Some(Split(h)[1]) else None)
  {
    assert h[..6] == "Bearer";
  }

  /**
   * A header made of `Bearer`, the token and anything further, joined by single spaces,
   * yields the token whenever no piece holds a space.
   */
  lemma BearerRoundTrip(parts: seq<string>)
    requires |parts| >= 2 && parts[0] == "Bearer"
    requires forall k :: 0 <= k < |parts| ==> ' ' !in parts[k]
    ensures BearerToken(Some(Join(parts, " "))) == Some(parts[1])
  {
    JoinSplit(parts);
    var h := Join(parts, " ");
    assert h == "Bearer" + " " + Join(parts[1..], " ");
    BearerPrefixed(h, Join(parts[1..], " "));
  }

  /** A bare `Bearer` and a double space both leave no usable token. */
  lemma MalformedHeadersHaveNoToken(x: string)
    ensures BearerToken(Some("Bearer")) == None
    ensures ' ' !in x ==> BearerToken(Some("Bearer  " + x)) == Some("")
  {
    SpaceIndexAt("Bearer", 6);
    if ' ' !in x {
      var h := "Bearer  " + x;
      SplitAt(h, 6);
      assert h[7..] == " " + x;
      SplitAt(h[7..], 0);
      assert h[7..][1..] == x;
      SpaceIndexAt(x, |x|);
      assert h[..6] == "Bearer";
    }
  }

  /**
   * `protect`: a preflight passes untouched; otherwise a missing token, a token that does
   * not verify, and a token whose user is gone each give 401; else the user is attached.
   * The account's flags are not looked at.
   */
  function Protect(req: Request, store: Accounts, crypto: Crypto): (g: Gate)
    ensures req.verb == "OPTIONS" ==> g == Pass(None)
    ensures req.verb != "OPTIONS" && !Given(BearerToken(req.authorization)) ==> g == Reject(NotLoggedIn)
    ensures g.Reject? ==> g.error in {NotLoggedIn, BadToken, UserGone}
    ensures g.Pass? && req.verb != "OPTIONS" <==>
            && req.verb != "OPTIONS"
            && Given(BearerToken(req.authorization))
            && crypto.verify(BearerToken(req.authorization).value).Some?
            && crypto.verify(BearerToken(req.authorization).value).value in store.rows
    ensures g.Pass? && g.user.Some? ==>
            && g.user.value.id in store.rows && g.user.value.row == store.rows[g.user.value.id]
            && crypto.verify(BearerToken(req.authorization).value) == Some(g.user.value.id)
  {
    if req.verb == "OPTIONS" then Pass(None)
    else
      var token := BearerToken(req.authorization);
      if !Given(token) then Reject(NotLoggedIn)
      else match crypto.verify(token.value)
        case None => Reject(BadToken)
        case Some(id) =>
          if id !in store.rows then Reject(UserGone)
          else Pass(Some(Entry(id, store.rows[id])))
  }

  /** `restrictToAdmin`: no attached user gives 401, a non-admin 403. */
  function RestrictToAdmin(user: Option<Entry<Account>>): (g: Gate)
    ensures user.None? ==> g == Reject(NotLoggedIn)
    ensures user.Some? && user.value.row.role != AdminRole ==> g == Reject(NotAdmin)
    ensures g.Pass? <==> user.Some? && user.value.row.role == AdminRole
    ensures g.Pass? ==> g.user == user
  {
    if user.None? then Reject(NotLoggedIn)
    else if user.value.row.role != AdminRole then Reject(NotAdmin)
    else Pass(user)
  }

  /**
   * Suspending, deleting, deactivating or un-verifying an account does not lock its
   * tokens out: `protect` decides the same way whatever the flags say.
   */
  lemma FlagsIgnored(req: Request, store: Accounts, crypto: Crypto, id: nat,
                     verified: bool, suspended: bool, deleted: bool, active: bool)
    requires id in store.rows
    ensures var a := store.rows[id];
            var store' := store.Put(id, a.(isVerified := verified, isSuspended := suspended,
                                           isDeleted := deleted, isActive := active));
            Protect(req, store', crypto).Pass? == Protect(req, store, crypto).Pass?
  {
  }
}

=== FILE: booking_controller.dfy ===
/**
 * The booking handlers of src/modules/booking/booking.controller.ts over a booking
 * collection. The request's `:id` is a store id (casting of malformed ids is not modelled);
 * `now` is the clock reading the schema's timestamps take.
 */
module BookingController {
  import opened Outcomes
  import opened Js
  import opened Text
  import opened Dates
  import opened BookingModel
  import opened Tables
  import opened Errors
  import opened Sorting
  import Http

  type Bookings = Table<Booking>

  /** Every stored booking satisfies the schema. */
  predicate AllValid(store: Bookings)
  {
    forall k :: k in store.rows ==> ValidBooking(store.rows[k])
  }

  /** Rewriting a booking of a schema-valid store keeps it valid when the rewrite is valid, or the old one was not. */
  lemma PutKeepsAllValid(store: Bookings, id: nat, b: Booking)
    requires id in store.rows && (ValidBooking(store.rows[id]) ==> ValidBooking(b))
    ensures AllValid(store) ==> AllValid(store.Put(id, b))
  {
  }

  datatype ClientInput = ClientInput(name: Option<string>, phone: Option<string>, email: Option<string>)

  /** The body of `POST /bookings`; a field left out is `None`. */
  datatype CreateInput = CreateInput(
    service: Option<string>,
    hours: Option<int>,
    cleaners: Option<int>,
    materials: Option<string>,
    date: Option<string>,
    time: Option<string>,
    area: Option<string>,
    address: Option<Address>,
    client: Option<ClientInput>,
    notes: Option<string>,
    totalQAR: Option<int>)

  /** The handler's first check: every required field is truthy (so `0` hours or `0` QAR fail it). */
  predicate RequiredGiven(body: CreateInput)
  {
    && Given(body.service) && GivenNum(body.hours) && GivenNum(body.cleaners) && Given(body.materials)
    && Given(body.date) && Given(body.time) && Given(body.area) && GivenObj(body.client)
    && GivenNum(body.totalQAR)
  }

  /** The handler's second check: the client snapshot has a truthy name and phone. */
  predicate ClientGiven(body: CreateInput)
    requires body.client.Some?
  {
    Given(body.client.value.name) && Given(body.client.value.phone)
  }

  /** The document `createBooking` asks the store to create, with the handler's defaults. */
  function NewDraft(body: CreateInput, caller: Option<nat>, now: int): Draft
    requires RequiredGiven(body) && ClientGiven(body)
  {
    var c := body.client.value;
    Draft(body.service.value, body.hours.value, body.cleaners.value, body.materials.value,
          body.date.value, body.time.value, body.area.value, body.address.GetOr(NoAddress),
          Client(c.name.value, c.phone.value, c.email), body.notes, body.totalQAR.value,
          "pending", PaymentDraft("unpaid", None, None), [], caller, now, now)
  }

  /**
   * `createBooking`: rejects a body missing a required field (400), then one whose client
   * lacks a name or phone (400); otherwise stores a new booking that is `pending`, `unpaid`
   * with no method or invoice, has no staff assigned, and an empty address when none was
   * given. `caller` is the authenticated user, if any.
   */
  function CreateBooking(store: Bookings, body: CreateInput, caller: Option<nat>, now: int): (h: Handled<Bookings, Entry<Booking>>)
    requires store.Valid()
    ensures AllValid(store) ==> AllValid(h.state)
    ensures h.state.Valid()
    ensures h.outcome.Err? ==> h.state == store
    ensures !RequiredGiven(body) ==> h.outcome == Err(AppError("Missing required booking fields", 400))
    ensures RequiredGiven(body) && !ClientGiven(body) ==> h.outcome == Err(AppError("Client name and phone are required", 400))
    ensures RequiredGiven(body) && ClientGiven(body) && Validate(NewDraft(body, caller, now)).Err? ==>
              h.outcome == Err(ValidationError(Validate(NewDraft(body, caller, now)).error))
    ensures h.outcome.Ok? ==>
      var e := h.outcome.value.data;
      && RequiredGiven(body) && ClientGiven(body)
      && h.outcome.value.status == 201
      && e.id !in store.rows && h.state.rows == store.rows[e.id := e.row]
      && Validate(NewDraft(body, caller, now)) == Ok(e.row)
      && ValidBooking(e.row)
      && e.row.status == Pending
      && e.row.payment == Payment(Unpaid, None, None)
      && e.row.assignedStaffIds == []
      && (body.address.None? ==> e.row.address == NoAddress)
      && e.row.userId == caller
      && e.row.createdAt == now
      && e.row.hours == body.hours.value && e.row.totalQAR == body.totalQAR.value
  {
    if !RequiredGiven(body) then
      Handled(store, Err(AppError("Missing required booking fields", 400)))
    else if !ClientGiven(body) then
      Handled(store, Err(AppError("Client name and phone are required", 400)))
    else
      match Validate(NewDraft(body, caller, now))
      case Err(messages) => Handled(store, Err(ValidationError(messages)))
      case Ok(b) =>
        var (t, id) := store.Insert(b);
        Handled(t, Ok(Reply(201, "Booking created successfully", Entry(id, b))))
  }

  /** A body passing both checks is stored exactly when the schema accepts the resulting document. */
  lemma CreateSucceedsIffSchemaAccepts(store: Bookings, body: CreateInput, caller: Option<nat>, now: int)
    requires store.Valid()
    ensures CreateBooking(store, body, caller, now).outcome.Ok?
            <==> RequiredGiven(body) && ClientGiven(body) && Validate(NewDraft(body, caller, now)).Ok?
  {
  }

  /**
   * A free booking or one of zero hours never reaches the store: the handler's truthiness
   * check rejects it even though the schema allows `totalQAR = 0`.
   */
  lemma ZeroRejected(store: Bookings, body: CreateInput, caller: Option<nat>, now: int)
    requires store.Valid()
    requires body.totalQAR == Some(0) || body.hours == Some(0)
    ensures CreateBooking(store, body, caller, now) == Handled(store, Err(AppError("Missing required booking fields", 400)))
  {
  }

  /** A query filter that constrains: given and not `'all'`. */
  predicate Filters(f: Option<string>)
  {
    Given(f) && f.value != "all"
  }

  /** A booking passes the `status` and `payment` query filters of `getAllBookings`. */
  predicate Selected(b: Booking, status: Option<string>, payment: Option<string>)
  {
    && (Filters(status) ==> StatusName(b.status) == status.value)
    && (Filters(payment) ==> PaymentStatusName(b.payment.status) == payment.value)
  }

  function SelectEntries(es: seq<Entry<Booking>>, status: Option<string>, payment: Option<string>): (r: seq<Entry<Booking>>)
    ensures forall e :: e in r <==> e in es && Selected(e.row, status, payment)
    ensures |r| <= |es|
  {
    if |es| == 0 then []
    else (if Selected(es[0].row, status, payment) then [es[0]] else []) + SelectEntries(es[1..], status, payment)
  }

  /** `sort({ createdAt: -1 })`: the newer booking comes first. */
  predicate NewerBooking(a: Entry<Booking>, b: Entry<Booking>)
  {
    a.row.createdAt > b.row.createdAt
  }

  lemma NewerBookingIsStrictWeakOrder()
    ensures StrictWeakOrder(NewerBooking)
  {
  }

  /**
   * `getAllBookings` (search left out): exactly the stored bookings passing the filters,
   * each once, newest first. A filter that is absent, empty or `'all'` constrains nothing.
   */
  function GetAllBookings(store: Bookings, status: Option<string>, payment: Option<string>): (r: Reply<seq<Entry<Booking>>>)
    requires store.Valid()
    ensures r.status == 200
    ensures multiset(r.data) == multiset(SelectEntries(store.Entries(), status, payment))
    ensures forall e :: e in r.data <==> e.id in store.rows && e.row == store.rows[e.id] && Selected(e.row, status, payment)
    ensures forall i, j :: 0 <= i < j < |r.data| ==> r.data[i].row.createdAt >= r.data[j].row.createdAt
  {
    var selected := SelectEntries(store.Entries(), status, payment);
    var sorted := Sort(selected, NewerBooking);
    NewerBookingIsStrictWeakOrder();
    SortOrderedAndStable(selected, NewerBooking);
    assert forall e :: e in sorted <==> e in selected by {
      forall e ensures e in sorted <==> e in selected {
        assert e in sorted <==> e in multiset(sorted);
        assert e in selected <==> e in multiset(selected);
      }
    }
    EntriesMembership(store);
    Reply(200, "Bookings retrieved successfully", sorted)
  }

  /** Without filters every stored booking is listed. */
  lemma NoFilterListsAll(store: Bookings, status: Option<string>, payment: Option<string>)
    requires store.Valid()
    requires !Filters(status) && !Filters(payment)
    ensures forall k :: k in store.rows ==> Entry(k, store.rows[k]) in GetAllBookings(store, status, payment).data
  {
  }

  /** `getBookingById`: the stored booking, or 404. */
  function GetBookingById(store: Bookings, id: nat): (r: Result<Reply<Booking>, Thrown>)
    ensures r.Ok? <==> id in store.rows
    ensures r.Ok? ==> r.value.status == 200 && r.value.data == store.rows[id]
    ensures r.Err? ==> r.error == AppError("Booking not found", 404)
  {
    if id !in store.rows then Err(AppError("Booking not found", 404))
    else Ok(Reply(200, "Booking retrieved successfully", store.rows[id]))
  }

  /**
   * `updateBookingStatus`: an absent status or one outside the five gives 400 before the
   * booking is looked up; an unknown id gives 404; otherwise only the status (and the
   * update timestamp) changes, whatever the previous status was.
   */
  function UpdateBookingStatus(store: Bookings, id: nat, status: Option<string>, now: int): (h: Handled<Bookings, Booking>)
    ensures AllValid(store) ==> AllValid(h.state)
    ensures h.outcome.Err? ==> h.state == store
    ensures !Given(status) || ParseStatus(status.value).None? ==> h.outcome == Err(AppError("Invalid status", 400))
    ensures Given(status) && ParseStatus(status.value).Some? && id !in store.rows
            ==> h.outcome == Err(AppError("Booking not found", 404))
    ensures h.outcome.Ok? ==>
      && id in store.rows
      && StatusName(h.outcome.value.data.status) == status.value
      && h.outcome.value.data == store.rows[id].(status := h.outcome.value.data.status, updatedAt := now)
      && h.state.rows == store.rows[id := h.outcome.value.data]
      && h.state.next == store.next
  {
    if !Given(status) || ParseStatus(status.value).None? then
      Handled(store, Err(AppError("Invalid status", 400)))
    else if id !in store.rows then
      Handled(store, Err(AppError("Booking not found", 404)))
    else
      var b := store.rows[id].(status := ParseStatus(status.value).value, updatedAt := now);
      Handled(store.Put(id, b), Ok(Reply(200, "Booking status updated successfully", b)))
  }

  /** Every status can be reached from every status: the handler imposes no transition order. */
  lemma AnyStatusTransition(store: Bookings, id: nat, from: Status, to: Status, now: int)
    requires id in store.rows && store.rows[id].status == from
    ensures UpdateBookingStatus(store, id, Some(StatusName(to)), now).outcome.Ok?
    ensures UpdateBookingStatus(store, id, Some(StatusName(to)), now).state.rows[id].status == to
  {
    EnumNamesRoundTrip(to, Unpaid, Cash, With);
  }

  /**
   * `updatePaymentStatus`: the payment status must be one of three (400 otherwise, before
   * the lookup); a given method is checked by the schema's enum (a ValidationError, also
   * before the lookup); an unknown id gives 404. Method and invoice id are set only when
   * given, and nothing outside the payment changes.
   */
  function UpdatePaymentStatus(store: Bookings, id: nat, status: Option<string>, payMethod: Option<string>,
                               invoiceId: Option<string>, now: int): (h: Handled<Bookings, Booking>)
    ensures AllValid(store) ==> AllValid(h.state)
    ensures h.outcome.Err? ==> h.state == store
    ensures !Given(status) || ParsePaymentStatus(status.value).None?
            ==> h.outcome == Err(AppError("Invalid payment status", 400))
    ensures Given(status) && ParsePaymentStatus(status.value).Some? && Given(payMethod) && ParseMethod(payMethod.value).None?
            ==> h.outcome == Err(ValidationError([EnumMessage(payMethod.value, "payment.method")]))
    ensures Given(status) && ParsePaymentStatus(status.value).Some?
            && (!Given(payMethod) || ParseMethod(payMethod.value).Some?) && id !in store.rows
            ==> h.outcome == Err(AppError("Booking not found", 404))
    ensures h.outcome.Ok? <==>
              && Given(status) && ParsePaymentStatus(status.value).Some?
              && (!Given(payMethod) || ParseMethod(payMethod.value).Some?)
              && id in store.rows
    ensures h.outcome.Ok? ==>
      var b := h.outcome.value.data;
      && id in store.rows
      && PaymentStatusName(b.payment.status) == status.value
      && (Given(payMethod) ==> b.payment.payMethod.Some? && MethodName(b.payment.payMethod.value) == payMethod.value)
      && (!Given(payMethod) ==> b.payment.payMethod == store.rows[id].payment.payMethod)
      && (Given(invoiceId) ==> b.payment.invoiceId == Some(Trim(invoiceId.value)))
      && (!Given(invoiceId) ==> b.payment.invoiceId == store.rows[id].payment.invoiceId)
      && b == store.rows[id].(payment := b.payment, updatedAt := now)
      && h.state.rows == store.rows[id := b]
  {
    if !Given(status) || ParsePaymentStatus(status.value).None? then
      Handled(store, Err(AppError("Invalid payment status", 400)))
    else if Given(payMethod) && ParseMethod(payMethod.value).None? then
      Handled(store, Err(ValidationError([EnumMessage(payMethod.value, "payment.method")])))
    else if id !in store.rows then
      Handled(store, Err(AppError("Booking not found", 404)))
    else
      var prev := store.rows[id];
      var pay := Payment(ParsePaymentStatus(status.value).value,
                         if Given(payMethod) then Some(ParseMethod(payMethod.value).value) else prev.payment.payMethod,
                         if Given(invoiceId) then Some(Trim(invoiceId.value)) else prev.payment.invoiceId);
      var b := prev.(payment := pay, updatedAt := now);
      TrimIdempotent(invoiceId.GetOr(""));
      assert ValidBooking(prev) ==> ValidBooking(b);
      PutKeepsAllValid(store, id, b);
      Handled(store.Put(id, b), Ok(Reply(200, "Payment status updated successfully", b)))
  }

  /** Sending the same payment update twice has the effect of sending it once. */
  lemma PaymentUpdateIdempotent(store: Bookings, id: nat, status: Option<string>, payMethod: Option<string>,
                                invoiceId: Option<string>, now: int)
    ensures var once := UpdatePaymentStatus(store, id, status, payMethod, invoiceId, now);
            UpdatePaymentStatus(once.state, id, status, payMethod, invoiceId, now) == once
  {
    var once := UpdatePaymentStatus(store, id, status, payMethod, invoiceId, now);
    if once.outcome.Ok? {
      var b := once.outcome.value.data;
      TrimIdempotent(invoiceId.GetOr(""));
      assert once.state.rows[id] == b;
      assert once.state.Put(id, b) == once.state;
    }
  }

  /**
   * `assignStaff`: a value that is not an array (`None`) gives 400; an unknown id gives
   * 404; otherwise the assigned list is replaced wholesale, in the given order.
   */
  function AssignStaff(store: Bookings, id: nat, staffIds: Option<seq<string>>, now: int): (h: Handled<Bookings, Booking>)
    ensures AllValid(store) ==> AllValid(h.state)
    ensures h.outcome.Err? ==> h.state == store
    ensures staffIds.None? ==> h.outcome == Err(AppError("staffIds must be an array", 400))
    ensures staffIds.Some? && id !in store.rows ==> h.outcome == Err(AppError("Booking not found", 404))
    ensures h.outcome.Ok? <==> staffIds.Some? && id in store.rows
    ensures h.outcome.Ok? ==>
      && id in store.rows && staffIds.Some?
      && h.outcome.value.data == store.rows[id].(assignedStaffIds := staffIds.value, updatedAt := now)
      && h.state.rows == store.rows[id := h.outcome.value.data]
  {
    if staffIds.None? then Handled(store, Err(AppError("staffIds must be an array", 400)))
    else if id !in store.rows then Handled(store, Err(AppError("Booking not found", 404)))
    else
      var b := store.rows[id].(assignedStaffIds := staffIds.value, updatedAt := now);
      Handled(store.Put(id, b), Ok(Reply(200, "Staff assigned successfully", b)))
  }

  /** Assigning the same staff list twice has the effect of assigning it once. */
  lemma AssignStaffIdempotent(store: Bookings, id: nat, staffIds: Option<seq<string>>, now: int)
    ensures var once := AssignStaff(store, id, staffIds, now);
            AssignStaff(once.state, id, staffIds, now) == once
  {
    var once := AssignStaff(store, id, staffIds, now);
    if once.outcome.Ok? {
      assert once.state.Put(id, once.outcome.value.data) == once.state;
    }
  }

  /**
   * The body of `PATCH /bookings/:id`: any booking field, plus the `_id`, `createdAt` and
   * `updatedAt` the handler deletes before updating.
   */
  datatype BookingPatch = BookingPatch(
    service: Option<string>,
    hours: Option<int>,
    cleaners: Option<int>,
    materials: Option<string>,
    date: Option<string>,
    time: Option<string>,
    area: Option<string>,
    address: Option<Address>,
    client: Option<Client>,
    notes: Option<string>,
    totalQAR: Option<int>,
    status: Option<string>,
    payment: Option<PaymentDraft>,
    assignedStaffIds: Option<seq<string>>,
    userId: Option<nat>,
    id: Option<nat>,
    createdAt: Option<int>,
    updatedAt: Option<int>)

  /** The stored booking with the patch's fields set; `_id` and the timestamps are never taken from it. */
  function ApplyPatch(b: Booking, p: BookingPatch, now: int): (d: Draft)
    ensures d.createdAt == b.createdAt && d.updatedAt == now
  {
    var d := ToDraft(b);
    Draft(p.service.GetOr(d.service), p.hours.GetOr(d.hours), p.cleaners.GetOr(d.cleaners),
          p.materials.GetOr(d.materials), p.date.GetOr(d.date), p.time.GetOr(d.time), p.area.GetOr(d.area),
          p.address.GetOr(d.address), p.client.GetOr(d.client),
          if p.notes.Some? then p.notes else d.notes,
          p.totalQAR.GetOr(d.totalQAR), p.status.GetOr(d.status), p.payment.GetOr(d.payment),
          p.assignedStaffIds.GetOr(d.assignedStaffIds),
          if p.userId.Some? then p.userId else d.userId,
          d.createdAt, now)
  }

  /** The client email as the setters leave it: trimmed, then lower-cased. */
  function SetEmail(e: Option<string>): (r: Option<string>)
    ensures r.Some? <==> e.Some?
  {
    if e.Some? then Some(ToLower(Trim(e.value))) else None
  }

  function SetAddress(a: Address): Address
  {
    Address(TrimOpt(a.zone), TrimOpt(a.building), TrimOpt(a.street))
  }

  function SetClient(c: Client): Client
  {
    Client(Trim(c.name), Trim(c.phone), SetEmail(c.email))
  }

  /**
   * The update as it reaches the validators: the handler has deleted `_id`, `createdAt` and
   * `updatedAt`, and the store has run the schema's setters (trim, and lowercase on the
   * client email) on every written path.
   */
  function CastUpdate(p: BookingPatch): (q: BookingPatch)
    ensures q.hours == p.hours && q.cleaners == p.cleaners && q.materials == p.materials
    ensures q.date == p.date && q.time == p.time && q.totalQAR == p.totalQAR && q.status == p.status
    ensures q.assignedStaffIds == p.assignedStaffIds && q.userId == p.userId
    ensures q.id.None? && q.createdAt.None? && q.updatedAt.None?
  {
    p.(id := None, createdAt := None, updatedAt := None,
       service := if p.service.Some? then Some(Trim(p.service.value)) else None,
       area := if p.area.Some? then Some(Trim(p.area.value)) else None,
       address := if p.address.Some? then Some(SetAddress(p.address.value)) else None,
       client := if p.client.Some? then Some(SetClient(p.client.value)) else None,
       notes := TrimOpt(p.notes),
       payment := if p.payment.Some? then Some(p.payment.value.(invoiceId := TrimOpt(p.payment.value.invoiceId))) else None)
  }

  /** The messages of one validator: none when the patch does not write its path. */
  function When(written: bool, v: seq<string>): (r: seq<string>)
    ensures r == [] <==> !written || v == []
  {
    if written then v else []
  }

  /** The validators of the job paths a (set) patch writes, in the schema's order. */
  function PatchJobViolations(q: BookingPatch): seq<string>
  {
    var materials := q.materials.GetOr("");
    var date := q.date.GetOr("");
    When(q.service.Some?, Check(q.service.GetOr("") != "", "Service type is required"))
    + When(q.hours.Some?, Check(q.hours.GetOr(0) >= 1, "Hours must be at least 1"))
    + When(q.cleaners.Some?, Check(q.cleaners.GetOr(0) >= 1, "Must have at least 1 cleaner"))
    + When(q.materials.Some?, Check(materials != "", "Materials choice is required"))
    + When(q.materials.Some?, Check(materials == "" || ParseMaterials(materials).Some?, EnumMessage(materials, "materials")))
    + When(q.date.Some?, Check(date != "", "Date is required"))
    + When(q.date.Some?, Check(date == "" || IsIsoDate(date), "Date must be in YYYY-MM-DD format"))
    + When(q.time.Some?, Check(q.time.GetOr("") != "", "Time is required"))
    + When(q.area.Some?, Check(q.area.GetOr("") != "", "Area is required"))
  }

  /** The validators of a client snapshot, in the schema's order. */
  function ClientRules(c: Client): seq<string>
  {
    Check(c.name != "", "Client name is required")
    + Check(c.phone != "", "Client phone is required")
    + Check(c.email.None? || c.email.value == "" || MatchesEmail(c.email.value), "Please provide a valid email address")
  }

  /** The validators of a written client snapshot. */
  function PatchClientViolations(q: BookingPatch): seq<string>
  {
    When(q.client.Some?, ClientRules(q.client.GetOr(Client("", "", None))))
  }

  /** The validators of the written total, status and payment, in the schema's order. */
  function PatchChargeViolations(q: BookingPatch): seq<string>
  {
    var status := q.status.GetOr("");
    var pd := q.payment.GetOr(PaymentDraft("", None, None));
    When(q.totalQAR.Some?, Check(q.totalQAR.GetOr(0) >= 0, "Total must be positive"))
    + When(q.status.Some?, Check(ParseStatus(status).Some?, EnumMessage(status, "status")))
    + When(q.payment.Some?, Check(ParsePaymentStatus(pd.status).Some?, EnumMessage(pd.status, "payment.status")))
    + When(q.payment.Some?, Check(pd.payMethod.None? || ParseMethod(pd.payMethod.value).Some?,
                                  EnumMessage(pd.payMethod.GetOr(""), "payment.method")))
  }

  /**
   * `runValidators` on an update: the setters run, then the schema's validators on exactly
   * the paths the patch writes, in schema order. A path the patch leaves alone is not checked.
   */
  function PatchViolations(p: BookingPatch): seq<string>
  {
    var q := CastUpdate(p);
    PatchJobViolations(q) + PatchClientViolations(q) + PatchChargeViolations(q)
  }

  /** A stored payment as the draft it would be re-validated as. */
  function PaymentToDraft(pay: Payment): PaymentDraft
  {
    PaymentDraft(PaymentStatusName(pay.status),
                 if pay.payMethod.Some? then Some(MethodName(pay.payMethod.value)) else None,
                 pay.invoiceId)
  }

  /** A payment draft cast to the enums; an unknown name keeps the fallback. */
  function CastPayment(pd: PaymentDraft, fallback: Payment): Payment
  {
    Payment(ParsePaymentStatus(pd.status).GetOr(fallback.status),
            if pd.payMethod.Some? then Some(ParseMethod(pd.payMethod.value).GetOr(Cash)) else None,
            pd.invoiceId)
  }

  /**
   * The stored booking with the written paths of a set patch stored, cast to the enums, and
   * the update timestamp. A path the patch leaves alone keeps its stored value.
   */
  function WritePaths(b: Booking, q: BookingPatch, now: int): (r: Booking)
    ensures r.createdAt == b.createdAt && r.updatedAt == now
    ensures q.service.None? ==> r.service == b.service
    ensures q.hours.None? ==> r.hours == b.hours
    ensures q.client.None? ==> r.client == b.client
    ensures q.status.None? ==> r.status == b.status
    ensures q.payment.None? ==> r.payment == b.payment
  {
    b.(service := q.service.GetOr(b.service),
       hours := q.hours.GetOr(b.hours),
       cleaners := q.cleaners.GetOr(b.cleaners),
       materials := if q.materials.Some? then ParseMaterials(q.materials.value).GetOr(b.materials) else b.materials,
       date := q.date.GetOr(b.date),
       time := q.time.GetOr(b.time),
       area := q.area.GetOr(b.area),
       address := q.address.GetOr(b.address),
       client := q.client.GetOr(b.client),
       notes := if q.notes.Some? then q.notes else b.notes,
       totalQAR := q.totalQAR.GetOr(b.totalQAR),
       status := if q.status.Some? then ParseStatus(q.status.value).GetOr(b.status) else b.status,
       payment := if q.payment.Some? then CastPayment(q.payment.value, b.payment) else b.payment,
       assignedStaffIds := q.assignedStaffIds.GetOr(b.assignedStaffIds),
       userId := if q.userId.Some? then q.userId else b.userId,
       updatedAt := now)
  }

  /** What `findByIdAndUpdate` stores for a patch: its written paths after the setters. */
  function PatchBooking(b: Booking, p: BookingPatch, now: int): Booking
  {
    WritePaths(b, CastUpdate(p), now)
  }

  /**
   * `updateBooking`: the setters and the update validators run on the written paths before
   * the booking is looked up, so an invalid patch gives a ValidationError even for an
   * unknown id; then an unknown id gives 404; otherwise the written paths are stored.
   */
  function UpdateBooking(store: Bookings, id: nat, patch: BookingPatch, now: int): (h: Handled<Bookings, Booking>)
    ensures AllValid(store) ==> AllValid(h.state)
    ensures h.outcome.Err? ==> h.state == store
    ensures PatchViolations(patch) != [] ==> h.outcome == Err(ValidationError(PatchViolations(patch)))
    ensures PatchViolations(patch) == [] && id !in store.rows ==> h.outcome == Err(AppError("Booking not found", 404))
    ensures h.outcome.Ok? <==> PatchViolations(patch) == [] && id in store.rows
    ensures h.outcome.Ok? ==>
      && h.outcome.value == Reply(200, "Booking updated successfully", PatchBooking(store.rows[id], patch, now))
      && h.state.rows == store.rows[id := h.outcome.value.data]
      && (ValidBooking(store.rows[id]) ==> Validate(ApplyPatch(store.rows[id], patch, now)) == Ok(h.outcome.value.data))
  {
    var v := PatchViolations(patch);
    if v != [] then Handled(store, Err(ValidationError(v)))
    else if id !in store.rows then Handled(store, Err(AppError("Booking not found", 404)))
    else
      var b := PatchBooking(store.rows[id], patch, now);
      assert ValidBooking(store.rows[id]) ==>
               ValidBooking(b) && Validate(ApplyPatch(store.rows[id], patch, now)) == Ok(b) by {
        if ValidBooking(store.rows[id]) {
          PatchAgreesWithWholeDocument(store.rows[id], patch, now);
        }
      }
      PutKeepsAllValid(store, id, b);
      Handled(store.Put(id, b), Ok(Reply(200, "Booking updated successfully", b)))
  }

  /**
   * On a booking the schema accepts, checking only the written paths gives exactly the
   * answer of validating the whole patched document: the same messages when it fails, and
   * the same stored booking when it passes.
   */
  lemma PatchAgreesWithWholeDocument(b: Booking, p: BookingPatch, now: int)
    requires ValidBooking(b)
    ensures Validate(ApplyPatch(b, p, now)).Err? <==> PatchViolations(p) != []
    ensures Validate(ApplyPatch(b, p, now)).Err? ==> Validate(ApplyPatch(b, p, now)).error == PatchViolations(p)
    ensures PatchViolations(p) == [] ==> Validate(ApplyPatch(b, p, now)) == Ok(PatchBooking(b, p, now))
    ensures PatchViolations(p) == [] ==> ValidBooking(PatchBooking(b, p, now))
  {
    PatchedViolations(b, p, now);
    if PatchViolations(p) == [] {
      PatchedBooking(b, p, now);
    }
  }

  /** The schema's validators on the whole patched document report the written paths' messages. */
  lemma PatchedViolations(b: Booking, p: BookingPatch, now: int)
    requires ValidBooking(b)
    ensures Violations(Normalize(ApplyPatch(b, p, now))) == PatchViolations(p)
  {
    var n := Normalize(ApplyPatch(b, p, now));
    var q := CastUpdate(p);
    PatchedFields(b, p, now);
    PatchedJobAgrees(b, q, n);
    PatchedClientAgrees(b, q, n);
    PatchedChargeAgrees(b, q, n);
  }

  /** A patched document the validators accept is cast to the patched booking. */
  lemma PatchedBooking(b: Booking, p: BookingPatch, now: int)
    requires ValidBooking(b)
    requires Acceptable(Normalize(ApplyPatch(b, p, now)))
    ensures Cast(Normalize(ApplyPatch(b, p, now))) == PatchBooking(b, p, now)
  {
    PatchedFields(b, p, now);
    PatchedCast(b, CastUpdate(p), now, Normalize(ApplyPatch(b, p, now)));
  }

  /** Each path of the patched document after the setters: the set patch's value, else the stored one. */
  lemma PatchedFields(b: Booking, p: BookingPatch, now: int)
    requires ValidBooking(b)
    ensures var d := Normalize(ApplyPatch(b, p, now));
            var q := CastUpdate(p);
            && d.service == q.service.GetOr(b.service) && d.area == q.area.GetOr(b.area)
            && d.hours == q.hours.GetOr(b.hours) && d.cleaners == q.cleaners.GetOr(b.cleaners)
            && d.materials == q.materials.GetOr(MaterialsName(b.materials))
            && d.date == q.date.GetOr(b.date) && d.time == q.time.GetOr(b.time)
            && d.address == q.address.GetOr(b.address)
            && d.client == q.client.GetOr(b.client)
            && d.notes == (if q.notes.Some? then q.notes else b.notes)
            && d.totalQAR == q.totalQAR.GetOr(b.totalQAR)
            && d.status == q.status.GetOr(StatusName(b.status))
            && d.payment == q.payment.GetOr(PaymentToDraft(b.payment))
            && d.assignedStaffIds == q.assignedStaffIds.GetOr(b.assignedStaffIds)
            && d.userId == (if q.userId.Some? then q.userId else b.userId)
            && d.createdAt == b.createdAt && d.updatedAt == now
  {
    PatchedStrings(b, p, now);
    PatchedExtras(b, p, now);
    PatchedClient(b, p, now);
  }

  /** The trimmed job strings of the patched document. */
  lemma PatchedStrings(b: Booking, p: BookingPatch, now: int)
    requires Trimmed(b.service) && Trimmed(b.area)
    ensures var d := Normalize(ApplyPatch(b, p, now));
            var q := CastUpdate(p);
            d.service == q.service.GetOr(b.service) && d.area == q.area.GetOr(b.area)
  {
    TrimOfTrimmed(b.service);
    TrimOfTrimmed(b.area);
  }

  /** The address, notes and payment of the patched document. */
  lemma PatchedExtras(b: Booking, p: BookingPatch, now: int)
    requires TrimmedOpt(b.notes) && TrimmedOpt(b.payment.invoiceId)
    requires TrimmedOpt(b.address.zone) && TrimmedOpt(b.address.building) && TrimmedOpt(b.address.street)
    ensures var d := Normalize(ApplyPatch(b, p, now));
            var q := CastUpdate(p);
            && d.address == q.address.GetOr(b.address)
            && d.notes == (if q.notes.Some? then q.notes else b.notes)
            && d.payment == q.payment.GetOr(PaymentToDraft(b.payment))
  {
    TrimOptOfTrimmed(b.address.zone);
    TrimOptOfTrimmed(b.address.building);
    TrimOptOfTrimmed(b.address.street);
    TrimOptOfTrimmed(b.notes);
    TrimOptOfTrimmed(b.payment.invoiceId);
  }

  /** The client snapshot of the patched document. */
  lemma PatchedClient(b: Booking, p: BookingPatch, now: int)
    requires ValidClient(b.client)
    ensures Normalize(ApplyPatch(b, p, now)).client == CastUpdate(p).client.GetOr(b.client)
  {
    TrimOfTrimmed(b.client.name);
    TrimOfTrimmed(b.client.phone);
    if b.client.email.Some? {
      TrimOfTrimmed(b.client.email.value);
      LowerOfLower(b.client.email.value);
    }
  }

  /** A required string path: the whole-document check fires exactly when a written value is empty. */
  lemma RequiredAgrees(stored: string, given: Option<string>, value: string, m: string)
    requires stored != "" && value == given.GetOr(stored)
    ensures Check(value != "", m) == When(given.Some?, Check(given.GetOr("") != "", m))
  {
  }

  /** A path with minimum 1: the whole-document check fires exactly when a written value is below it. */
  lemma AtLeastOneAgrees(stored: int, given: Option<int>, value: int, m: string)
    requires stored >= 1 && value == given.GetOr(stored)
    ensures Check(value >= 1, m) == When(given.Some?, Check(given.GetOr(0) >= 1, m))
  {
  }

  /** The materials path: both of its checks fire exactly on a written bad value. */
  lemma MaterialsAgree(stored: Materials, given: Option<string>, value: string)
    requires value == given.GetOr(MaterialsName(stored))
    ensures Check(value != "", "Materials choice is required")
            == When(given.Some?, Check(given.GetOr("") != "", "Materials choice is required"))
    ensures Check(value == "" || ParseMaterials(value).Some?, EnumMessage(value, "materials"))
            == When(given.Some?, Check(given.GetOr("") == "" || ParseMaterials(given.GetOr("")).Some?,
                                       EnumMessage(given.GetOr(""), "materials")))
  {
    assert ParseMaterials(MaterialsName(stored)) == Some(stored);
  }

  /** The date path: both of its checks fire exactly on a written bad value. */
  lemma DateAgrees(stored: string, given: Option<string>, value: string)
    requires IsIsoDate(stored) && value == given.GetOr(stored)
    ensures Check(value != "", "Date is required") == When(given.Some?, Check(given.GetOr("") != "", "Date is required"))
    ensures Check(value == "" || IsIsoDate(value), "Date must be in YYYY-MM-DD format")
            == When(given.Some?, Check(given.GetOr("") == "" || IsIsoDate(given.GetOr("")),
                                       "Date must be in YYYY-MM-DD format"))
  {
  }

  /** The job validators agree as a whole once they agree term by term. */
  lemma JobTermsAgree(d: Draft, q: BookingPatch)
    requires var materials := q.materials.GetOr("");
             && Check(d.service != "", "Service type is required")
                == When(q.service.Some?, Check(q.service.GetOr("") != "", "Service type is required"))
             && Check(d.hours >= 1, "Hours must be at least 1")
                == When(q.hours.Some?, Check(q.hours.GetOr(0) >= 1, "Hours must be at least 1"))
             && Check(d.cleaners >= 1, "Must have at least 1 cleaner")
                == When(q.cleaners.Some?, Check(q.cleaners.GetOr(0) >= 1, "Must have at least 1 cleaner"))
             && Check(d.materials != "", "Materials choice is required")
                == When(q.materials.Some?, Check(materials != "", "Materials choice is required"))
             && Check(d.materials == "" || ParseMaterials(d.materials).Some?, EnumMessage(d.materials, "materials"))
                == When(q.materials.Some?, Check(materials == "" || ParseMaterials(materials).Some?, EnumMessage(materials, "materials")))
    requires var date := q.date.GetOr("");
             && Check(d.date != "", "Date is required")
                == When(q.date.Some?, Check(date != "", "Date is required"))
             && Check(d.date == "" || IsIsoDate(d.date), "Date must be in YYYY-MM-DD format")
                == When(q.date.Some?, Check(date == "" || IsIsoDate(date), "Date must be in YYYY-MM-DD format"))
             && Check(d.time != "", "Time is required")
                == When(q.time.Some?, Check(q.time.GetOr("") != "", "Time is required"))
             && Check(d.area != "", "Area is required")
                == When(q.area.Some?, Check(q.area.GetOr("") != "", "Area is required"))
    ensures JobViolations(d) == PatchJobViolations(q)
  {
  }

  /** The job validators of the patched document fire exactly on the written job paths. */
  lemma PatchedJobAgrees(b: Booking, q: BookingPatch, d: Draft)
    requires b.service != "" && b.hours >= 1 && b.cleaners >= 1
    requires IsIsoDate(b.date) && b.time != "" && b.area != ""
    requires d.service == q.service.GetOr(b.service) && d.area == q.area.GetOr(b.area)
    requires d.hours == q.hours.GetOr(b.hours) && d.cleaners == q.cleaners.GetOr(b.cleaners)
    requires d.materials == q.materials.GetOr(MaterialsName(b.materials))
    requires d.date == q.date.GetOr(b.date) && d.time == q.time.GetOr(b.time)
    ensures JobViolations(d) == PatchJobViolations(q)
  {
    RequiredAgrees(b.service, q.service, d.service, "Service type is required");
    AtLeastOneAgrees(b.hours, q.hours, d.hours, "Hours must be at least 1");
    AtLeastOneAgrees(b.cleaners, q.cleaners, d.cleaners, "Must have at least 1 cleaner");
    MaterialsAgree(b.materials, q.materials, d.materials);
    DateAgrees(b.date, q.date, d.date);
    RequiredAgrees(b.time, q.time, d.time, "Time is required");
    RequiredAgrees(b.area, q.area, d.area, "Area is required");
    JobTermsAgree(d, q);
  }

  /** The client validators of the patched document fire exactly on a written client. */
  lemma PatchedClientAgrees(b: Booking, q: BookingPatch, d: Draft)
    requires ValidClient(b.client)
    requires d.client == q.client.GetOr(b.client)
    ensures ClientViolations(d) == PatchClientViolations(q)
  {
  }

  /** The total, status and payment validators of the patched document fire exactly on the written paths. */
  lemma PatchedChargeAgrees(b: Booking, q: BookingPatch, d: Draft)
    requires b.totalQAR >= 0
    requires d.totalQAR == q.totalQAR.GetOr(b.totalQAR)
    requires d.status == q.status.GetOr(StatusName(b.status))
    requires d.payment == q.payment.GetOr(PaymentToDraft(b.payment))
    ensures ChargeViolations(d) == PatchChargeViolations(q)
  {
    EnumNamesRoundTrip(b.status, b.payment.status, b.payment.payMethod.GetOr(Cash), b.materials);
  }

  /** When the written paths pass, casting the patched document gives the patched booking. */
  lemma PatchedCast(b: Booking, q: BookingPatch, now: int, d: Draft)
    requires Acceptable(d)
    requires d.service == q.service.GetOr(b.service) && d.area == q.area.GetOr(b.area)
    requires d.hours == q.hours.GetOr(b.hours) && d.cleaners == q.cleaners.GetOr(b.cleaners)
    requires d.materials == q.materials.GetOr(MaterialsName(b.materials))
    requires d.date == q.date.GetOr(b.date) && d.time == q.time.GetOr(b.time)
    requires d.address == q.address.GetOr(b.address)
    requires d.client == q.client.GetOr(b.client)
    requires d.notes == (if q.notes.Some? then q.notes else b.notes)
    requires d.totalQAR == q.totalQAR.GetOr(b.totalQAR)
    requires d.status == q.status.GetOr(StatusName(b.status))
    requires d.payment == q.payment.GetOr(PaymentToDraft(b.payment))
    requires d.assignedStaffIds == q.assignedStaffIds.GetOr(b.assignedStaffIds)
    requires d.userId == (if q.userId.Some? then q.userId else b.userId)
    requires d.createdAt == b.createdAt && d.updatedAt == now
    ensures Cast(d) == WritePaths(b, q, now)
  {
    EnumNamesRoundTrip(b.status, b.payment.status, b.payment.payMethod.GetOr(Cash), b.materials);
  }

  /** The setters throw away `_id` and both timestamps of the body. */
  lemma CastDropsProtected(patch: BookingPatch, otherId: Option<nat>, created: Option<int>, updated: Option<int>)
    ensures CastUpdate(patch.(id := otherId, createdAt := created, updatedAt := updated)) == CastUpdate(patch)
  {
  }

  /** `updateBooking` sees a body only through what the setters make of it. */
  lemma UpdateSeesOnlyCast(store: Bookings, id: nat, p: BookingPatch, p': BookingPatch, now: int)
    requires CastUpdate(p') == CastUpdate(p)
    ensures UpdateBooking(store, id, p', now) == UpdateBooking(store, id, p, now)
  {
    assert PatchViolations(p') == PatchViolations(p);
    assert id in store.rows ==> PatchBooking(store.rows[id], p', now) == PatchBooking(store.rows[id], p, now);
  }

  /** The `_id`, `createdAt` and `updatedAt` of the body make no difference at all. */
  lemma UpdateIgnoresProtectedFields(store: Bookings, id: nat, patch: BookingPatch, now: int,
                                     otherId: Option<nat>, created: Option<int>, updated: Option<int>)
    ensures UpdateBooking(store, id, patch.(id := otherId, createdAt := created, updatedAt := updated), now)
            == UpdateBooking(store, id, patch, now)
  {
    CastDropsProtected(patch, otherId, created, updated);
    UpdateSeesOnlyCast(store, id, patch, patch.(id := otherId, createdAt := created, updatedAt := updated), now);
  }

  /** A body that writes no path. */
  const NoChanges := BookingPatch(None, None, None, None, None, None, None, None, None, None, None,
                                  None, None, None, None, None, None, None)

  /** The empty body passes every validator and stores nothing but the update time. */
  lemma NoChangesWritesNothing(b: Booking, now: int)
    ensures CastUpdate(NoChanges) == NoChanges && PatchViolations(NoChanges) == []
    ensures PatchBooking(b, NoChanges, now) == b.(updatedAt := now)
  {
    assert CastUpdate(NoChanges) == NoChanges;
    assert WritePaths(b, NoChanges, now) == b.(updatedAt := now);
  }

  /** An empty patch changes nothing but the update timestamp, whatever the stored booking. */
  lemma EmptyPatchTouchesOnly(store: Bookings, id: nat, now: int)
    requires id in store.rows
    ensures UpdateBooking(store, id, NoChanges, now).outcome
            == Ok(Reply(200, "Booking updated successfully", store.rows[id].(updatedAt := now)))
  {
    NoChangesWritesNothing(store.rows[id], now);
  }

  /** `deleteBooking`: removes the booking (204), or 404 for an unknown id. */
  function DeleteBooking(store: Bookings, id: nat): (h: Handled<Bookings, ()>)
    ensures AllValid(store) ==> AllValid(h.state)
    ensures h.outcome.Ok? <==> id in store.rows
    ensures h.outcome.Err? ==> h.state == store && h.outcome.error == AppError("Booking not found", 404)
    ensures h.outcome.Ok? ==> h.outcome.value.status == 204 && h.state.rows == store.rows - {id}
  {
    if id !in store.rows then Handled(store, Err(AppError("Booking not found", 404)))
    else Handled(store.Remove(id), Ok(Reply(204, "Booking deleted successfully", ())))
  }

  /**
   * A successful delete answers 204, so the client receives the status alone and no
   * envelope; an unknown id gets the 404 error envelope.
   */
  lemma DeleteBookingSendsNoBody(store: Bookings, id: nat, production: bool, now: string)
    ensures var r := Respond(DeleteBooking(store, id), production, now);
            && (Http.Delivered(r).None? <==> id in store.rows)
            && r.status == (if id in store.rows then 204 else 404)
  {
  }
}

=== FILE: booking_model.dfy ===
/**
 * The booking document of src/modules/booking/booking.model.ts: its enumerations, its
 * defaults, and the schema's constraints as a validity predicate. A `Draft` is a document as
 * a handler hands it to the store, before the schema's setters (trim, lowercase) and
 * validators ran; `Validate` is what the store does with it.
 */
module BookingModel {
  import opened Outcomes
  import opened Text
  import opened Dates
  import opened Errors

  datatype Status = Pending | Confirmed | InProgress | Completed | Cancelled
  datatype PaymentStatus = Unpaid | Paid | Refunded
  datatype PaymentMethod = Cash | Card | Transfer
  datatype Materials = With | Without

  function StatusName(s: Status): string
  {
    match s
    case Pending => "pending"
    case Confirmed => "confirmed"
    case InProgress => "in_progress"
    case Completed => "completed"
    case Cancelled => "cancelled"
  }

  /** The status a string names, if it is one of the five of the schema's enum. */
  function ParseStatus(s: string): (r: Option<Status>)
    ensures r.Some? ==> StatusName(r.value) == s
    ensures r.None? ==> forall st :: StatusName(st) != s
  {
    if s == "pending" then Some(Pending)
    else if s == "confirmed" then Some(Confirmed)
    else if s == "in_progress" then Some(InProgress)
    else if s == "completed" then Some(Completed)
    else if s == "cancelled" then Some(Cancelled)
    else None
  }

  function PaymentStatusName(s: PaymentStatus): string
  {
    match s
    case Unpaid => "unpaid"
    case Paid => "paid"
    case Refunded => "refunded"
  }

  function ParsePaymentStatus(s: string): (r: Option<PaymentStatus>)
    ensures r.Some? ==> PaymentStatusName(r.value) == s
    ensures r.None? ==> forall p :: PaymentStatusName(p) != s
  {
    if s == "unpaid" then Some(Unpaid)
    else if s == "paid" then Some(Paid)
    else if s == "refunded" then Some(Refunded)
    else None
  }

  function MethodName(m: PaymentMethod): string
  {
    match m
    case Cash => "cash"
    case Card => "card"
    case Transfer => "transfer"
  }

  function ParseMethod(s: string): (r: Option<PaymentMethod>)
    ensures r.Some? ==> MethodName(r.value) == s
    ensures r.None? ==> forall m :: MethodName(m) != s
  {
    if s == "cash" then Some(Cash)
    else if s == "card" then Some(Card)
    else if s == "transfer" then Some(Transfer)
    else None
  }

  function MaterialsName(m: Materials): string
  {
    match m
    case With => "with"
    case Without => "without"
  }

  function ParseMaterials(s: string): (r: Option<Materials>)
    ensures r.Some? ==> MaterialsName(r.value) == s
    ensures r.None? ==> forall m :: MaterialsName(m) != s
  {
    if s == "with" then Some(With)
    else if s == "without" then Some(Without)
    else None
  }

  /** Each enumeration value is read back from its name: the enums are exactly the schema's lists. */
  lemma EnumNamesRoundTrip(st: Status, ps: PaymentStatus, m: PaymentMethod, mat: Materials)
    ensures ParseStatus(StatusName(st)) == Some(st)
    ensures ParsePaymentStatus(PaymentStatusName(ps)) == Some(ps)
    ensures ParseMethod(MethodName(m)) == Some(m)
    ensures ParseMaterials(MaterialsName(mat)) == Some(mat)
  {
  }

  datatype Address = Address(zone: Option<string>, building: Option<string>, street: Option<string>)

  /** The `{}` address a booking gets when none is given. */
  const NoAddress := Address(None, None, None)

  /** The client snapshot taken at booking time. */
  datatype Client = Client(name: string, phone: string, email: Option<string>)

  datatype Payment = Payment(status: PaymentStatus, payMethod: Option<PaymentMethod>, invoiceId: Option<string>)

  /** A stored booking; `createdAt` and `updatedAt` are the schema's timestamps. */
  datatype Booking = Booking(
    service: string,
    hours: int,
    cleaners: int,
    materials: Materials,
    date: string,
    time: string,
    area: string,
    address: Address,
    client: Client,
    notes: Option<string>,
    totalQAR: int,
    status: Status,
    payment: Payment,
    assignedStaffIds: seq<string>,
    userId: Option<nat>,
    createdAt: int,
    updatedAt: int)

  datatype PaymentDraft = PaymentDraft(status: string, payMethod: Option<string>, invoiceId: Option<string>)

  /** A booking document before casting: the enumerated fields are still strings. */
  datatype Draft = Draft(
    service: string,
    hours: int,
    cleaners: int,
    materials: string,
    date: string,
    time: string,
    area: string,
    address: Address,
    client: Client,
    notes: Option<string>,
    totalQAR: int,
    status: string,
    payment: PaymentDraft,
    assignedStaffIds: seq<string>,
    userId: Option<nat>,
    createdAt: int,
    updatedAt: int)

  predicate TrimmedOpt(s: Option<string>)
  {
    s.Some? ==> Trimmed(s.value)
  }

  /** The schema's constraints on the client snapshot. */
  predicate ValidClient(c: Client)
  {
    && Trimmed(c.name) && c.name != ""
    && Trimmed(c.phone) && c.phone != ""
    && (c.email.Some? ==> Trimmed(c.email.value) && IsLower(c.email.value)
                          && (c.email.value == "" || MatchesEmail(c.email.value)))
  }

  /**
   * A booking the schema accepts: required strings present and trimmed where the schema
   * trims, `hours >= 1`, `cleaners >= 1`, a `YYYY-MM-DD` date, a valid client snapshot and
   * `totalQAR >= 0`. The enumerations hold by construction of the datatypes.
   */
  predicate ValidBooking(b: Booking)
  {
    && Trimmed(b.service) && b.service != ""
    && b.hours >= 1
    && b.cleaners >= 1
    && IsIsoDate(b.date)
    && b.time != ""
    && Trimmed(b.area) && b.area != ""
    && TrimmedOpt(b.address.zone) && TrimmedOpt(b.address.building) && TrimmedOpt(b.address.street)
    && ValidClient(b.client)
    && TrimmedOpt(b.notes)
    && b.totalQAR >= 0
    && TrimmedOpt(b.payment.invoiceId)
  }

  function TrimOpt(s: Option<string>): (r: Option<string>)
    ensures r.Some? <==> s.Some?
    ensures TrimmedOpt(r)
  {
    TrimIdempotent(s.GetOr(""));
    if s.Some? then Some(Trim(s.value)) else None
  }

  /** The schema's setters: `trim` on the trimmed paths, then `lowercase` on the client email. */
  function Normalize(d: Draft): Draft
  {
    d.(service := Trim(d.service),
       area := Trim(d.area),
       address := Address(TrimOpt(d.address.zone), TrimOpt(d.address.building), TrimOpt(d.address.street)),
       client := Client(Trim(d.client.name), Trim(d.client.phone),
                        if d.client.email.Some? then Some(ToLower(Trim(d.client.email.value))) else None),
       notes := TrimOpt(d.notes),
       payment := d.payment.(invoiceId := TrimOpt(d.payment.invoiceId)))
  }

  /** What the validators accept of a normalized draft. */
  predicate Acceptable(d: Draft)
  {
    && d.service != "" && d.hours >= 1 && d.cleaners >= 1
    && ParseMaterials(d.materials).Some? && IsIsoDate(d.date) && d.time != "" && d.area != ""
    && d.client.name != "" && d.client.phone != ""
    && (d.client.email.Some? && d.client.email.value != "" ==> MatchesEmail(d.client.email.value))
    && d.totalQAR >= 0 && ParseStatus(d.status).Some? && ParsePaymentStatus(d.payment.status).Some?
    && (d.payment.payMethod.Some? ==> ParseMethod(d.payment.payMethod.value).Some?)
  }

  /** The messages of the failed validators of a normalized draft, one per path, in schema order. */
  function Violations(d: Draft): (v: seq<string>)
    ensures v == [] <==> Acceptable(d)
  {
    var job := JobViolations(d);
    var client := ClientViolations(d);
    var charge := ChargeViolations(d);
    assert |job + client + charge| == |job| + |client| + |charge|;
    job + client + charge
  }

  /** The validators of the job itself: service, hours, cleaners, materials, date, time and area. */
  function JobViolations(d: Draft): (v: seq<string>)
    ensures v == [] <==>
              && d.service != "" && d.hours >= 1 && d.cleaners >= 1
              && ParseMaterials(d.materials).Some? && IsIsoDate(d.date) && d.time != "" && d.area != ""
  {
    Check(d.service != "", "Service type is required")
    + Check(d.hours >= 1, "Hours must be at least 1")
    + Check(d.cleaners >= 1, "Must have at least 1 cleaner")
    + Check(d.materials != "", "Materials choice is required")
    + Check(d.materials == "" || ParseMaterials(d.materials).Some?, EnumMessage(d.materials, "materials"))
    + Check(d.date != "", "Date is required")
    + Check(d.date == "" || IsIsoDate(d.date), "Date must be in YYYY-MM-DD format")
    + Check(d.time != "", "Time is required")
    + Check(d.area != "", "Area is required")
  }

  /** The validators of the client: name, phone and, when one is given, a well-formed email. */
  function ClientViolations(d: Draft): (v: seq<string>)
    ensures v == [] <==>
              && d.client.name != "" && d.client.phone != ""
              && (d.client.email.Some? && d.client.email.value != "" ==> MatchesEmail(d.client.email.value))
  {
    Check(d.client.name != "", "Client name is required")
    + Check(d.client.phone != "", "Client phone is required")
    + Check(d.client.email.None? || d.client.email.value == "" || MatchesEmail(d.client.email.value),
            "Please provide a valid email address")
  }

  /** The validators of the charge: total, booking status, payment status and payment method. */
  function ChargeViolations(d: Draft): (v: seq<string>)
    ensures v == [] <==>
              && d.totalQAR >= 0 && ParseStatus(d.status).Some? && ParsePaymentStatus(d.payment.status).Some?
              && (d.payment.payMethod.Some? ==> ParseMethod(d.payment.payMethod.value).Some?)
  {
    Check(d.totalQAR >= 0, "Total must be positive")
    + Check(ParseStatus(d.status).Some?, EnumMessage(d.status, "status"))
    + Check(ParsePaymentStatus(d.payment.status).Some?, EnumMessage(d.payment.status, "payment.status"))
    + Check(d.payment.payMethod.None? || ParseMethod(d.payment.payMethod.value).Some?,
            EnumMessage(d.payment.payMethod.GetOr(""), "payment.method"))
  }

  /** The booking a draft becomes: the draft's document after the setters ran, cast to the enums. */
  function Cast(d: Draft): Booking
    requires Acceptable(d)
  {
    Booking(d.service, d.hours, d.cleaners, ParseMaterials(d.materials).value, d.date, d.time, d.area,
            d.address, d.client, d.notes, d.totalQAR, ParseStatus(d.status).value,
            Payment(ParsePaymentStatus(d.payment.status).value,
                    if d.payment.payMethod.Some? then Some(ParseMethod(d.payment.payMethod.value).value) else None,
                    d.payment.invoiceId),
            d.assignedStaffIds, d.userId, d.createdAt, d.updatedAt)
  }

  /** The setters have run: trimmed paths are trimmed and the client email is lower case. */
  predicate Settled(d: Draft)
  {
    && Trimmed(d.service) && Trimmed(d.area)
    && TrimmedOpt(d.address.zone) && TrimmedOpt(d.address.building) && TrimmedOpt(d.address.street)
    && Trimmed(d.client.name) && Trimmed(d.client.phone)
    && (d.client.email.Some? ==> Trimmed(d.client.email.value) && IsLower(d.client.email.value))
    && TrimmedOpt(d.notes) && TrimmedOpt(d.payment.invoiceId)
  }

  lemma EmailNormalized(e: string)
    ensures Trimmed(ToLower(Trim(e))) && IsLower(ToLower(Trim(e)))
  {
    LowerKeepsSpaces(Trim(e));
  }

  lemma NormalizeSettles(d: Draft)
    ensures Settled(Normalize(d))
  {
    EmailNormalized(d.client.email.GetOr(""));
  }

  lemma TrimOptOfTrimmed(s: Option<string>)
    requires TrimmedOpt(s)
    ensures TrimOpt(s) == s
  {
    if s.Some? {
      TrimOfTrimmed(s.value);
    }
  }

  lemma NormalizeKeepsSettled(d: Draft)
    requires Settled(d)
    ensures Normalize(d) == d
  {
    TrimOfTrimmed(d.service);
    TrimOfTrimmed(d.area);
    TrimOfTrimmed(d.client.name);
    TrimOfTrimmed(d.client.phone);
    TrimOptOfTrimmed(d.address.zone);
    TrimOptOfTrimmed(d.address.building);
    TrimOptOfTrimmed(d.address.street);
    TrimOptOfTrimmed(d.notes);
    TrimOptOfTrimmed(d.payment.invoiceId);
    if d.client.email.Some? {
      TrimOfTrimmed(d.client.email.value);
      LowerOfLower(d.client.email.value);
    }
  }

  lemma CastValid(d: Draft)
    requires Acceptable(d) && Settled(d)
    ensures ValidBooking(Cast(d))
  {
  }

  /**
   * What the store does with a document it is asked to save: run the setters, then the
   * validators; a document passing them is stored, and it satisfies the schema.
   */
  function Validate(d: Draft): (r: Result<Booking, seq<string>>)
    ensures r.Err? ==> |r.error| > 0
    ensures r.Ok? ==> ValidBooking(r.value)
    ensures r.Ok? ==> r.value.hours == d.hours && r.value.cleaners == d.cleaners
                      && r.value.totalQAR == d.totalQAR && r.value.date == d.date && r.value.time == d.time
                      && StatusName(r.value.status) == d.status
                      && PaymentStatusName(r.value.payment.status) == d.payment.status
                      && r.value.assignedStaffIds == d.assignedStaffIds
                      && r.value.userId == d.userId
                      && r.value.createdAt == d.createdAt && r.value.updatedAt == d.updatedAt
    ensures r.Ok? ==> r.value.service == Trim(d.service) && r.value.area == Trim(d.area)
                      && r.value.client.name == Trim(d.client.name) && r.value.client.phone == Trim(d.client.phone)
  {
    var n := Normalize(d);
    if !Acceptable(n) then Err(Violations(n))
    else
      CastKeepsFields(d);
      Ok(Cast(n))
  }

  /** Casting a normalized draft keeps its numbers, dates and ids, and the trimmed strings. */
  lemma CastKeepsFields(d: Draft)
    requires Acceptable(Normalize(d))
    ensures ValidBooking(Cast(Normalize(d)))
    ensures var b := Cast(Normalize(d));
            && b.hours == d.hours && b.cleaners == d.cleaners
            && b.totalQAR == d.totalQAR && b.date == d.date && b.time == d.time
            && StatusName(b.status) == d.status
            && PaymentStatusName(b.payment.status) == d.payment.status
            && b.assignedStaffIds == d.assignedStaffIds
            && b.userId == d.userId
            && b.createdAt == d.createdAt && b.updatedAt == d.updatedAt
            && b.service == Trim(d.service) && b.area == Trim(d.area)
            && b.client.name == Trim(d.client.name) && b.client.phone == Trim(d.client.phone)
  {
    NormalizeSettles(d);
    CastValid(Normalize(d));
  }

  /** The draft a stored booking is re-validated as when an update touches it. */
  function ToDraft(b: Booking): Draft
  {
    Draft(b.service, b.hours, b.cleaners, MaterialsName(b.materials), b.date, b.time, b.area,
          b.address, b.client, b.notes, b.totalQAR, StatusName(b.status),
          PaymentDraft(PaymentStatusName(b.payment.status),
                       if b.payment.payMethod.Some? then Some(MethodName(b.payment.payMethod.value)) else None,
                       b.payment.invoiceId),
          b.assignedStaffIds, b.userId, b.createdAt, b.updatedAt)
  }

  /**
   * A booking the schema accepts passes validation again unchanged: the setters are
   * idempotent and the validators only check what `ValidBooking` states.
   */
  lemma ValidRoundTrip(b: Booking)
    requires ValidBooking(b)
    ensures Validate(ToDraft(b)) == Ok(b)
  {
    var d := ToDraft(b);
    assert Settled(d);
    NormalizeKeepsSettled(d);
    EnumNamesRoundTrip(b.status, b.payment.status, b.payment.payMethod.GetOr(Cash), b.materials);
    assert Acceptable(d);
    assert Cast(d) == b;
  }

  /** Saving a validated booking again leaves it as it is. */
  lemma ValidateIdempotent(d: Draft)
    requires Validate(d).Ok?
    ensures Validate(ToDraft(Validate(d).value)) == Validate(d)
  {
    ValidRoundTrip(Validate(d).value);
  }
}

=== FILE: client_summary.dfy ===
/**
 * The client-summary aggregator of src/modules/client/client.controller.ts: one pass over
 * every booking builds a summary per client in a map kept in insertion order, then the
 * summaries are sorted by lifetime value, highest first.
 *
 * The pass is modelled generically in the grouping key, so that the key the source uses (the
 * string `phone + "::" + name`) and the key it evidently means (the pair of phone and name)
 * are two instances of one fold.
 */
module ClientSummary {
  import opened Outcomes
  import opened Js
  import opened Text
  import opened Dates
  import opened BookingModel
  import opened Tables
  import opened Errors
  import opened Sorting

  /** One client row of the answer; a status absent from `statuses` was never seen. */
  datatype Summary = Summary(
    key: string,
    name: string,
    phone: string,
    email: Option<string>,
    area: string,
    totalBookings: nat,
    lifetimeValue: int,
    lastBookingAt: string,
    lastService: string,
    statuses: map<Status, nat>)

  /** A map entry: the grouping key and the summary under it. */
  datatype Group<K> = Group(id: K, summary: Summary)

  /** A booking takes part in the aggregation only when its client phone is truthy. */
  predicate Counted(b: Booking)
  {
    b.client.phone != ""
  }

  /** The key the source groups by. */
  function StringKey(b: Booking): string
  {
    b.client.phone + "::" + b.client.name
  }

  /** A client as the grouping evidently means it: phone and name, compared separately. */
  datatype ClientId = ClientId(phone: string, name: string)

  function PairKey(b: Booking): ClientId
  {
    ClientId(b.client.phone, b.client.name)
  }

  /** The summary a new map entry starts from; the date and service are still unset. */
  function Fresh(b: Booking): Summary
  {
    Summary(StringKey(b), b.client.name, b.client.phone, b.client.email, b.area, 0, 0, "", "", map[])
  }

  /** `statuses[st] ?? 0`. */
  function StatusCount(m: map<Status, nat>, st: Status): nat
  {
    if st in m then m[st] else 0
  }

  /**
   * Counts one more booking into a summary: totals and the status tally grow; a strictly
   * later date (or an unset one) takes over date, service and area; an unset email is
   * filled from the booking.
   */
  function Absorb(s: Summary, b: Booking): Summary
  {
    var counted := s.(totalBookings := s.totalBookings + 1,
                      lifetimeValue := s.lifetimeValue + b.totalQAR,
                      statuses := s.statuses[b.status := StatusCount(s.statuses, b.status) + 1]);
    var dated := if counted.lastBookingAt == "" || LexLess(counted.lastBookingAt, b.date)
                 then counted.(lastBookingAt := b.date, lastService := b.service, area := b.area)
                 else counted;
    if !Given(dated.email) && Given(b.client.email) then dated.(email := b.client.email) else dated
  }

  /** The position of the entry with key `k`, or `|gs|` when there is none. */
  function IndexOf<K(==)>(gs: seq<Group<K>>, k: K): (i: nat)
    ensures i <= |gs|
    ensures i < |gs| ==> gs[i].id == k
    ensures forall j :: 0 <= j < i ==> gs[j].id != k
  {
    if |gs| == 0 then 0
    else if gs[0].id == k then 0
    else 1 + IndexOf(gs[1..], k)
  }

  /** One iteration of the loop: skip, update the existing entry, or append a new one. */
  function Step<K(==)>(gs: seq<Group<K>>, b: Booking, keyOf: Booking -> K): seq<Group<K>>
  {
    if !Counted(b) then gs
    else
      var k := keyOf(b);
      var i := IndexOf(gs, k);
      if i < |gs| then gs[i := Group(k, Absorb(gs[i].summary, b))]
      else gs + [Group(k, Absorb(Fresh(b), b))]
  }

  /** The map after the loop has run over `bs`, in insertion order. */
  function Fold<K(==)>(bs: seq<Booking>, keyOf: Booking -> K): seq<Group<K>>
  {
    if |bs| == 0 then []
    else Step(Fold(bs[..|bs| - 1], keyOf), bs[|bs| - 1], keyOf)
  }

  function Summaries<K>(gs: seq<Group<K>>): (r: seq<Summary>)
    ensures |r| == |gs|
    ensures forall i :: 0 <= i < |gs| ==> r[i] == gs[i].summary
  {
    if |gs| == 0 then [] else [gs[0].summary] + Summaries(gs[1..])
  }

  // ---------------------------------------------------------------------------------------
  // Reference definitions: what a summary should say about the bookings of its client.

  /** The counted bookings with key `k`, in encounter order. */
  function Members<K(==)>(bs: seq<Booking>, keyOf: Booking -> K, k: K): seq<Booking>
  {
    if |bs| == 0 then []
    else
      var last := bs[|bs| - 1];
      Members(bs[..|bs| - 1], keyOf, k) + (if Counted(last) && keyOf(last) == k then [last] else [])
  }

  function SumQAR(ms: seq<Booking>): int
  {
    if |ms| == 0 then 0 else SumQAR(ms[..|ms| - 1]) + ms[|ms| - 1].totalQAR
  }

  function CountStatus(ms: seq<Booking>, st: Status): nat
  {
    if |ms| == 0 then 0
    else CountStatus(ms[..|ms| - 1], st) + (if ms[|ms| - 1].status == st then 1 else 0)
  }

  function CountCounted(bs: seq<Booking>): nat
  {
    if |bs| == 0 then 0
    else CountCounted(bs[..|bs| - 1]) + (if Counted(bs[|bs| - 1]) then 1 else 0)
  }

  /**
   * `ms[i]` is the booking whose date, service and area a summary shows: its date is the
   * greatest, and it is the first with that date (the later ones are not strictly greater).
   * An unset date is always overwritten, so when every date is empty the last one wins.
   */
  predicate IsLatest(ms: seq<Booking>, i: int)
  {
    && 0 <= i < |ms|
    && (forall j :: 0 <= j < |ms| ==> !LexLess(ms[i].date, ms[j].date))
    && (ms[i].date != "" ==> forall j :: 0 <= j < i ==> ms[j].date != ms[i].date)
    && (ms[i].date == "" ==> i == |ms| - 1)
  }

  /** `ms[i]` is the first booking with a truthy client email. */
  predicate FirstGiven(ms: seq<Booking>, i: int)
  {
    && 0 <= i < |ms|
    && Given(ms[i].client.email)
    && forall j :: 0 <= j < i ==> !Given(ms[j].client.email)
  }

  /** The email a summary shows: the first truthy one, or else the first booking's. */
  ghost predicate EmailChosen(e: Option<string>, ms: seq<Booking>)
    requires |ms| > 0
  {
    && (NoneGiven(ms) ==> e == ms[0].client.email)
    && (forall i :: FirstGiven(ms, i) ==> e == ms[i].client.email)
  }

  /** `s` is the summary of the bookings `ms`, taken in encounter order. */
  ghost predicate Summarizes(s: Summary, ms: seq<Booking>)
  {
    && |ms| > 0
    && s.key == StringKey(ms[0]) && s.name == ms[0].client.name && s.phone == ms[0].client.phone
    && s.totalBookings == |ms|
    && s.lifetimeValue == SumQAR(ms)
    && (forall st :: StatusCount(s.statuses, st) == CountStatus(ms, st))
    && (forall st :: st in s.statuses ==> s.statuses[st] > 0)
    && (exists i :: IsLatest(ms, i) && s.lastBookingAt == ms[i].date && s.lastService == ms[i].service
                    && s.area == ms[i].area)
    && EmailChosen(s.email, ms)
  }

  /** `bs[p]` is the first counted booking with key `k`. */
  predicate FirstOf<K(==)>(bs: seq<Booking>, keyOf: Booking -> K, k: K, p: int)
  {
    && 0 <= p < |bs| && Counted(bs[p]) && keyOf(bs[p]) == k
    && forall q :: 0 <= q < p ==> !(Counted(bs[q]) && keyOf(bs[q]) == k)
  }

  function TotalOf<K>(gs: seq<Group<K>>): int
  {
    if |gs| == 0 then 0 else TotalOf(gs[..|gs| - 1]) + gs[|gs| - 1].summary.totalBookings
  }

  ghost predicate DistinctIds<K>(gs: seq<Group<K>>)
  {
    forall i, j :: 0 <= i < j < |gs| ==> gs[i].id != gs[j].id
  }

  /** Each entry summarizes exactly the counted bookings with its key. */
  ghost predicate AllSummarize<K>(gs: seq<Group<K>>, bs: seq<Booking>, keyOf: Booking -> K)
  {
    forall i :: 0 <= i < |gs| ==> Summarizes(gs[i].summary, Members(bs, keyOf, gs[i].id))
  }

  /** Every counted booking has an entry under its key. */
  ghost predicate Covers<K>(gs: seq<Group<K>>, bs: seq<Booking>, keyOf: Booking -> K)
  {
    forall p :: 0 <= p < |bs| && Counted(bs[p]) ==> exists j :: 0 <= j < |gs| && gs[j].id == keyOf(bs[p])
  }

  /** Entries are in the order in which their keys first appear among the bookings. */
  ghost predicate FirstSeenOrder<K>(gs: seq<Group<K>>, bs: seq<Booking>, keyOf: Booking -> K)
  {
    forall i, j, p, q :: 0 <= i < j < |gs| && FirstOf(bs, keyOf, gs[i].id, p) && FirstOf(bs, keyOf, gs[j].id, q)
                         ==> p < q
  }

  /**
   * `gs` is the map built from `bs`: keys are distinct, each entry summarizes exactly the
   * counted bookings with its key, every counted booking has an entry, entries are in order
   * of their key's first appearance, and the totals add up to the number of counted bookings.
   */
  ghost predicate Grouped<K>(gs: seq<Group<K>>, bs: seq<Booking>, keyOf: Booking -> K)
  {
    && DistinctIds(gs)
    && AllSummarize(gs, bs, keyOf)
    && Covers(gs, bs, keyOf)
    && FirstSeenOrder(gs, bs, keyOf)
    && TotalOf(gs) == CountCounted(bs)
  }

  // ---------------------------------------------------------------------------------------
  // Facts about the reference definitions.

  lemma {:induction false} MembersSnoc<K>(bs: seq<Booking>, b: Booking, keyOf: Booking -> K, k: K)
    ensures Members(bs + [b], keyOf, k) == Members(bs, keyOf, k) + (if Counted(b) && keyOf(b) == k then [b] else [])
  {
    assert (bs + [b])[..|bs|] == bs;
  }

  /** The members of `k` are exactly the counted bookings with key `k`. */
  lemma {:induction false} MembersAreKeyed<K>(bs: seq<Booking>, keyOf: Booking -> K, k: K)
    ensures forall m :: m in Members(bs, keyOf, k) ==> Counted(m) && keyOf(m) == k
    ensures Members(bs, keyOf, k) == [] <==> forall p :: 0 <= p < |bs| ==> !(Counted(bs[p]) && keyOf(bs[p]) == k)
  {
    if |bs| > 0 {
      var init := bs[..|bs| - 1];
      MembersAreKeyed(init, keyOf, k);
      assert bs == init + [bs[|bs| - 1]];
      MembersSnoc(init, bs[|bs| - 1], keyOf, k);
    }
  }

  lemma {:induction false} TotalSnoc<K>(gs: seq<Group<K>>, g: Group<K>)
    ensures TotalOf(gs + [g]) == TotalOf(gs) + g.summary.totalBookings
  {
    assert (gs + [g])[..|gs|] == gs;
  }

  lemma {:induction false} TotalUpdate<K>(gs: seq<Group<K>>, i: int, g: Group<K>)
    requires 0 <= i < |gs|
    ensures TotalOf(gs[i := g]) == TotalOf(gs) - gs[i].summary.totalBookings + g.summary.totalBookings
  {
    var n := |gs| - 1;
    if i < n {
      TotalUpdate(gs[..n], i, g);
      assert gs[i := g][..n] == gs[..n][i := g];
    } else {
      assert gs[i := g][..n] == gs[..n];
    }
  }

  /** Counting a later booking keeps the chosen date, service and area right. */
  lemma {:induction false} LatestSnoc(ms: seq<Booking>, i: int, b: Booking) returns (i': int)
    requires IsLatest(ms, i)
    ensures IsLatest(ms + [b], i')
    ensures var d := ms[i].date;
            if d == "" || LexLess(d, b.date) then i' == |ms| else i' == i
  {
    var ms' := ms + [b];
    var d := ms[i].date;
    if d == "" || LexLess(d, b.date) {
      i' := |ms|;
      forall j | 0 <= j < |ms'|
        ensures !LexLess(b.date, ms'[j].date) && (b.date != "" && j < |ms| ==> ms'[j].date != b.date)
      {
        if j == |ms| {
          LexIrreflexive(b.date);
        } else {
          var x := ms[j].date;
          assert !LexLess(d, x);
          if d == "" {
            EmptyIsLeast(x);
            EmptyIsLeast(b.date);
          } else {
            LexTotal(d, x);
            LexAsymmetric(d, b.date);
            if LexLess(x, d) {
              LexTransitive(x, d, b.date);
              LexAsymmetric(x, b.date);
            }
          }
        }
      }
    } else {
      i' := i;
    }
  }

  lemma {:induction false} AbsorbCounts(s: Summary, ms: seq<Booking>, b: Booking)
    requires s.totalBookings == |ms| && s.lifetimeValue == SumQAR(ms)
    requires forall st :: StatusCount(s.statuses, st) == CountStatus(ms, st)
    requires forall st :: st in s.statuses ==> s.statuses[st] > 0
    ensures var s' := Absorb(s, b);
            && s'.totalBookings == |ms + [b]| && s'.lifetimeValue == SumQAR(ms + [b])
            && (forall st :: StatusCount(s'.statuses, st) == CountStatus(ms + [b], st))
            && (forall st :: st in s'.statuses ==> s'.statuses[st] > 0)
  {
    assert (ms + [b])[..|ms|] == ms;
  }

  lemma {:induction false} AbsorbLatest(s: Summary, ms: seq<Booking>, b: Booking)
    requires exists i :: IsLatest(ms, i) && s.lastBookingAt == ms[i].date && s.lastService == ms[i].service
                         && s.area == ms[i].area
    ensures var s', ms' := Absorb(s, b), ms + [b];
            exists i :: IsLatest(ms', i) && s'.lastBookingAt == ms'[i].date && s'.lastService == ms'[i].service
                        && s'.area == ms'[i].area
  {
    var i :| IsLatest(ms, i) && s.lastBookingAt == ms[i].date && s.lastService == ms[i].service && s.area == ms[i].area;
    var i' := LatestSnoc(ms, i, b);
    var ms' := ms + [b];
    assert ms'[i] == ms[i];
  }

  /** The email after absorbing `b` into a summary whose email is `e`. */
  function NextEmail(e: Option<string>, b: Booking): Option<string>
  {
    if !Given(e) && Given(b.client.email) then b.client.email else e
  }

  lemma {:induction false} AbsorbEmail(e: Option<string>, ms: seq<Booking>, b: Booking)
    requires |ms| > 0 && EmailChosen(e, ms)
    ensures EmailChosen(NextEmail(e, b), ms + [b])
  {
    var ms' := ms + [b];
    var e' := NextEmail(e, b);
    NoneGivenPrefix(ms, b);
    assert ms'[0] == ms[0];
    if NoneGiven(ms') {
      assert ms'[|ms|] == b;
    }
    forall f | FirstGiven(ms', f)
      ensures e' == ms'[f].client.email
    {
      if f < |ms| {
        assert ms'[f] == ms[f];
        FirstGivenPrefix(ms, b, f);
      }
    }
  }

  lemma {:induction false} FirstGivenPrefix(ms: seq<Booking>, b: Booking, f: int)
    requires 0 <= f < |ms| && FirstGiven(ms + [b], f)
    ensures FirstGiven(ms, f)
  {
    assert forall j :: 0 <= j <= f ==> (ms + [b])[j] == ms[j];
  }

  predicate NoneGiven(ms: seq<Booking>)
  {
    forall j :: 0 <= j < |ms| ==> !Given(ms[j].client.email)
  }

  lemma {:induction false} NoneGivenPrefix(ms: seq<Booking>, b: Booking)
    ensures NoneGiven(ms + [b]) ==> NoneGiven(ms)
    ensures (forall j :: 0 <= j < |ms| ==> !Given((ms + [b])[j].client.email)) ==> NoneGiven(ms)
  {
    forall j | 0 <= j < |ms| ensures (ms + [b])[j] == ms[j] { }
  }

  /** Absorbing a booking extends a summary of `ms` to a summary of `ms + [b]`. */
  lemma {:induction false} AbsorbSummarizes(s: Summary, ms: seq<Booking>, b: Booking)
    requires Summarizes(s, ms)
    ensures Summarizes(Absorb(s, b), ms + [b])
  {
    AbsorbCounts(s, ms, b);
    AbsorbLatest(s, ms, b);
    AbsorbEmail(s.email, ms, b);
    assert Absorb(s, b).email == NextEmail(s.email, b);
    assert (ms + [b])[0] == ms[0];
  }

  /** Some booking has a truthy email, so there is a first one. */
  lemma {:induction false} FirstGivenExists(ms: seq<Booking>, g: int)
    requires 0 <= g < |ms| && Given(ms[g].client.email)
    ensures exists f :: FirstGiven(ms, f)
    decreases g
  {
    if exists j :: 0 <= j < g && Given(ms[j].client.email) {
      var j :| 0 <= j < g && Given(ms[j].client.email);
      FirstGivenExists(ms, j);
    } else {
      assert FirstGiven(ms, g);
    }
  }

  lemma {:induction false} FreshSummarizes(b: Booking)
    ensures Summarizes(Absorb(Fresh(b), b), [b])
  {
    var s := Absorb(Fresh(b), b);
    LexIrreflexive(b.date);
    assert IsLatest([b], 0);
    assert [b][..0] == [];
    forall st
      ensures StatusCount(s.statuses, st) == CountStatus([b], st)
    {
    }
  }

  lemma {:induction false} FirstOfSnocOld<K>(bs: seq<Booking>, b: Booking, keyOf: Booking -> K, x: K, p: int)
    requires Members(bs, keyOf, x) != [] && FirstOf(bs + [b], keyOf, x, p)
    ensures p < |bs| && FirstOf(bs, keyOf, x, p)
  {
    MembersAreKeyed(bs, keyOf, x);
    var p0 :| 0 <= p0 < |bs| && Counted(bs[p0]) && keyOf(bs[p0]) == x;
    assert (bs + [b])[p0] == bs[p0];
    assert forall q :: 0 <= q <= p ==> (bs + [b])[q] == bs[q];
  }

  lemma {:induction false} FirstOfSnocNew<K>(bs: seq<Booking>, b: Booking, keyOf: Booking -> K, k: K, q: int)
    requires Members(bs, keyOf, k) == [] && FirstOf(bs + [b], keyOf, k, q)
    ensures q == |bs|
  {
    MembersAreKeyed(bs, keyOf, k);
  }

  lemma {:induction false} CountCountedSnoc(bs: seq<Booking>, b: Booking)
    ensures CountCounted(bs + [b]) == CountCounted(bs) + (if Counted(b) then 1 else 0)
  {
    assert (bs + [b])[..|bs|] == bs;
  }

  lemma {:induction false} StepSkip<K>(gs: seq<Group<K>>, bs: seq<Booking>, b: Booking, keyOf: Booking -> K)
    requires Grouped(gs, bs, keyOf) && !Counted(b)
    ensures Grouped(Step(gs, b, keyOf), bs + [b], keyOf)
  {
    var bs' := bs + [b];
    forall k ensures Members(bs', keyOf, k) == Members(bs, keyOf, k) {
      MembersSnoc(bs, b, keyOf, k);
    }
    forall p | 0 <= p < |bs'| && Counted(bs'[p])
      ensures exists j :: 0 <= j < |gs| && gs[j].id == keyOf(bs'[p])
    {
      assert p < |bs| && bs'[p] == bs[p];
    }
    forall i, j, p, q | 0 <= i < j < |gs| && FirstOf(bs', keyOf, gs[i].id, p) && FirstOf(bs', keyOf, gs[j].id, q)
      ensures p < q
    {
      FirstOfSnocOld(bs, b, keyOf, gs[i].id, p);
      FirstOfSnocOld(bs, b, keyOf, gs[j].id, q);
    }
    CountCountedSnoc(bs, b);
  }

  /** The entry at `i` after counting `b` into it. */
  function Bump<K>(gs: seq<Group<K>>, i: nat, b: Booking): (r: seq<Group<K>>)
    requires i < |gs|
    ensures |r| == |gs|
  {
    gs[i := Group(gs[i].id, Absorb(gs[i].summary, b))]
  }

  lemma {:induction false} ExistingSummaries<K>(gs: seq<Group<K>>, bs: seq<Booking>, b: Booking, keyOf: Booking -> K, i: nat)
    requires DistinctIds(gs) && AllSummarize(gs, bs, keyOf)
    requires Counted(b) && i < |gs| && gs[i].id == keyOf(b)
    ensures AllSummarize(Bump(gs, i, b), bs + [b], keyOf)
  {
    var gs' := Bump(gs, i, b);
    forall j | 0 <= j < |gs'|
      ensures Summarizes(gs'[j].summary, Members(bs + [b], keyOf, gs'[j].id))
    {
      MembersSnoc(bs, b, keyOf, gs[j].id);
      if j == i {
        var ms := Members(bs, keyOf, gs[i].id);
        AbsorbSummarizes(gs[i].summary, ms, b);
        assert Members(bs + [b], keyOf, gs[i].id) == ms + [b];
        assert gs'[j].summary == Absorb(gs[i].summary, b);
      } else {
        assert gs'[j] == gs[j];
        assert Members(bs + [b], keyOf, gs[j].id) == Members(bs, keyOf, gs[j].id);
      }
    }
  }

  lemma {:induction false} ExistingCovers<K>(gs: seq<Group<K>>, bs: seq<Booking>, b: Booking, keyOf: Booking -> K, i: nat)
    requires Covers(gs, bs, keyOf)
    requires i < |gs| && gs[i].id == keyOf(b)
    ensures Covers(Bump(gs, i, b), bs + [b], keyOf)
  {
    var bs', gs' := bs + [b], Bump(gs, i, b);
    forall p | 0 <= p < |bs'| && Counted(bs'[p])
      ensures exists j :: 0 <= j < |gs'| && gs'[j].id == keyOf(bs'[p])
    {
      if p < |bs| {
        assert bs'[p] == bs[p];
        var j :| 0 <= j < |gs| && gs[j].id == keyOf(bs[p]);
        assert gs'[j].id == gs[j].id;
      } else {
        assert gs'[i].id == keyOf(bs'[p]);
      }
    }
  }

  lemma {:induction false} ExistingOrder<K>(gs: seq<Group<K>>, bs: seq<Booking>, b: Booking, keyOf: Booking -> K, i: nat)
    requires AllSummarize(gs, bs, keyOf) && FirstSeenOrder(gs, bs, keyOf)
    requires i < |gs|
    ensures FirstSeenOrder(Bump(gs, i, b), bs + [b], keyOf)
  {
    var bs', gs' := bs + [b], Bump(gs, i, b);
    forall a, c, p, q | 0 <= a < c < |gs'| && FirstOf(bs', keyOf, gs'[a].id, p) && FirstOf(bs', keyOf, gs'[c].id, q)
      ensures p < q
    {
      assert gs'[a].id == gs[a].id && gs'[c].id == gs[c].id;
      FirstOfSnocOld(bs, b, keyOf, gs[a].id, p);
      FirstOfSnocOld(bs, b, keyOf, gs[c].id, q);
    }
  }

  lemma {:induction false} ExistingTotal<K>(gs: seq<Group<K>>, bs: seq<Booking>, b: Booking, i: nat)
    requires TotalOf(gs) == CountCounted(bs) && Counted(b) && i < |gs|
    ensures TotalOf(Bump(gs, i, b)) == CountCounted(bs + [b])
  {
    TotalUpdate(gs, i, Group(gs[i].id, Absorb(gs[i].summary, b)));
    CountCountedSnoc(bs, b);
  }

  lemma {:induction false} ExistingDistinct<K>(gs: seq<Group<K>>, b: Booking, i: nat)
    requires DistinctIds(gs) && i < |gs|
    ensures DistinctIds(Bump(gs, i, b))
  {
    var gs' := Bump(gs, i, b);
    forall a, c | 0 <= a < c < |gs'| ensures gs'[a].id != gs'[c].id {
      assert gs'[a].id == gs[a].id && gs'[c].id == gs[c].id;
    }
  }

  lemma {:induction false} StepExisting<K>(gs: seq<Group<K>>, bs: seq<Booking>, b: Booking, keyOf: Booking -> K)
    requires Grouped(gs, bs, keyOf) && Counted(b) && IndexOf(gs, keyOf(b)) < |gs|
    ensures Grouped(Step(gs, b, keyOf), bs + [b], keyOf)
  {
    var i := IndexOf(gs, keyOf(b));
    var gs' := Bump(gs, i, b);
    ExistingSummaries(gs, bs, b, keyOf, i);
    ExistingCovers(gs, bs, b, keyOf, i);
    ExistingOrder(gs, bs, b, keyOf, i);
    ExistingTotal(gs, bs, b, i);
    ExistingDistinct(gs, b, i);
    assert Grouped(gs', bs + [b], keyOf);
    assert Step(gs, b, keyOf) == gs';
  }

  /** The entries after a new one for `b` is appended. */
  function Append<K>(gs: seq<Group<K>>, b: Booking, keyOf: Booking -> K): (r: seq<Group<K>>)
    ensures |r| == |gs| + 1
  {
    gs + [Group(keyOf(b), Absorb(Fresh(b), b))]
  }

  lemma {:induction false} NewKeyHasNoMembers<K>(gs: seq<Group<K>>, bs: seq<Booking>, keyOf: Booking -> K, k: K)
    requires Covers(gs, bs, keyOf)
    requires forall j :: 0 <= j < |gs| ==> gs[j].id != k
    ensures Members(bs, keyOf, k) == []
  {
    forall p | 0 <= p < |bs|
      ensures !(Counted(bs[p]) && keyOf(bs[p]) == k)
    {
      if Counted(bs[p]) {
        var j :| 0 <= j < |gs| && gs[j].id == keyOf(bs[p]);
      }
    }
    MembersAreKeyed(bs, keyOf, k);
  }

  lemma {:induction false} NewSummaries<K>(gs: seq<Group<K>>, bs: seq<Booking>, b: Booking, keyOf: Booking -> K)
    requires AllSummarize(gs, bs, keyOf) && Members(bs, keyOf, keyOf(b)) == []
    requires Counted(b) && forall j :: 0 <= j < |gs| ==> gs[j].id != keyOf(b)
    ensures AllSummarize(Append(gs, b, keyOf), bs + [b], keyOf)
  {
    var gs' := Append(gs, b, keyOf);
    forall j | 0 <= j < |gs'|
      ensures Summarizes(gs'[j].summary, Members(bs + [b], keyOf, gs'[j].id))
    {
      MembersSnoc(bs, b, keyOf, gs'[j].id);
      if j == |gs| {
        FreshSummarizes(b);
        assert Members(bs + [b], keyOf, keyOf(b)) == [b];
        assert gs'[j] == Group(keyOf(b), Absorb(Fresh(b), b));
      } else {
        assert gs'[j] == gs[j];
        assert Members(bs + [b], keyOf, gs[j].id) == Members(bs, keyOf, gs[j].id);
      }
    }
  }

  lemma {:induction false} NewCovers<K>(gs: seq<Group<K>>, bs: seq<Booking>, b: Booking, keyOf: Booking -> K)
    requires Covers(gs, bs, keyOf)
    ensures Covers(Append(gs, b, keyOf), bs + [b], keyOf)
  {
    var bs', gs' := bs + [b], Append(gs, b, keyOf);
    forall p | 0 <= p < |bs'| && Counted(bs'[p])
      ensures exists j :: 0 <= j < |gs'| && gs'[j].id == keyOf(bs'[p])
    {
      if p < |bs| {
        assert bs'[p] == bs[p];
        var j :| 0 <= j < |gs| && gs[j].id == keyOf(bs[p]);
        assert gs'[j].id == gs[j].id;
      } else {
        assert gs'[|gs|].id == keyOf(bs'[p]);
      }
    }
  }

  lemma {:induction false} NewOrder<K>(gs: seq<Group<K>>, bs: seq<Booking>, b: Booking, keyOf: Booking -> K)
    requires AllSummarize(gs, bs, keyOf) && FirstSeenOrder(gs, bs, keyOf)
    requires Members(bs, keyOf, keyOf(b)) == []
    ensures FirstSeenOrder(Append(gs, b, keyOf), bs + [b], keyOf)
  {
    var bs', gs' := bs + [b], Append(gs, b, keyOf);
    forall a, c, p, q | 0 <= a < c < |gs'| && FirstOf(bs', keyOf, gs'[a].id, p) && FirstOf(bs', keyOf, gs'[c].id, q)
      ensures p < q
    {
      assert gs'[a] == gs[a];
      FirstOfSnocOld(bs, b, keyOf, gs[a].id, p);
      if c < |gs| {
        assert gs'[c] == gs[c];
        FirstOfSnocOld(bs, b, keyOf, gs[c].id, q);
      } else {
        FirstOfSnocNew(bs, b, keyOf, keyOf(b), q);
      }
    }
  }

  lemma NewDistinct<K>(gs: seq<Group<K>>, b: Booking, keyOf: Booking -> K)
    requires DistinctIds(gs) && forall j :: 0 <= j < |gs| ==> gs[j].id != keyOf(b)
    ensures DistinctIds(Append(gs, b, keyOf))
  {
    var gs' := Append(gs, b, keyOf);
    forall a, c | 0 <= a < c < |gs'| ensures gs'[a].id != gs'[c].id {
      assert gs'[a] == gs[a];
    }
  }

  lemma {:induction false} StepNew<K>(gs: seq<Group<K>>, bs: seq<Booking>, b: Booking, keyOf: Booking -> K)
    requires Grouped(gs, bs, keyOf) && Counted(b) && IndexOf(gs, keyOf(b)) == |gs|
    ensures Grouped(Step(gs, b, keyOf), bs + [b], keyOf)
  {
    var gs' := Append(gs, b, keyOf);
    assert Step(gs, b, keyOf) == gs';
    NewKeyHasNoMembers(gs, bs, keyOf, keyOf(b));
    NewSummaries(gs, bs, b, keyOf);
    NewCovers(gs, bs, b, keyOf);
    NewOrder(gs, bs, b, keyOf);
    NewDistinct(gs, b, keyOf);
    TotalSnoc(gs, Group(keyOf(b), Absorb(Fresh(b), b)));
    CountCountedSnoc(bs, b);
  }

  /** One iteration keeps the map a faithful grouping of the bookings seen so far. */
  lemma {:induction false} StepGrouped<K>(gs: seq<Group<K>>, bs: seq<Booking>, b: Booking, keyOf: Booking -> K)
    requires Grouped(gs, bs, keyOf)
    ensures Grouped(Step(gs, b, keyOf), bs + [b], keyOf)
  {
    if !Counted(b) {
      StepSkip(gs, bs, b, keyOf);
    } else if IndexOf(gs, keyOf(b)) < |gs| {
      StepExisting(gs, bs, b, keyOf);
    } else {
      StepNew(gs, bs, b, keyOf);
    }
  }

  lemma GroupedSame<K>(gs: seq<Group<K>>, bs: seq<Booking>, gs': seq<Group<K>>, bs': seq<Booking>, keyOf: Booking -> K)
    requires Grouped(gs, bs, keyOf) && gs' == gs && bs' == bs
    ensures Grouped(gs', bs', keyOf)
  {
  }

  /** The loop builds exactly the grouping of all bookings, whatever the key. */
  lemma {:induction false} FoldGrouped<K>(bs: seq<Booking>, keyOf: Booking -> K)
    ensures Grouped(Fold(bs, keyOf), bs, keyOf)
  {
    if |bs| > 0 {
      var init, last := bs[..|bs| - 1], bs[|bs| - 1];
      assert init + [last] == bs;
      assert Fold(bs, keyOf) == Step(Fold(init, keyOf), last, keyOf);
      FoldGrouped(init, keyOf);
      StepGrouped(Fold(init, keyOf), init, last, keyOf);
      GroupedSame(Step(Fold(init, keyOf), last, keyOf), init + [last], Fold(bs, keyOf), bs, keyOf);
    }
  }

  // ---------------------------------------------------------------------------------------
  // What a summary's fields amount to.

  /** The status tally adds up to the booking count. */
  lemma {:induction false} CountStatusSum(ms: seq<Booking>)
    ensures CountStatus(ms, Pending) + CountStatus(ms, Confirmed) + CountStatus(ms, InProgress)
            + CountStatus(ms, Completed) + CountStatus(ms, Cancelled) == |ms|
  {
    if |ms| > 0 {
      CountStatusSum(ms[..|ms| - 1]);
    }
  }

  /** In every summary, the counts under `statuses` add up to `totalBookings`. */
  lemma StatusTallyIsTotal(s: Summary, ms: seq<Booking>)
    requires Summarizes(s, ms)
    ensures StatusCount(s.statuses, Pending) + StatusCount(s.statuses, Confirmed) + StatusCount(s.statuses, InProgress)
            + StatusCount(s.statuses, Completed) + StatusCount(s.statuses, Cancelled) == s.totalBookings
  {
    CountStatusSum(ms);
  }

  /** Only one booking can be the one a summary takes its date from. */
  lemma LatestUnique(ms: seq<Booking>, i: int, j: int)
    requires IsLatest(ms, i) && IsLatest(ms, j)
    ensures i == j
  {
    LexTotal(ms[i].date, ms[j].date);
  }

  /** For dates of the schema's `YYYY-MM-DD` form, the date shown is the calendar-latest one. */
  lemma LatestIsCalendarLatest(ms: seq<Booking>, i: int)
    requires IsLatest(ms, i)
    requires forall j :: 0 <= j < |ms| ==> IsIsoDate(ms[j].date)
    ensures forall j :: 0 <= j < |ms| ==> !CalendarBefore(ms[i].date, ms[j].date)
  {
    forall j | 0 <= j < |ms|
      ensures !CalendarBefore(ms[i].date, ms[j].date)
    {
      DateOrderIsCalendarOrder(ms[i].date, ms[j].date);
    }
  }

  // ---------------------------------------------------------------------------------------
  // The grouping key.

  /** With the same phone, two bookings get the same string key exactly when their names agree. */
  lemma SamePhoneKeyIffName(phone: string, n1: string, n2: string)
    ensures phone + "::" + n1 == phone + "::" + n2 <==> n1 == n2
  {
    if phone + "::" + n1 == phone + "::" + n2 {
      assert (phone + "::" + n1)[|phone| + 2..] == n1;
      assert (phone + "::" + n2)[|phone| + 2..] == n2;
    }
  }

  /** Without a colon in the phone, the first colon of the key is the one just after the phone. */
  lemma ColonAfterPhone(phone: string, name: string)
    requires ':' !in phone
    ensures (phone + "::" + name)[|phone|] == ':'
    ensures forall i :: 0 <= i < |phone| ==> (phone + "::" + name)[i] != ':'
  {
    forall i | 0 <= i < |phone|
      ensures (phone + "::" + name)[i] != ':'
    {
      assert (phone + "::" + name)[i] == phone[i];
    }
  }

  /** When neither phone contains a colon, the string key and the pair key agree. */
  lemma KeysAgreeWithoutColon(b1: Booking, b2: Booking)
    requires ':' !in b1.client.phone && ':' !in b2.client.phone
    ensures StringKey(b1) == StringKey(b2) <==> PairKey(b1) == PairKey(b2)
  {
    var p1, p2 := b1.client.phone, b2.client.phone;
    if StringKey(b1) == StringKey(b2) {
      ColonAfterPhone(p1, b1.client.name);
      ColonAfterPhone(p2, b2.client.name);
      assert |p1| == |p2|;
      assert p1 == StringKey(b1)[..|p1|] && p2 == StringKey(b2)[..|p2|];
      SamePhoneKeyIffName(p1, b1.client.name, b2.client.name);
    }
  }

  /** A valid booking with the given client phone and name, and nothing else of note. */
  function Sample(phone: string, name: string): Booking
  {
    Booking("Cleaning", 2, 1, With, "2024-05-01", "09:00", "Doha", NoAddress, Client(name, phone, None),
            None, 100, Pending, Payment(Unpaid, None, None), [], None, 0, 0)
  }

  lemma SamplesValid()
    ensures ValidBooking(Sample("5::a", "b")) && ValidBooking(Sample("5", "a::b"))
  {
    assert IsIsoDate("2024-05-01");
  }

  /** Folding `[b1]` gives the one entry the first booking opens. */
  lemma FoldOne<K>(b: Booking, keyOf: Booking -> K)
    requires Counted(b)
    ensures Fold([b], keyOf) == [Group(keyOf(b), Absorb(Fresh(b), b))]
  {
    assert [b][..0] == [];
  }

  /**
   * The string key merges two different clients: phone `5::a` with name `b`, and phone `5`
   * with name `a::b`, both schema-valid, end up in one summary of two bookings.
   */
  lemma StringKeyCollides()
    ensures var b1, b2 := Sample("5::a", "b"), Sample("5", "a::b");
            && ValidBooking(b1) && ValidBooking(b2)
            && PairKey(b1) != PairKey(b2) && StringKey(b1) == StringKey(b2)
            && |Fold([b1, b2], StringKey)| == 1 && Fold([b1, b2], StringKey)[0].summary.totalBookings == 2
            && |Fold([b1, b2], PairKey)| == 2
  {
    var b1, b2 := Sample("5::a", "b"), Sample("5", "a::b");
    SamplesValid();
    assert StringKey(b1) == "5::a::b" == StringKey(b2);
    assert PairKey(b1).phone != PairKey(b2).phone;
    FoldTwo(b1, b2, StringKey);
    FoldTwo(b1, b2, PairKey);
  }

  /** Two counted bookings make one entry of two when their keys agree, and two entries otherwise. */
  lemma FoldTwo<K>(b1: Booking, b2: Booking, keyOf: Booking -> K)
    requires Counted(b1) && Counted(b2)
    ensures keyOf(b1) == keyOf(b2) ==> |Fold([b1, b2], keyOf)| == 1 && Fold([b1, b2], keyOf)[0].summary.totalBookings == 2
    ensures keyOf(b1) != keyOf(b2) ==> |Fold([b1, b2], keyOf)| == 2
  {
    assert [b1, b2][..1] == [b1];
    FoldOne(b1, keyOf);
    var g1 := Fold([b1], keyOf);
    assert Fold([b1, b2], keyOf) == Step(g1, b2, keyOf);
    if keyOf(b1) == keyOf(b2) {
      assert IndexOf(g1, keyOf(b2)) == 0;
    } else {
      assert IndexOf(g1, keyOf(b2)) == 1;
    }
  }

  /** Two keys that split the bookings the same way. */
  ghost predicate SamePartition<K1, K2>(bs: seq<Booking>, k1: Booking -> K1, k2: Booking -> K2)
  {
    forall p, q :: 0 <= p < |bs| && 0 <= q < |bs| ==> (k1(bs[p]) == k1(bs[q]) <==> k2(bs[p]) == k2(bs[q]))
  }

  /** Entry by entry the same summaries, under keys of the same booking. */
  ghost predicate Aligned<K1, K2>(g1: seq<Group<K1>>, g2: seq<Group<K2>>, bs: seq<Booking>,
                                  k1: Booking -> K1, k2: Booking -> K2)
  {
    && |g1| == |g2|
    && forall i :: 0 <= i < |g1| ==>
         g1[i].summary == g2[i].summary && exists p :: 0 <= p < |bs| && g1[i].id == k1(bs[p]) && g2[i].id == k2(bs[p])
  }

  lemma {:induction false} IndexOfAligned<K1, K2>(g1: seq<Group<K1>>, g2: seq<Group<K2>>, x1: K1, x2: K2)
    requires |g1| == |g2| && forall i :: 0 <= i < |g1| ==> (g1[i].id == x1 <==> g2[i].id == x2)
    ensures IndexOf(g1, x1) == IndexOf(g2, x2)
  {
    if |g1| > 0 && g1[0].id != x1 {
      IndexOfAligned(g1[1..], g2[1..], x1, x2);
    }
  }

  lemma {:induction false} StepAligned<K1, K2>(g1: seq<Group<K1>>, g2: seq<Group<K2>>, bs: seq<Booking>, b: Booking,
                                              k1: Booking -> K1, k2: Booking -> K2)
    requires Aligned(g1, g2, bs, k1, k2) && SamePartition(bs + [b], k1, k2)
    ensures Aligned(Step(g1, b, k1), Step(g2, b, k2), bs + [b], k1, k2)
  {
    var bs' := bs + [b];
    assert bs'[|bs|] == b;
    forall i | 0 <= i < |g1|
      ensures exists p :: 0 <= p < |bs'| && g1[i].id == k1(bs'[p]) && g2[i].id == k2(bs'[p])
      ensures g1[i].id == k1(b) <==> g2[i].id == k2(b)
    {
      var p :| 0 <= p < |bs| && g1[i].id == k1(bs[p]) && g2[i].id == k2(bs[p]);
      assert bs'[p] == bs[p];
    }
    IndexOfAligned(g1, g2, k1(b), k2(b));
    var n1, n2 := Step(g1, b, k1), Step(g2, b, k2);
    forall i | 0 <= i < |n1|
      ensures exists p :: 0 <= p < |bs'| && n1[i].id == k1(bs'[p]) && n2[i].id == k2(bs'[p])
    {
      if i < |g1| && n1[i].id == g1[i].id && n2[i].id == g2[i].id {
      } else {
        assert n1[i].id == k1(bs'[|bs|]) && n2[i].id == k2(bs'[|bs|]);
      }
    }
  }

  lemma {:induction false} FoldAligned<K1, K2>(bs: seq<Booking>, k1: Booking -> K1, k2: Booking -> K2)
    requires SamePartition(bs, k1, k2)
    ensures Aligned(Fold(bs, k1), Fold(bs, k2), bs, k1, k2)
  {
    if |bs| > 0 {
      var init := bs[..|bs| - 1];
      assert init + [bs[|bs| - 1]] == bs;
      assert SamePartition(init, k1, k2) by {
        forall p, q | 0 <= p < |init| && 0 <= q < |init|
          ensures k1(init[p]) == k1(init[q]) <==> k2(init[p]) == k2(init[q])
        {
          assert init[p] == bs[p] && init[q] == bs[q];
        }
      }
      FoldAligned(init, k1, k2);
      StepAligned(Fold(init, k1), Fold(init, k2), init, bs[|bs| - 1], k1, k2);
    }
  }

  /** Two keys that split the bookings the same way produce the same summaries in the same order. */
  lemma FoldRespectsPartition<K1, K2>(bs: seq<Booking>, k1: Booking -> K1, k2: Booking -> K2)
    requires SamePartition(bs, k1, k2)
    ensures Summaries(Fold(bs, k1)) == Summaries(Fold(bs, k2))
  {
    FoldAligned(bs, k1, k2);
  }

  /** Without a colon in any phone, the string key is as good as the pair key. */
  lemma StringKeyHarmlessWithoutColons(bs: seq<Booking>)
    requires forall p :: 0 <= p < |bs| ==> ':' !in bs[p].client.phone
    ensures Summaries(Fold(bs, StringKey)) == Summaries(Fold(bs, PairKey))
  {
    forall p, q | 0 <= p < |bs| && 0 <= q < |bs|
      ensures StringKey(bs[p]) == StringKey(bs[q]) <==> PairKey(bs[p]) == PairKey(bs[q])
    {
      KeysAgreeWithoutColon(bs[p], bs[q]);
    }
    FoldRespectsPartition(bs, StringKey, PairKey);
  }

  // ---------------------------------------------------------------------------------------
  // The answer: summaries sorted by lifetime value, highest first.

  /** `b.lifetimeValue - a.lifetimeValue` as a comparator: the higher value comes first. */
  predicate HigherValue(a: Summary, b: Summary)
  {
    a.lifetimeValue > b.lifetimeValue
  }

  lemma HigherValueIsStrictWeakOrder()
    ensures StrictWeakOrder(HigherValue)
  {
  }

  function ClientOf(s: Summary): ClientId
  {
    ClientId(s.phone, s.name)
  }

  /**
   * The map's values, stably sorted: a permutation of the entries, by non-increasing
   * lifetime value, equal values in the order their clients were first seen.
   */
  function Summarize<K(==)>(bs: seq<Booking>, keyOf: Booking -> K): (r: seq<Summary>)
    ensures multiset(r) == multiset(Summaries(Fold(bs, keyOf)))
    ensures forall i, j :: 0 <= i < j < |r| ==> r[i].lifetimeValue >= r[j].lifetimeValue
    ensures forall y :: Ties(r, y, HigherValue) == Ties(Summaries(Fold(bs, keyOf)), y, HigherValue)
  {
    var ss := Summaries(Fold(bs, keyOf));
    HigherValueIsStrictWeakOrder();
    SortOrderedAndStable(ss, HigherValue);
    Sort(ss, HigherValue)
  }

  /** An entry's summary names the key it is filed under. */
  lemma {:induction false} EntryNamesItsKey<K>(gs: seq<Group<K>>, bs: seq<Booking>, keyOf: Booking -> K, i: int)
    requires AllSummarize(gs, bs, keyOf) && 0 <= i < |gs|
    ensures exists m :: m in Members(bs, keyOf, gs[i].id) && keyOf(m) == gs[i].id
                        && gs[i].summary.name == m.client.name && gs[i].summary.phone == m.client.phone
                        && gs[i].summary.key == StringKey(m)
  {
    var ms := Members(bs, keyOf, gs[i].id);
    MembersAreKeyed(bs, keyOf, gs[i].id);
    assert ms[0] in ms;
  }

  lemma {:induction false} CountAtLeastTwo<T>(r: seq<T>, i: int, j: int)
    requires 0 <= i < j < |r| && r[i] == r[j]
    ensures multiset(r)[r[i]] >= 2
  {
    assert r == r[..j] + r[j..];
    assert r[i] == r[..j][i];
    assert r[j] == r[j..][0];
    assert multiset(r) == multiset(r[..j]) + multiset(r[j..]);
  }

  lemma {:induction false} CountAtMostOne<T>(ss: seq<Summary>, x: Summary, f: Summary -> T)
    requires forall i, j :: 0 <= i < j < |ss| ==> f(ss[i]) != f(ss[j])
    ensures multiset(ss)[x] <= 1
  {
    if |ss| > 0 {
      var init := ss[..|ss| - 1];
      assert ss == init + [ss[|ss| - 1]];
      CountAtMostOne(init, x, f);
      if x == ss[|ss| - 1] {
        assert x !in init by {
          forall k | 0 <= k < |init| ensures init[k] != x {
            assert f(ss[k]) != f(ss[|ss| - 1]);
          }
        }
      }
    }
  }

  /** Reordering keeps the summaries distinct under any projection `f`. */
  lemma DistinctUnderPermutation<T>(ss: seq<Summary>, r: seq<Summary>, f: Summary -> T)
    requires multiset(r) == multiset(ss)
    requires forall i, j :: 0 <= i < j < |ss| ==> f(ss[i]) != f(ss[j])
    ensures forall i, j :: 0 <= i < j < |r| ==> f(r[i]) != f(r[j])
  {
    forall i, j | 0 <= i < j < |r|
      ensures f(r[i]) != f(r[j])
    {
      if f(r[i]) == f(r[j]) {
        assert r[i] in multiset(ss) && r[j] in multiset(ss);
        var a :| 0 <= a < |ss| && ss[a] == r[i];
        var c :| 0 <= c < |ss| && ss[c] == r[j];
        assert a == c;
        CountAtLeastTwo(r, i, j);
        CountAtMostOne(ss, r[i], f);
        assert false;
      }
    }
  }

  /**
   * What the answer says when clients are told apart by phone and name: each summary
   * summarizes exactly the bookings of its client, every client with a phone has one, and
   * no client has two.
   */
  lemma {:induction false} PairSummariesCorrect(bs: seq<Booking>)
    ensures var r := Summarize(bs, PairKey);
            && (forall s :: s in r ==> Summarizes(s, Members(bs, PairKey, ClientOf(s))))
            && (forall p :: 0 <= p < |bs| && Counted(bs[p]) ==> exists s :: s in r && ClientOf(s) == PairKey(bs[p]))
            && (forall i, j :: 0 <= i < j < |r| ==> ClientOf(r[i]) != ClientOf(r[j]))
  {
    var gs := Fold(bs, PairKey);
    FoldGrouped(bs, PairKey);
    PairEntriesNameClients(gs, bs);
    PairSummariesSummarize(gs, bs);
    PairSummariesCover(gs, bs);
    DistinctUnderPermutation(Summaries(gs), Summarize(bs, PairKey), ClientOf);
  }

  /** Under the pair key, each entry's summary names the client it is filed under. */
  lemma PairEntriesNameClients(gs: seq<Group<ClientId>>, bs: seq<Booking>)
    requires AllSummarize(gs, bs, PairKey) && DistinctIds(gs)
    ensures forall i :: 0 <= i < |gs| ==> ClientOf(Summaries(gs)[i]) == gs[i].id
    ensures forall i, j :: 0 <= i < j < |gs| ==> ClientOf(Summaries(gs)[i]) != ClientOf(Summaries(gs)[j])
  {
    forall i | 0 <= i < |gs|
      ensures ClientOf(Summaries(gs)[i]) == gs[i].id
    {
      EntryNamesItsKey(gs, bs, PairKey, i);
    }
  }

  lemma PairSummariesSummarize(gs: seq<Group<ClientId>>, bs: seq<Booking>)
    requires gs == Fold(bs, PairKey) && AllSummarize(gs, bs, PairKey)
    requires forall i :: 0 <= i < |gs| ==> ClientOf(Summaries(gs)[i]) == gs[i].id
    ensures forall s :: s in Summarize(bs, PairKey) ==> Summarizes(s, Members(bs, PairKey, ClientOf(s)))
  {
    var ss := Summaries(gs);
    forall s | s in Summarize(bs, PairKey)
      ensures Summarizes(s, Members(bs, PairKey, ClientOf(s)))
    {
      assert s in multiset(ss);
      var i :| 0 <= i < |ss| && ss[i] == s;
    }
  }

  lemma PairSummariesCover(gs: seq<Group<ClientId>>, bs: seq<Booking>)
    requires gs == Fold(bs, PairKey) && Covers(gs, bs, PairKey)
    requires forall i :: 0 <= i < |gs| ==> ClientOf(Summaries(gs)[i]) == gs[i].id
    ensures forall p :: 0 <= p < |bs| && Counted(bs[p]) ==> exists s :: s in Summarize(bs, PairKey) && ClientOf(s) == PairKey(bs[p])
  {
    var ss := Summaries(gs);
    var r := Summarize(bs, PairKey);
    forall p | 0 <= p < |bs| && Counted(bs[p])
      ensures exists s :: s in r && ClientOf(s) == PairKey(bs[p])
    {
      var j :| 0 <= j < |gs| && gs[j].id == PairKey(bs[p]);
      assert ss[j] in multiset(r);
    }
  }

  /**
   * `getClientSummaries`, with clients told apart by phone and name: one summary per client
   * with a phone, each the summary of exactly that client's bookings (in creation order),
   * listed by non-increasing lifetime value, ties in order of the client's first booking.
   */
  function GetClientSummaries(store: Table<Booking>): (r: Reply<seq<Summary>>)
    requires store.Valid()
    ensures r.status == 200
    ensures forall s :: s in r.data ==> Summarizes(s, Members(store.Rows(), PairKey, ClientOf(s)))
    ensures forall p :: 0 <= p < |store.Rows()| && Counted(store.Rows()[p])
                        ==> exists s :: s in r.data && ClientOf(s) == PairKey(store.Rows()[p])
    ensures forall i, j :: 0 <= i < j < |r.data| ==> ClientOf(r.data[i]) != ClientOf(r.data[j])
    ensures forall i, j :: 0 <= i < j < |r.data| ==> r.data[i].lifetimeValue >= r.data[j].lifetimeValue
    ensures forall y :: Ties(r.data, y, HigherValue) == Ties(Summaries(Fold(store.Rows(), PairKey)), y, HigherValue)
  {
    PairSummariesCorrect(store.Rows());
    Reply(200, "Clients retrieved successfully", Summarize(store.Rows(), PairKey))
  }

  /** Under the string key, each summary summarizes the bookings filed under its `key`. */
  lemma StringSummariesSummarize(bs: seq<Booking>)
    ensures forall s :: s in Summarize(bs, StringKey) ==> Summarizes(s, Members(bs, StringKey, s.key))
  {
    var gs := Fold(bs, StringKey);
    FoldGrouped(bs, StringKey);
    forall s | s in Summarize(bs, StringKey)
      ensures Summarizes(s, Members(bs, StringKey, s.key))
    {
      assert s in multiset(Summaries(gs));
      var i :| 0 <= i < |gs| && gs[i].summary == s;
      EntryNamesItsKey(gs, bs, StringKey, i);
    }
  }

  /** The summary's `key` field is the string key it is filed under. */
  function KeyOf(s: Summary): string
  {
    s.key
  }

  /**
   * What the answer as written says: each summary summarizes the bookings filed under its
   * `key`, every booking with a phone has a summary under its key, and no key has two.
   */
  lemma {:induction false} StringSummariesCorrect(bs: seq<Booking>)
    ensures var r := Summarize(bs, StringKey);
            && (forall s :: s in r ==> Summarizes(s, Members(bs, StringKey, s.key)))
            && (forall p :: 0 <= p < |bs| && Counted(bs[p]) ==> exists s :: s in r && s.key == StringKey(bs[p]))
            && (forall i, j :: 0 <= i < j < |r| ==> r[i].key != r[j].key)
  {
    var gs := Fold(bs, StringKey);
    var ss := Summaries(gs);
    var r := Summarize(bs, StringKey);
    FoldGrouped(bs, StringKey);
    StringSummariesSummarize(bs);
    forall i | 0 <= i < |gs|
      ensures KeyOf(ss[i]) == gs[i].id
    {
      EntryNamesItsKey(gs, bs, StringKey, i);
    }
    forall p | 0 <= p < |bs| && Counted(bs[p])
      ensures exists s :: s in r && s.key == StringKey(bs[p])
    {
      var j :| 0 <= j < |gs| && gs[j].id == StringKey(bs[p]);
      assert ss[j] in multiset(r);
    }
    DistinctUnderPermutation(ss, r, KeyOf);
  }

  /**
   * `getClientSummaries` as written: grouped by the string key. Each summary is still the
   * summary of the bookings filed under its `key`, every booking with a phone is counted
   * under its key, and keys are distinct, but one key can join different clients (see
   * `StringKeyCollides`).
   */
  function GetClientSummariesAsWritten(store: Table<Booking>): (r: Reply<seq<Summary>>)
    requires store.Valid()
    ensures r.status == 200
    ensures forall s :: s in r.data ==> Summarizes(s, Members(store.Rows(), StringKey, s.key))
    ensures forall p :: 0 <= p < |store.Rows()| && Counted(store.Rows()[p])
                        ==> exists s :: s in r.data && s.key == StringKey(store.Rows()[p])
    ensures forall i, j :: 0 <= i < j < |r.data| ==> r.data[i].key != r.data[j].key
    ensures forall i, j :: 0 <= i < j < |r.data| ==> r.data[i].lifetimeValue >= r.data[j].lifetimeValue
    ensures forall y :: Ties(r.data, y, HigherValue) == Ties(Summaries(Fold(store.Rows(), StringKey)), y, HigherValue)
  {
    StringSummariesCorrect(store.Rows());
    Reply(200, "Clients retrieved successfully", Summarize(store.Rows(), StringKey))
  }
}

=== FILE: dates.dfy ===
/**
 * Booking dates: strings matching the schema pattern `^\d{4}-\d{2}-\d{2}$`. The client
 * aggregator compares them with JavaScript's string `>`; for strings of this shape that
 * comparison is the comparison of (year, month, day).
 */
module Dates {
  import opened Text

  /** The booking schema's date pattern `^\d{4}-\d{2}-\d{2}$` (`$` without the `m` flag: end of input). */
  predicate IsIsoDate(s: string)
  {
    && |s| == 10
    && AllDigits(s[..4]) && s[4] == '-'
    && AllDigits(s[5..7]) && s[7] == '-'
    && AllDigits(s[8..])
  }

  function Year(s: string): nat
    requires IsIsoDate(s)
  {
    DigitsValue(s[..4])
  }

  function Month(s: string): nat
    requires IsIsoDate(s)
  {
    DigitsValue(s[5..7])
  }

  function Day(s: string): nat
    requires IsIsoDate(s)
  {
    DigitsValue(s[8..])
  }

  /** `a` falls on an earlier (year, month, day) than `b`, compared field by field. */
  predicate CalendarBefore(a: string, b: string)
    requires IsIsoDate(a) && IsIsoDate(b)
  {
    || Year(a) < Year(b)
    || (Year(a) == Year(b) && Month(a) < Month(b))
    || (Year(a) == Year(b) && Month(a) == Month(b) && Day(a) < Day(b))
  }

  /** The first character of two strings agrees: comparing them compares what follows. */
  lemma SameHead(x: string, y: string)
    requires |x| > 0 && |y| > 0 && x[0] == y[0]
    ensures LexLess(x, y) <==> LexLess(x[1..], y[1..])
    ensures x == y <==> x[1..] == y[1..]
  {
    assert x == [x[0]] + x[1..] && y == [y[0]] + y[1..];
  }

  /**
   * On well-formed booking dates the string order the aggregator uses is calendar order,
   * and two dates are the same string exactly when they name the same day.
   */
  lemma {:induction false} DateOrderIsCalendarOrder(a: string, b: string)
    requires IsIsoDate(a) && IsIsoDate(b)
    ensures LexLess(a, b) <==> CalendarBefore(a, b)
    ensures a == b <==> (Year(a) == Year(b) && Month(a) == Month(b) && Day(a) == Day(b))
  {
    DigitOrderIsNumericOrder(a[..4], b[..4]);
    DigitOrderIsNumericOrder(a[5..7], b[5..7]);
    DigitOrderIsNumericOrder(a[8..], b[8..]);
    // year, then the rest
    assert a == a[..4] + a[4..] && b == b[..4] + b[4..];
    LexAppend(a[..4], a[4..], b[..4], b[4..]);
    SameHead(a[4..], b[4..]);
    assert a[4..][1..] == a[5..] && b[4..][1..] == b[5..];
    // month, then the rest
    assert a[5..] == a[5..7] + a[7..] && b[5..] == b[5..7] + b[7..];
    LexAppend(a[5..7], a[7..], b[5..7], b[7..]);
    SameHead(a[7..], b[7..]);
    assert a[7..][1..] == a[8..] && b[7..][1..] == b[8..];
  }
}

=== FILE: errors.dfy ===
/**
 * The error path of src/middleware/error.middleware.ts: every handler either answers or
 * passes an error on, and one central handler turns the error into a status code and an
 * error envelope. An unmatched route gets its own 404 answer.
 *
 * src/utils/appError.ts is not part of this model: an AppError is taken to carry a message
 * and a status code, which is all the handler reads from it.
 */
module Errors {
  import opened Outcomes
  import opened Http

  /**
   * What a handler can throw, with every feature the central handler inspects: whether it is
   * an AppError (and then its status code), its `name`, `message`, Mongo `code`, the messages
   * of a ValidationError's `errors`, the keys of a duplicate-key error's `keyValue`, and a
   * CastError's `path` and `value`.
   */
  datatype Thrown = Thrown(
    appStatus: Option<int>,
    name: string,
    message: string,
    code: Option<int>,
    fieldMessages: seq<string>,
    keyFields: seq<string>,
    path: string,
    value: string)

  /** `new AppError(message, statusCode)`. */
  function AppError(message: string, statusCode: int): Thrown
  {
    Thrown(Some(statusCode), "Error", message, None, [], [], "", "")
  }

  /** A Mongoose ValidationError whose `errors` carry these messages, in schema path order. */
  function ValidationError(messages: seq<string>): Thrown
  {
    Thrown(None, "ValidationError", "Validation failed", None, messages, [], "", "")
  }

  /** A unique-index violation (Mongo error code 11000) on the given field. */
  function DuplicateKey(field: string): Thrown
  {
    Thrown(None, "MongoServerError", "E11000 duplicate key error", Some(11000), [], [field], "", "")
  }

  /** Mongoose's default message for a value outside an enum. */
  function EnumMessage(value: string, path: string): string
  {
    "`" + value + "` is not a valid enum value for path `" + path + "`."
  }

  /** Mongoose's default message for a missing required value. */
  function RequiredMessage(path: string): string
  {
    "Path `" + path + "` is required."
  }

  /** The message of one validator: none when it passes. */
  function Check(ok: bool, message: string): (r: seq<string>)
    ensures r == [] <==> ok
  {
    if ok then [] else [message]
  }

  /** A handler's successful answer: status, message and data for `sendSuccess`. */
  datatype Reply<+D> = Reply(status: int, message: string, data: D)

  /**
   * What a handler does: the store state after it ran (also on the error path, where some
   * handlers have already written), and either its answer or the error it passed on.
   */
  datatype Handled<+S, +D> = Handled(state: S, outcome: Result<Reply<D>, Thrown>)

  /** `values.join(sep)`. */
  function Join(values: seq<string>, sep: string): string
  {
    if |values| == 0 then ""
    else if |values| == 1 then values[0]
    else values[0] + sep + Join(values[1..], sep)
  }

  /** JavaScript's template rendering of `Object.keys(keyValue)[0]`: `undefined` when there is none. */
  function FirstKey(keys: seq<string>): string
  {
    if |keys| == 0 then "undefined" else keys[0]
  }

  /** The errors the central handler has no special case for. */
  predicate Unclassified(e: Thrown)
  {
    && e.appStatus.None?
    && e.name != "ValidationError"
    && e.code != Some(11000)
    && e.name !in {"CastError", "JsonWebTokenError", "TokenExpiredError"}
  }

  /**
   * The (status, message) `errorHandler` answers with; `production` is
   * `NODE_ENV === 'production'`. The cases are tried in the handler's order.
   */
  function Classify(e: Thrown, production: bool): (r: (int, string))
    ensures e.appStatus.Some? ==> r == (e.appStatus.value, e.message)
    ensures e.appStatus.None? ==> r.0 in {400, 401, 500}
    ensures r.0 == 500 && e.appStatus.None? <==> Unclassified(e)
    ensures e.appStatus.None? && e.name == "ValidationError" ==>
              r == (400, "Validation Error: " + Join(e.fieldMessages, ", "))
    ensures e.appStatus.None? && e.name != "ValidationError" && e.code == Some(11000) ==>
              r == (400, FirstKey(e.keyFields) + " already exists")
    ensures e.appStatus.None? && e.name != "ValidationError" && e.code != Some(11000) && e.name == "CastError" ==>
              r == (400, "Invalid " + e.path + ": " + e.value)
    ensures e.appStatus.None? && e.name != "ValidationError" && e.code != Some(11000) && e.name == "JsonWebTokenError" ==>
              r == (401, "Invalid token. Please log in again.")
    ensures e.appStatus.None? && e.name != "ValidationError" && e.code != Some(11000) && e.name == "TokenExpiredError" ==>
              r == (401, "Your token has expired. Please log in again.")
    ensures Unclassified(e) && production ==> r == (500, "Something went wrong!")
    ensures Unclassified(e) && !production ==> r == (500, if e.message != "" then e.message else "Internal server error")
  {
    if e.appStatus.Some? then (e.appStatus.value, e.message)
    else if e.name == "ValidationError" then (400, "Validation Error: " + Join(e.fieldMessages, ", "))
    else if e.code == Some(11000) then (400, FirstKey(e.keyFields) + " already exists")
    else if e.name == "CastError" then (400, "Invalid " + e.path + ": " + e.value)
    else if e.name == "JsonWebTokenError" then (401, "Invalid token. Please log in again.")
    else if e.name == "TokenExpiredError" then (401, "Your token has expired. Please log in again.")
    else if production then (500, "Something went wrong!")
    else (500, OrElse(Some(e.message), "Internal server error"))
  }

  /** `errorHandler`: the error envelope for a thrown error (nothing once headers are sent). */
  function ErrorHandler<D>(e: Thrown, production: bool, headersSent: bool, now: string): (r: Option<Response<D>>)
    ensures headersSent <==> r.None?
    ensures r.Some? ==> (r.value.status, r.value.body.message) == Classify(e, production)
    ensures r.Some? ==> !r.value.body.success && r.value.body.error == Some(OrElse(None, r.value.body.message))
  {
    var (status, message) := Classify(e, production);
    SendError(headersSent, Some(message), Some(status), None, now)
  }

  /** `notFoundHandler`: an unmatched route answers 404 naming the requested URL. */
  function NotFoundHandler<D>(url: string, headersSent: bool, now: string): (r: Option<Response<D>>)
    ensures headersSent <==> r.None?
    ensures r.Some? ==> r.value.status == 404 && !r.value.body.success
    ensures r.Some? ==> r.value.body.message == "Route " + url + " not found"
  {
    SendError(headersSent, Some("Route " + url + " not found"), Some(404), None, now)
  }

  /** What the client receives for a handler's outcome: `sendSuccess` or the central error handler. */
  function Respond<S, D>(h: Handled<S, D>, production: bool, now: string): (r: Response<D>)
    ensures r.body.success <==> h.outcome.Ok?
    ensures h.outcome.Ok? ==> r.status == h.outcome.value.status && r.body.data == Some(h.outcome.value.data)
    ensures h.outcome.Ok? ==>
              (Delivered(r).Some? <==> h.outcome.value.status != 204 && h.outcome.value.status != 304)
    ensures h.outcome.Err? ==> (r.status, r.body.message) == Classify(h.outcome.error, production)
  {
    match h.outcome
    case Ok(reply) => SendSuccess(reply.data, Some(reply.message), Some(reply.status), now)
    case Err(e) => ErrorHandler(e, production, false, now).value
  }

  /**
   * An AppError is recognised before anything else: even one that also looks like a
   * validation, duplicate-key or token error keeps its own status and message.
   */
  lemma AppErrorTakesPrecedence(message: string, status: int, name: string, code: Option<int>, production: bool)
    ensures var e := AppError(message, status).(name := name, code := code);
            Classify(e, production) == (status, message)
  {
  }

  /** A validation error lists every field message, separated by ", ". */
  lemma ValidationMessagesJoined(messages: seq<string>, production: bool)
    requires |messages| >= 1
    ensures Classify(ValidationError(messages), production).0 == 400
    ensures Classify(ValidationError(messages), production).1
            == "Validation Error: " + messages[0] + (if |messages| == 1 then "" else ", " + Join(messages[1..], ", "))
  {
  }

  /** A duplicate key answers 400 naming the first duplicated field. */
  lemma DuplicateKeyNamesField(field: string, production: bool)
    ensures Classify(DuplicateKey(field), production) == (400, field + " already exists")
  {
  }

  /**
   * In production, nothing of an unclassified error reaches the client: two such errors get
   * the same answer whatever their messages.
   */
  lemma ProductionHidesDetails(e: Thrown, e': Thrown)
    requires Unclassified(e) && Unclassified(e')
    ensures Classify(e, true) == Classify(e', true) == (500, "Something went wrong!")
  {
  }

  /** Outside production an unclassified error shows its own message, or a generic one if it has none. */
  lemma DevelopmentShowsMessage(e: Thrown)
    requires Unclassified(e)
    ensures e.message != "" ==> Classify(e, false) == (500, e.message)
    ensures e.message == "" ==> Classify(e, false) == (500, "Internal server error")
  {
  }
}

=== FILE: http.dfy ===
/**
 * The response envelope of src/utils/response.ts: every answer is a JSON body
 * `{ success, message, data?, error?, timestamp }` sent with an HTTP status.
 * The clock is a parameter: `now` is the ISO-8601 timestamp the body carries.
 */
module Http {
  import opened Outcomes

  datatype Body<+D> = Body(success: bool, message: string, data: Option<D>, error: Option<string>, timestamp: string)

  datatype Response<+D> = Response(status: int, body: Body<D>)

  /** JavaScript's `x || fallback` on an optional string: an absent or empty value falls back. */
  function OrElse(x: Option<string>, fallback: string): (r: string)
    ensures x.Some? && x.value != "" ==> r == x.value
    ensures x.None? || x.value == "" ==> r == fallback
  {
    if x.Some? && x.value != "" then x.value else fallback
  }

  /**
   * `sendSuccess(res, data, message = 'Success', statusCode = 200)`; an argument left out is
   * `None`.
   */
  function SendSuccess<D>(data: D, message: Option<string>, statusCode: Option<int>, now: string): (r: Response<D>)
    ensures r.body.success && r.body.data == Some(data) && r.body.error.None?
    ensures message.None? ==> r.body.message == "Success"
    ensures message.Some? ==> r.body.message == message.value
    ensures statusCode.None? ==> r.status == 200
    ensures statusCode.Some? ==> r.status == statusCode.value
    ensures r.body.timestamp == now
  {
    Response(statusCode.GetOr(200), Body(true, message.GetOr("Success"), Some(data), None, now))
  }

  /**
   * The body that reaches the client. `res.json` hands the envelope to Express's `res.send`,
   * which sends a 204 or 304 reply without any body: the client then sees the status alone.
   */
  function Delivered<D>(r: Response<D>): (w: Option<Body<D>>)
    ensures w.None? <==> r.status == 204 || r.status == 304
    ensures w.Some? ==> w.value == r.body
  {
    if r.status == 204 || r.status == 304 then None else Some(r.body)
  }

  /**
   * `sendError(res, message = 'An error occurred', statusCode = 500, error?)`. When the
   * headers were already sent it writes nothing (`None`).
   */
  function SendError<D>(headersSent: bool, message: Option<string>, statusCode: Option<int>,
                        error: Option<string>, now: string): (r: Option<Response<D>>)
    ensures headersSent <==> r.None?
    ensures r.Some? ==> !r.value.body.success && r.value.body.data.None?
    ensures r.Some? && message.None? ==> r.value.body.message == "An error occurred"
    ensures r.Some? && message.Some? ==> r.value.body.message == message.value
    ensures r.Some? && statusCode.None? ==> r.value.status == 500
    ensures r.Some? && statusCode.Some? ==> r.value.status == statusCode.value
    ensures r.Some? ==> r.value.body.error == Some(OrElse(error, r.value.body.message))
  {
    if headersSent then None
    else
      var msg := message.GetOr("An error occurred");
      Some(Response(statusCode.GetOr(500), Body(false, msg, None, Some(OrElse(error, msg)), now)))
  }

  /**
   * The two envelopes can always be told apart by the client: a success body carries data
   * and no error, an error body carries an error and no data.
   */
  lemma EnvelopesDistinguishable<D>(data: D, m: Option<string>, s: Option<int>, m': Option<string>,
                                     s': Option<int>, e: Option<string>, now: string)
    ensures var ok := SendSuccess(data, m, s, now);
            var bad := SendError<D>(false, m', s', e, now);
            bad.Some? && ok.body.success != bad.value.body.success
            && ok.body.data.Some? && bad.value.body.data.None?
            && ok.body.error.None? && bad.value.body.error.Some?
  {
  }
}

=== FILE: js.dfy ===
/**
 * JavaScript truthiness, as the handlers use it to test request-body fields (`if (!name)`,
 * `!!active`). Numbers are modelled as integers, so `NaN` does not arise.
 */
module Js {
  import opened Outcomes

  /** A scalar request-body value; objects and arrays are `Obj`. */
  datatype Value = Undefined | Null | Bool(b: bool) | Num(n: int) | Str(s: string) | Obj

  /** `!!v`. */
  predicate Truthy(v: Value)
  {
    match v
    case Undefined => false
    case Null => false
    case Bool(b) => b
    case Num(n) => n != 0
    case Str(s) => s != ""
    case Obj => true
  }

  /** An optional string field is truthy: present and not empty. */
  predicate Given(s: Option<string>)
  {
    s.Some? && s.value != ""
  }

  /** An optional number field is truthy: present and not zero. */
  predicate GivenNum(n: Option<int>)
  {
    n.Some? && n.value != 0
  }

  /** An optional field that is an object or array: truthy exactly when present. */
  predicate GivenObj<T>(o: Option<T>)
  {
    o.Some?
  }
}

=== FILE: outcomes.dfy ===
/** Optional values and success-or-error results shared by every module of the model. */
module Outcomes {

  /** A value that may be absent: JavaScript's `undefined` is `None`. */
  datatype Option<+T> = None | Some(value: T) {
    function GetOr(default: T): T {
      match this
      case Some(v) => v
      case None => default
    }
  }

  /** The result of an operation that either succeeds with a value or fails with an error. */
  datatype Result<+T, +E> = Ok(value: T) | Err(error: E)
}

=== FILE: routing.dfy ===
/**
 * The routers of the route files under src/modules (auth, user, booking, staff and client) and their
 * mounting in src/routes/index.ts and src/app.ts. A router is a list of layers tried in
 * order: a `use` layer runs a gate on every request that reaches it, a route layer answers
 * a request whose method and path it matches.
 */
module Routing {
  import opened Outcomes
  import opened Js
  import opened Tables
  import opened Errors
  import opened Accounts
  import opened AuthMiddleware

  /** Every handler the routers can name, including the auth handlers no router names. */
  datatype Handler =
    | Register | Login | GetMe | Logout
    | VerifyEmail | ResendVerification | ForgotPassword | ResetPassword
    | GetCurrentUser | UpdateUserProfile | GetAllUsers | GetUserById | DeleteUser
    | CreateBooking | GetAllBookings | GetBookingById | UpdateBookingStatus | UpdatePaymentStatus
    | AssignStaff | UpdateBooking | DeleteBooking
    | GetAllStaff | CreateStaff | UpdateStaff | SetStaffActive | DeleteStaff
    | GetClientSummaries
    | Health

  datatype Guard = ProtectGate | AdminGate

  /** A path pattern segment: a fixed word, or a `:id` parameter (any non-empty segment). */
  datatype Segment = Lit(word: string) | Param

  datatype Layer = Use(guard: Guard) | Route(verb: string, pattern: seq<Segment>, handler: Handler)

  /** A request as the router sees it: the gate's view, and the path below the mount point, split at `/`. */
  datatype Call = Call(req: Request, path: seq<string>)

  /** Where a request ends up: a gate's error, a handler (with the attached user), or nowhere. */
  datatype Outcome = Rejected(error: Thrown) | Reached(handler: Handler, user: Option<Entry<Account>>) | NoRoute

  function SegmentMatches(s: Segment, part: string): bool
  {
    match s
    case Lit(w) => part == w
    case Param => part != ""
  }

  function Matches(pattern: seq<Segment>, path: seq<string>): (b: bool)
    ensures b ==> |pattern| == |path|
  {
    if |pattern| == 0 then |path| == 0
    else |path| > 0 && SegmentMatches(pattern[0], path[0]) && Matches(pattern[1..], path[1..])
  }

  function Apply(g: Guard, call: Call, store: Accounts, crypto: Crypto, user: Option<Entry<Account>>): Gate
  {
    match g
    case ProtectGate => Protect(call.req, store, crypto)
    case AdminGate => RestrictToAdmin(user)
  }

  /** Express's walk through a router's layers from position `from`. */
  function Run(layers: seq<Layer>, call: Call, store: Accounts, crypto: Crypto,
               user: Option<Entry<Account>>, from: nat): Outcome
    decreases |layers| - from
  {
    if from >= |layers| then NoRoute
    else match layers[from]
      case Use(g) =>
        (match Apply(g, call, store, crypto, user)
         case Reject(e) => Rejected(e)
         case Pass(u) => Run(layers, call, store, crypto, u, from + 1))
      case Route(verb, pattern, h) =>
        if verb == call.req.verb && Matches(pattern, call.path) then Reached(h, user)
        else Run(layers, call, store, crypto, user, from + 1)
  }

  /** A request entering a router, with no user attached yet. */
  function Dispatch(layers: seq<Layer>, call: Call, store: Accounts, crypto: Crypto): Outcome
  {
    Run(layers, call, store, crypto, None, 0)
  }

  const AuthRoutes: seq<Layer> := [
    Route("POST", [Lit("register")], Register),
    Route("POST", [Lit("login")], Login),
    Use(ProtectGate),
    Route("GET", [Lit("me")], GetMe),
    Route("POST", [Lit("logout")], Logout)
  ]

  const UserRoutes: seq<Layer> := [
    Use(ProtectGate),
    Route("GET", [Lit("me")], GetCurrentUser),
    Route("PATCH", [Lit("me")], UpdateUserProfile),
    Route("GET", [], GetAllUsers),
    Route("GET", [Param], GetUserById),
    Route("DELETE", [Param], DeleteUser)
  ]

  const BookingRoutes: seq<Layer> := [
    Route("POST", [], CreateBooking),
    Use(ProtectGate),
    Use(AdminGate),
    Route("GET", [], GetAllBookings),
    Route("GET", [Param], GetBookingById),
    Route("PATCH", [Param, Lit("status")], UpdateBookingStatus),
    Route("PATCH", [Param, Lit("payment")], UpdatePaymentStatus),
    Route("PATCH", [Param, Lit("staff")], AssignStaff),
    Route("PATCH", [Param], UpdateBooking),
    Route("DELETE", [Param], DeleteBooking)
  ]

  const StaffRoutes: seq<Layer> := [
    Use(ProtectGate),
    Use(AdminGate),
    Route("GET", [], GetAllStaff),
    Route("POST", [], CreateStaff),
    Route("PATCH", [Param], UpdateStaff),
    Route("PATCH", [Param, Lit("active")], SetStaffActive),
    Route("DELETE", [Param], DeleteStaff)
  ]

  const ClientRoutes: seq<Layer> := [
    Use(ProtectGate),
    Use(AdminGate),
    Route("GET", [Lit("summary")], GetClientSummaries)
  ]

  /** Who may reach a route. */
  datatype Level = Public | Authenticated | Admin

  /** The level a router's gates impose once `protect` (and perhaps `restrictToAdmin`) ran. */
  function LevelOf(protected: bool, admin: bool): Level
  {
    if admin then Admin else if protected then Authenticated else Public
  }

  /** The gates a router runs before its first route naming `h`, and the level they impose. */
  function GuardOf(layers: seq<Layer>, h: Handler): Option<Level>
  {
    GuardFrom(layers, h, 0, false, false)
  }

  function GuardFrom(layers: seq<Layer>, h: Handler, from: nat, protected: bool, admin: bool): Option<Level>
    decreases |layers| - from
  {
    if from >= |layers| then None
    else match layers[from]
      case Use(ProtectGate) => GuardFrom(layers, h, from + 1, true, admin)
      case Use(AdminGate) => GuardFrom(layers, h, from + 1, protected, true)
      case Route(_, _, h') =>
        if h' == h then Some(LevelOf(protected, admin))
        else GuardFrom(layers, h, from + 1, protected, admin)
  }

  /** The user `protect` attaches for a request, if it lets the request through with one. */
  function Authenticate(req: Request, store: Accounts, crypto: Crypto): Option<Entry<Account>>
  {
    var g := Protect(req, store, crypto);
    if g.Pass? then g.user else None
  }

  /** What a reached handler may rely on at a level: a signed-in user, and for admin routes an admin. */
  predicate Satisfies(level: Level, u: Option<Entry<Account>>, call: Call, store: Accounts, crypto: Crypto)
  {
    match level
    case Public => true
    case Authenticated => u.Some? && u == Authenticate(call.req, store, crypto)
    case Admin => u.Some? && u == Authenticate(call.req, store, crypto) && u.value.row.role == AdminRole
  }

  /** The guard table of auth.routes.ts: register and login are public, `me` and `logout` need a token, nothing else is routed. */
  lemma AuthGuards()
    ensures GuardOf(AuthRoutes, Register) == Some(Public) && GuardOf(AuthRoutes, Login) == Some(Public)
    ensures GuardOf(AuthRoutes, GetMe) == Some(Authenticated) && GuardOf(AuthRoutes, Logout) == Some(Authenticated)
    ensures forall h :: h !in {Register, Login, GetMe, Logout} ==> GuardOf(AuthRoutes, h).None?
  {
  }

  /** The guard table of user.routes.ts: every route needs a token, none an admin. */
  lemma UserGuards()
    ensures forall h :: GuardOf(UserRoutes, h).Some? <==> h in {GetCurrentUser, UpdateUserProfile, GetAllUsers, GetUserById, DeleteUser}
    ensures forall h :: GuardOf(UserRoutes, h).Some? ==> GuardOf(UserRoutes, h) == Some(Authenticated)
  {
  }

  /** A handler named by route `k`, with only other routes from `from` up to `k`, gets the level in force. */
  lemma {:induction false} GuardFromFinds(layers: seq<Layer>, h: Handler, from: nat, protected: bool, admin: bool, k: nat)
    requires from <= k < |layers| && layers[k].Route? && layers[k].handler == h
    requires forall i :: from <= i < k ==> layers[i].Route? && layers[i].handler != h
    ensures GuardFrom(layers, h, from, protected, admin) == Some(LevelOf(protected, admin))
    decreases k - from
  {
    if from < k {
      GuardFromFinds(layers, h, from + 1, protected, admin, k);
    }
  }

  /** The guard table of booking.routes.ts: creating a booking is public, its seven other routes are for admins. */
  lemma BookingGuards()
    ensures GuardOf(BookingRoutes, CreateBooking) == Some(Public)
    ensures forall h :: h in {GetAllBookings, GetBookingById, UpdateBookingStatus, UpdatePaymentStatus, AssignStaff, UpdateBooking, DeleteBooking} ==>
              GuardOf(BookingRoutes, h) == Some(Admin)
  {
    forall h | h in {GetAllBookings, GetBookingById, UpdateBookingStatus, UpdatePaymentStatus, AssignStaff, UpdateBooking, DeleteBooking}
      ensures GuardOf(BookingRoutes, h) == Some(Admin)
    {
      var k := if h == GetAllBookings then 3 else if h == GetBookingById then 4 else if h == UpdateBookingStatus then 5
               else if h == UpdatePaymentStatus then 6 else if h == AssignStaff then 7 else if h == UpdateBooking then 8 else 9;
      GuardFromFinds(BookingRoutes, h, 3, true, true, k);
      BookingGates(h);
    }
  }

  /** Every booking handler but creation is looked up past both gates. */
  lemma BookingGates(h: Handler)
    requires h != CreateBooking
    ensures GuardOf(BookingRoutes, h) == GuardFrom(BookingRoutes, h, 3, true, true)
  {
    assert BookingRoutes[0] == Route("POST", [], CreateBooking);
    assert BookingRoutes[1] == Use(ProtectGate) && BookingRoutes[2] == Use(AdminGate);
  }

  /** The guard table of staff.routes.ts: all five routes are for admins. */
  lemma StaffGuards()
    ensures forall h :: GuardOf(StaffRoutes, h).Some? <==> h in {GetAllStaff, CreateStaff, UpdateStaff, SetStaffActive, DeleteStaff}
    ensures forall h :: GuardOf(StaffRoutes, h).Some? ==> GuardOf(StaffRoutes, h) == Some(Admin)
  {
  }

  /** The guard table of client.routes.ts: the summary alone, for admins. */
  lemma ClientGuards()
    ensures forall h :: GuardOf(ClientRoutes, h).Some? <==> h == GetClientSummaries
    ensures GuardOf(ClientRoutes, GetClientSummaries) == Some(Admin)
  {
  }

  /**
   * What the walk keeps true of the attached user (outside a preflight): it is the user the
   * token names, it is present once `protect` ran, and it is an admin once
   * `restrictToAdmin` ran.
   */
  predicate Attached(u: Option<Entry<Account>>, protected: bool, admin: bool, call: Call, store: Accounts, crypto: Crypto)
  {
    && (u.Some? ==> u == Authenticate(call.req, store, crypto))
    && (protected ==> u.Some?)
    && (admin ==> u.Some? && u.value.row.role == AdminRole)
  }

  /** A handler is reached only through a route naming it, with a user its gates vouch for. */
  lemma {:induction false} RunSound(layers: seq<Layer>, call: Call, store: Accounts, crypto: Crypto,
                                    user: Option<Entry<Account>>, from: nat, protected: bool, admin: bool)
    requires call.req.verb != "OPTIONS"
    requires Attached(user, protected, admin, call, store, crypto)
    ensures var o := Run(layers, call, store, crypto, user, from);
            o.Reached? ==>
              && Attached(o.user, protected, admin, call, store, crypto)
              && GuardFrom(layers, o.handler, from, protected, admin).Some?
              && Satisfies(GuardFrom(layers, o.handler, from, protected, admin).value, o.user, call, store, crypto)
    decreases |layers| - from
  {
    if from < |layers| {
      match layers[from]
      case Use(g) =>
        var gate := Apply(g, call, store, crypto, user);
        if gate.Pass? {
          var p' := protected || g == ProtectGate;
          var a' := admin || g == AdminGate;
          assert Attached(gate.user, p', a', call, store, crypto);
          RunSound(layers, call, store, crypto, gate.user, from + 1, p', a');
        }
      case Route(verb, pattern, h) =>
        if !(verb == call.req.verb && Matches(pattern, call.path)) {
          RunSound(layers, call, store, crypto, user, from + 1, protected, admin);
        }
    }
  }

  /**
   * Soundness of the guard table: outside a preflight, a handler a router reaches is one of
   * its routes, and the user it sees meets that route's level.
   */
  lemma DispatchSound(layers: seq<Layer>, call: Call, store: Accounts, crypto: Crypto)
    requires call.req.verb != "OPTIONS"
    ensures var o := Dispatch(layers, call, store, crypto);
            o.Reached? ==> GuardOf(layers, o.handler).Some? && Satisfies(GuardOf(layers, o.handler).value, o.user, call, store, crypto)
  {
    RunSound(layers, call, store, crypto, None, 0, false, false);
  }

  /** A router none of whose routes from `from` on has the request's method reaches no handler. */
  lemma {:induction false} RunNeedsVerb(layers: seq<Layer>, call: Call, store: Accounts, crypto: Crypto,
                                        user: Option<Entry<Account>>, from: nat)
    requires forall i :: from <= i < |layers| && layers[i].Route? ==> layers[i].verb != call.req.verb
    ensures !Run(layers, call, store, crypto, user, from).Reached?
    decreases |layers| - from
  {
    if from < |layers| {
      match layers[from]
      case Use(g) =>
        var gate := Apply(g, call, store, crypto, user);
        if gate.Pass? {
          RunNeedsVerb(layers, call, store, crypto, gate.user, from + 1);
        }
      case Route(_, _, _) =>
        RunNeedsVerb(layers, call, store, crypto, user, from + 1);
    }
  }

  /** No router has an OPTIONS route, so a preflight reaching a router never reaches a handler. */
  lemma PreflightReachesNoHandler(call: Call, store: Accounts, crypto: Crypto)
    requires call.req.verb == "OPTIONS"
    ensures !Dispatch(AuthRoutes, call, store, crypto).Reached?
    ensures !Dispatch(UserRoutes, call, store, crypto).Reached?
    ensures !Dispatch(BookingRoutes, call, store, crypto).Reached?
    ensures !Dispatch(StaffRoutes, call, store, crypto).Reached?
    ensures !Dispatch(ClientRoutes, call, store, crypto).Reached?
  {
    RunNeedsVerb(AuthRoutes, call, store, crypto, None, 0);
    RunNeedsVerb(UserRoutes, call, store, crypto, None, 0);
    RunNeedsVerb(BookingRoutes, call, store, crypto, None, 0);
    RunNeedsVerb(StaffRoutes, call, store, crypto, None, 0);
    RunNeedsVerb(ClientRoutes, call, store, crypto, None, 0);
  }

  /**
   * A router that runs `protect` and then `restrictToAdmin` at `at`: a request `protect`
   * turns away gets `protect`'s 401; a preflight or a non-admin gets `restrictToAdmin`'s
   * 401 or 403; only an admin goes on, to the routes after the two gates.
   */
  lemma GatedFrom(layers: seq<Layer>, call: Call, store: Accounts, crypto: Crypto, user: Option<Entry<Account>>, at: nat)
    requires at + 1 < |layers| && layers[at] == Use(ProtectGate) && layers[at + 1] == Use(AdminGate)
    ensures var o := Run(layers, call, store, crypto, user, at);
            var g := Protect(call.req, store, crypto);
            && (g.Reject? ==> o == Rejected(g.error))
            && (g.Pass? && g.user.None? ==> o == Rejected(NotLoggedIn))
            && (g.Pass? && g.user.Some? && g.user.value.row.role != AdminRole ==> o == Rejected(NotAdmin))
            && (g.Pass? && g.user.Some? && g.user.value.row.role == AdminRole ==> o == Run(layers, call, store, crypto, g.user, at + 2))
  {
  }

  /** Behind both gates, a request without a token is refused with 401, never 403. */
  lemma NoTokenNeverForbidden(layers: seq<Layer>, call: Call, store: Accounts, crypto: Crypto, user: Option<Entry<Account>>, at: nat)
    requires at + 1 < |layers| && layers[at] == Use(ProtectGate) && layers[at + 1] == Use(AdminGate)
    requires !Given(BearerToken(call.req.authorization))
    ensures Run(layers, call, store, crypto, user, at) == Rejected(NotLoggedIn)
  {
    GatedFrom(layers, call, store, crypto, user, at);
  }

  /** A route layer answers a request it matches and hands any other to the next layer. */
  lemma RouteStep(layers: seq<Layer>, call: Call, store: Accounts, crypto: Crypto, user: Option<Entry<Account>>, from: nat)
    requires from < |layers| && layers[from].Route?
    ensures Run(layers, call, store, crypto, user, from) ==
            if layers[from].verb == call.req.verb && Matches(layers[from].pattern, call.path)
            then Reached(layers[from].handler, user)
            else Run(layers, call, store, crypto, user, from + 1)
  {
  }

  /** The path shapes the routers use: `/`, `/word`, `/:id` and `/:id/word`. */
  lemma PatternShapes(path: seq<string>, w: string)
    ensures Matches([], path) <==> path == []
    ensures Matches([Lit(w)], path) <==> path == [w]
    ensures Matches([Param], path) <==> |path| == 1 && path[0] != ""
    ensures Matches([Param, Lit(w)], path) <==> |path| == 2 && path[0] != "" && path[1] == w
  {
    if |path| == 1 {
      assert path == [path[0]];
    }
    if |path| >= 1 {
      assert Matches([Param, Lit(w)], path) == (path[0] != "" && Matches([Lit(w)], path[1..]));
    }
  }

  /** Where a request lands once a router has picked a handler for it, or none. */
  function Landing(h: Option<Handler>, user: Option<Entry<Account>>): (o: Outcome)
    ensures o.Reached? <==> h.Some?
    ensures o.Reached? ==> o.handler == h.value && o.user == user
  {
    if h.Some? then Reached(h.value, user) else NoRoute
  }

  /** The staff endpoints, by method and path below `/staff`. */
  function StaffEndpoint(verb: string, path: seq<string>): Option<Handler>
  {
    if path == [] && verb == "GET" then Some(GetAllStaff)
    else if path == [] && verb == "POST" then Some(CreateStaff)
    else if |path| == 1 && path[0] != "" && verb == "PATCH" then Some(UpdateStaff)
    else if |path| == 2 && path[0] != "" && path[1] == "active" && verb == "PATCH" then Some(SetStaffActive)
    else if |path| == 1 && path[0] != "" && verb == "DELETE" then Some(DeleteStaff)
    else None
  }

  /** Past its gates, the staff router lands exactly where `StaffEndpoint` says. */
  lemma StaffRoutesResolve(call: Call, store: Accounts, crypto: Crypto, user: Option<Entry<Account>>)
    ensures Run(StaffRoutes, call, store, crypto, user, 2) == Landing(StaffEndpoint(call.req.verb, call.path), user)
  {
    PatternShapes(call.path, "active");
    RouteStep(StaffRoutes, call, store, crypto, user, 2);
    RouteStep(StaffRoutes, call, store, crypto, user, 3);
    RouteStep(StaffRoutes, call, store, crypto, user, 4);
    RouteStep(StaffRoutes, call, store, crypto, user, 5);
    RouteStep(StaffRoutes, call, store, crypto, user, 6);
  }

  /**
   * `/staff`: every request faces both gates, and an admin's request lands on the
   * endpoint its method and path name, or on no route.
   */
  lemma StaffRouter(call: Call, store: Accounts, crypto: Crypto)
    ensures var o := Dispatch(StaffRoutes, call, store, crypto);
            var g := Protect(call.req, store, crypto);
            && (g.Reject? ==> o == Rejected(g.error))
            && (call.req.verb != "OPTIONS" && !Given(BearerToken(call.req.authorization)) ==> o == Rejected(NotLoggedIn))
            && (g.Pass? && g.user.Some? && g.user.value.row.role != AdminRole ==> o == Rejected(NotAdmin))
            && (g.Pass? && g.user.Some? && g.user.value.row.role == AdminRole ==>
                  o == Landing(StaffEndpoint(call.req.verb, call.path), g.user))
  {
    GatedFrom(StaffRoutes, call, store, crypto, None, 0);
    var g := Protect(call.req, store, crypto);
    if g.Pass? && g.user.Some? {
      StaffRoutesResolve(call, store, crypto, g.user);
    }
  }

  /** Exactly five staff endpoints exist. */
  lemma StaffEndpointsAreFive(h: Handler)
    ensures (exists verb, path :: StaffEndpoint(verb, path) == Some(h)) <==>
            h in {GetAllStaff, CreateStaff, UpdateStaff, SetStaffActive, DeleteStaff}
  {
    if h == GetAllStaff { assert StaffEndpoint("GET", []) == Some(h); }
    if h == CreateStaff { assert StaffEndpoint("POST", []) == Some(h); }
    if h == UpdateStaff { assert StaffEndpoint("PATCH", ["1"]) == Some(h); }
    if h == DeleteStaff { assert StaffEndpoint("DELETE", ["1"]) == Some(h); }
    if h == SetStaffActive { assert StaffEndpoint("PATCH", ["1", "active"]) == Some(h); }
  }

  /** `/clients`: both gates, then `GET /summary` alone; the aggregator runs for admins only. */
  lemma ClientRouter(call: Call, store: Accounts, crypto: Crypto)
    ensures var o := Dispatch(ClientRoutes, call, store, crypto);
            var g := Protect(call.req, store, crypto);
            && (g.Reject? ==> o == Rejected(g.error))
            && (call.req.verb != "OPTIONS" && !Given(BearerToken(call.req.authorization)) ==> o == Rejected(NotLoggedIn))
            && (g.Pass? && g.user.Some? && g.user.value.row.role != AdminRole ==> o == Rejected(NotAdmin))
            && (o.Reached? <==> g.Pass? && g.user.Some? && g.user.value.row.role == AdminRole
                                && call.req.verb == "GET" && call.path == ["summary"])
            && (o.Reached? ==> o == Reached(GetClientSummaries, g.user))
  {
    GatedFrom(ClientRoutes, call, store, crypto, None, 0);
    var g := Protect(call.req, store, crypto);
    if g.Pass? && g.user.Some? {
      PatternShapes(call.path, "summary");
      RouteStep(ClientRoutes, call, store, crypto, g.user, 2);
    }
  }

  /** The booking endpoints behind the admin gate, by method and path below `/bookings`. */
  function BookingAdminEndpoint(verb: string, path: seq<string>): Option<Handler>
  {
    if path == [] && verb == "GET" then Some(GetAllBookings)
    else if |path| == 1 && path[0] != "" && verb == "GET" then Some(GetBookingById)
    else if |path| == 2 && path[0] != "" && verb == "PATCH" && path[1] == "status" then Some(UpdateBookingStatus)
    else if |path| == 2 && path[0] != "" && verb == "PATCH" && path[1] == "payment" then Some(UpdatePaymentStatus)
    else if |path| == 2 && path[0] != "" && verb == "PATCH" && path[1] == "staff" then Some(AssignStaff)
    else if |path| == 1 && path[0] != "" && verb == "PATCH" then Some(UpdateBooking)
    else if |path| == 1 && path[0] != "" && verb == "DELETE" then Some(DeleteBooking)
    else None
  }

  /** Past its gates, the booking router lands exactly where `BookingAdminEndpoint` says. */
  lemma BookingRoutesResolve(call: Call, store: Accounts, crypto: Crypto, user: Option<Entry<Account>>)
    ensures Run(BookingRoutes, call, store, crypto, user, 3) == Landing(BookingAdminEndpoint(call.req.verb, call.path), user)
  {
    PatternShapes(call.path, "status");
    PatternShapes(call.path, "payment");
    PatternShapes(call.path, "staff");
    RouteStep(BookingRoutes, call, store, crypto, user, 3);
    RouteStep(BookingRoutes, call, store, crypto, user, 4);
    RouteStep(BookingRoutes, call, store, crypto, user, 5);
    RouteStep(BookingRoutes, call, store, crypto, user, 6);
    RouteStep(BookingRoutes, call, store, crypto, user, 7);
    RouteStep(BookingRoutes, call, store, crypto, user, 8);
    RouteStep(BookingRoutes, call, store, crypto, user, 9);
  }

  /**
   * `/bookings`: `POST /` creates a booking with no gate at all, whatever token comes with
   * it; every other request faces both gates, and an admin's lands on the endpoint its
   * method and path name.
   */
  lemma BookingRouter(call: Call, store: Accounts, crypto: Crypto)
    ensures var o := Dispatch(BookingRoutes, call, store, crypto);
            var g := Protect(call.req, store, crypto);
            var create := call.req.verb == "POST" && call.path == [];
            && (create ==> o == Reached(CreateBooking, None))
            && (!create && g.Reject? ==> o == Rejected(g.error))
            && (!create && call.req.verb != "OPTIONS" && !Given(BearerToken(call.req.authorization)) ==> o == Rejected(NotLoggedIn))
            && (!create && g.Pass? && g.user.Some? && g.user.value.row.role != AdminRole ==> o == Rejected(NotAdmin))
            && (!create && g.Pass? && g.user.Some? && g.user.value.row.role == AdminRole ==>
                  o == Landing(BookingAdminEndpoint(call.req.verb, call.path), g.user))
  {
    PatternShapes(call.path, "");
    RouteStep(BookingRoutes, call, store, crypto, None, 0);
    GatedFrom(BookingRoutes, call, store, crypto, None, 1);
    var g := Protect(call.req, store, crypto);
    if g.Pass? && g.user.Some? {
      BookingRoutesResolve(call, store, crypto, g.user);
    }
  }

  /** The user endpoints, by method and path below `/users`: `me` is never taken for an id when reading or patching. */
  function UserEndpoint(verb: string, path: seq<string>): Option<Handler>
  {
    if path == ["me"] && verb == "GET" then Some(GetCurrentUser)
    else if path == ["me"] && verb == "PATCH" then Some(UpdateUserProfile)
    else if path == [] && verb == "GET" then Some(GetAllUsers)
    else if |path| == 1 && path[0] != "" && verb == "GET" then Some(GetUserById)
    else if |path| == 1 && path[0] != "" && verb == "DELETE" then Some(DeleteUser)
    else None
  }

  /**
   * `/users`: every request needs a valid token, none needs an admin; a signed-in caller's
   * request lands on the endpoint its method and path name, with `/me` ahead of `/:id`.
   */
  lemma UserRouter(call: Call, store: Accounts, crypto: Crypto)
    ensures var o := Dispatch(UserRoutes, call, store, crypto);
            var g := Protect(call.req, store, crypto);
            && (g.Reject? ==> o == Rejected(g.error))
            && (g.Pass? ==> o == Landing(UserEndpoint(call.req.verb, call.path), g.user))
  {
    var g := Protect(call.req, store, crypto);
    if g.Pass? {
      var u := g.user;
      PatternShapes(call.path, "me");
      RouteStep(UserRoutes, call, store, crypto, u, 1);
      RouteStep(UserRoutes, call, store, crypto, u, 2);
      RouteStep(UserRoutes, call, store, crypto, u, 3);
      RouteStep(UserRoutes, call, store, crypto, u, 4);
      RouteStep(UserRoutes, call, store, crypto, u, 5);
    }
  }

  /** The auth endpoints behind `protect`, by method and path below `/auth`. */
  function AuthProtectedEndpoint(verb: string, path: seq<string>): Option<Handler>
  {
    if path == ["me"] && verb == "GET" then Some(GetMe)
    else if path == ["logout"] && verb == "POST" then Some(Logout)
    else None
  }

  /**
   * `/auth`: register and login need nothing; any other request faces `protect`, and once
   * past it lands on `me` or `logout` or on no route. The verification and password-reset
   * handlers are never reached.
   */
  lemma AuthRouter(call: Call, store: Accounts, crypto: Crypto)
    ensures var o := Dispatch(AuthRoutes, call, store, crypto);
            var g := Protect(call.req, store, crypto);
            var open := call.req.verb == "POST" && (call.path == ["register"] || call.path == ["login"]);
            && (open ==> o == Reached(if call.path == ["register"] then Register else Login, None))
            && (!open && g.Reject? ==> o == Rejected(g.error))
            && (!open && g.Pass? ==> o == Landing(AuthProtectedEndpoint(call.req.verb, call.path), g.user))
            && (o.Reached? ==> o.handler in {Register, Login, GetMe, Logout})
  {
    PatternShapes(call.path, "register");
    PatternShapes(call.path, "login");
    PatternShapes(call.path, "me");
    PatternShapes(call.path, "logout");
    RouteStep(AuthRoutes, call, store, crypto, None, 0);
    RouteStep(AuthRoutes, call, store, crypto, None, 1);
    var g := Protect(call.req, store, crypto);
    if g.Pass? {
      RouteStep(AuthRoutes, call, store, crypto, g.user, 3);
      RouteStep(AuthRoutes, call, store, crypto, g.user, 4);
    }
  }

  /**
   * The application: `/api/health`, and under `/api/<version>` the auth and user routers
   * only. Anything else, the booking, staff and client routers included, finds no route.
   */
  function App(verb: string, path: seq<string>, authorization: Option<string>, version: string,
               store: Accounts, crypto: Crypto): Outcome
  {
    var req := Request(verb, authorization);
    if verb == "GET" && path == ["api", "health"] then Reached(Health, None)
    else if |path| >= 3 && path[0] == "api" && path[1] == version && path[2] == "auth" then
      Dispatch(AuthRoutes, Call(req, path[3..]), store, crypto)
    else if |path| >= 3 && path[0] == "api" && path[1] == version && path[2] == "users" then
      Dispatch(UserRoutes, Call(req, path[3..]), store, crypto)
    else NoRoute
  }

  /** Only the health check and the auth and user handlers can ever be reached. */
  lemma OnlyAuthAndUsersMounted(verb: string, path: seq<string>, authorization: Option<string>, version: string,
                                store: Accounts, crypto: Crypto)
    ensures var o := App(verb, path, authorization, version, store, crypto);
            o.Reached? ==> o.handler in {Health, Register, Login, GetMe, Logout,
                                         GetCurrentUser, UpdateUserProfile, GetAllUsers, GetUserById, DeleteUser}
  {
    if |path| >= 3 {
      var call := Call(Request(verb, authorization), path[3..]);
      AuthRouter(call, store, crypto);
      UserRouter(call, store, crypto);
    }
  }
}

=== FILE: sorting.dfy ===
/**
 * A stable sort, as JavaScript's `Array.prototype.sort` and the document store's `sort()`
 * are used by the server. The order is given by `above(a, b)`: `a` must be listed before
 * `b`. Elements neither of which is above the other are "tied" and keep their input order.
 */
module Sorting {

  /** `above` is a strict weak order: asymmetric, and "not above" is transitive. */
  ghost predicate StrictWeakOrder<T(!new)>(above: (T, T) -> bool)
  {
    && (forall a, b :: above(a, b) ==> !above(b, a))
    && (forall a, b, c :: above(a, c) ==> above(a, b) || above(b, c))
  }

  /** Neither element has to come before the other. */
  predicate Tied<T>(a: T, b: T, above: (T, T) -> bool)
  {
    !above(a, b) && !above(b, a)
  }

  /** No element is listed after one it must come before. */
  ghost predicate Ordered<T>(s: seq<T>, above: (T, T) -> bool)
  {
    forall i, j :: 0 <= i < j < |s| ==> !above(s[j], s[i])
  }

  /** The elements of `s` tied with `y`, in their order in `s`. */
  function Ties<T>(s: seq<T>, y: T, above: (T, T) -> bool): seq<T>
  {
    if |s| == 0 then []
    else (if Tied(s[0], y, above) then [s[0]] else []) + Ties(s[1..], y, above)
  }

  /** Places `x` after every element that must come before it, and before all others. */
  function Insert<T>(x: T, s: seq<T>, above: (T, T) -> bool): (r: seq<T>)
    ensures multiset(r) == multiset(s) + multiset{x}
  {
    if |s| == 0 then [x]
    else if above(s[0], x) then
      assert s == [s[0]] + s[1..];
      [s[0]] + Insert(x, s[1..], above)
    else [x] + s
  }

  /** Insertion sort: the result is a permutation of the input. */
  function Sort<T>(s: seq<T>, above: (T, T) -> bool): (r: seq<T>)
    ensures multiset(r) == multiset(s)
    ensures |r| == |s|
  {
    if |s| == 0 then []
    else
      assert s == [s[0]] + s[1..];
      Insert(s[0], Sort(s[1..], above), above)
  }

  lemma TiesOfCons<T>(x: T, s: seq<T>, y: T, above: (T, T) -> bool)
    ensures Ties([x] + s, y, above) == Ties([x], y, above) + Ties(s, y, above)
  {
    assert ([x] + s)[1..] == s;
    assert Ties([x], y, above) == (if Tied(x, y, above) then [x] else []);
  }

  /** An element of an insertion is the inserted element or one of the list's. */
  lemma InsertElements<T>(x: T, s: seq<T>, above: (T, T) -> bool, j: int)
    requires 0 <= j < |Insert(x, s, above)|
    ensures Insert(x, s, above)[j] == x || Insert(x, s, above)[j] in s
  {
    var r := Insert(x, s, above);
    assert r[j] in multiset(r);
  }

  /** Prepending an element no later element must come before keeps a list ordered. */
  lemma ConsOrdered<T>(h: T, t: seq<T>, above: (T, T) -> bool)
    requires Ordered(t, above)
    requires forall j :: 0 <= j < |t| ==> !above(t[j], h)
    ensures Ordered([h] + t, above)
  {
    var r := [h] + t;
    forall i, j | 0 <= i < j < |r|
      ensures !above(r[j], r[i])
    {
      assert r[j] == t[j - 1];
      if i > 0 {
        assert r[i] == t[i - 1];
      }
    }
  }

  /** "Not above" is transitive. */
  lemma NotAboveTransitive<T(!new)>(a: T, b: T, c: T, above: (T, T) -> bool)
    requires StrictWeakOrder(above) && !above(a, b) && !above(b, c)
    ensures !above(a, c)
  {
  }

  lemma {:induction false} InsertOrdered<T(!new)>(x: T, s: seq<T>, above: (T, T) -> bool)
    requires StrictWeakOrder(above)
    requires Ordered(s, above)
    ensures Ordered(Insert(x, s, above), above)
  {
    if |s| == 0 {
      assert Insert(x, s, above) == [x];
    } else if above(s[0], x) {
      var rest := Insert(x, s[1..], above);
      assert Insert(x, s, above) == [s[0]] + rest;
      assert Ordered(s[1..], above);
      InsertOrdered(x, s[1..], above);
      forall j | 0 <= j < |rest|
        ensures !above(rest[j], s[0])
      {
        InsertElements(x, s[1..], above, j);
        if rest[j] != x {
          var k :| 0 <= k < |s[1..]| && s[1..][k] == rest[j];
          assert s[k + 1] == rest[j];
        }
      }
      ConsOrdered(s[0], rest, above);
    } else {
      assert Insert(x, s, above) == [x] + s;
      forall j | 0 <= j < |s|
        ensures !above(s[j], x)
      {
        if j > 0 {
          NotAboveTransitive(s[j], s[0], x, above);
        }
      }
      ConsOrdered(x, s, above);
    }
  }

  /** Of two elements one of which must come first, at most one is tied with any `y`. */
  lemma NotBothTied<T(!new)>(a: T, b: T, y: T, above: (T, T) -> bool)
    requires StrictWeakOrder(above) && above(a, b)
    ensures !(Tied(a, y, above) && Tied(b, y, above))
  {
  }

  lemma {:induction false} InsertTies<T(!new)>(x: T, s: seq<T>, y: T, above: (T, T) -> bool)
    requires StrictWeakOrder(above)
    ensures Ties(Insert(x, s, above), y, above) == Ties([x], y, above) + Ties(s, y, above)
  {
    if |s| == 0 {
      assert Ties([], y, above) == [];
    } else if above(s[0], x) {
      var rest := Insert(x, s[1..], above);
      assert Insert(x, s, above) == [s[0]] + rest;
      assert s == [s[0]] + s[1..];
      calc {
        Ties(Insert(x, s, above), y, above);
        Ties([s[0]] + rest, y, above);
        { TiesOfCons(s[0], rest, y, above); }
        Ties([s[0]], y, above) + Ties(rest, y, above);
        { InsertTies(x, s[1..], y, above); }
        Ties([s[0]], y, above) + (Ties([x], y, above) + Ties(s[1..], y, above));
        { NotBothTied(s[0], x, y, above); }
        Ties([x], y, above) + (Ties([s[0]], y, above) + Ties(s[1..], y, above));
        { TiesOfCons(s[0], s[1..], y, above); }
        Ties([x], y, above) + Ties(s, y, above);
      }
    } else {
      TiesOfCons(x, s, y, above);
    }
  }

  /**
   * The sort is correct and stable: its result is ordered, and for every element the
   * elements tied with it appear in the same relative order as in the input.
   */
  lemma {:induction false} SortOrderedAndStable<T(!new)>(s: seq<T>, above: (T, T) -> bool)
    requires StrictWeakOrder(above)
    ensures Ordered(Sort(s, above), above)
    ensures forall y :: Ties(Sort(s, above), y, above) == Ties(s, y, above)
  {
    if |s| > 0 {
      SortOrderedAndStable(s[1..], above);
      InsertOrdered(s[0], Sort(s[1..], above), above);
      forall y
        ensures Ties(Sort(s, above), y, above) == Ties(s, y, above)
      {
        InsertTies(s[0], Sort(s[1..], above), y, above);
        TiesOfCons(s[0], s[1..], y, above);
        assert s == [s[0]] + s[1..];
      }
    }
  }

  /** Sorting neither adds nor drops an element. */
  lemma SortKeepsMembers<T>(s: seq<T>, above: (T, T) -> bool)
    ensures forall x :: x in Sort(s, above) <==> x in s
  {
    forall x
      ensures x in Sort(s, above) <==> x in s
    {
      assert x in Sort(s, above) <==> x in multiset(Sort(s, above));
      assert x in s <==> x in multiset(s);
    }
  }
}

=== FILE: staff_controller.dfy ===
/**
 * The handlers of src/modules/staff/staff.controller.ts: the staff listing, creation,
 * partial update, the active switch and deletion.
 */
module StaffController {
  import opened Outcomes
  import opened Js
  import opened Text
  import opened Tables
  import opened Errors
  import opened Sorting
  import opened StaffModel

  /** A member, other than the one stored under `except`, already holding `phone`: the unique index's clash. */
  function PhoneHolder(store: StaffTable, phone: string, except: Option<nat>): (r: Option<nat>)
    requires store.Valid()
    ensures r.Some? ==> r.value in store.rows && store.rows[r.value].phone == phone && Some(r.value) != except
    ensures r.None? <==> forall k :: k in store.rows && Some(k) != except ==> store.rows[k].phone != phone
  {
    var others := if except.Some? then store.Remove(except.value) else store;
    assert forall k :: k in others.rows <==> k in store.rows && Some(k) != except;
    assert forall k :: k in others.rows ==> others.rows[k] == store.rows[k];
    others.FirstWhere((s: Staff) => s.phone == phone)
  }

  /**
   * `createStaff`: name, phone and role must be truthy; then the schema trims and validates
   * them; then the unique index refuses a phone already held; otherwise an active member is
   * stored and answered with 201.
   */
  function CreateStaff(store: StaffTable, name: Option<string>, phone: Option<string>, role: Option<string>, now: int)
    : (r: Handled<StaffTable, Entry<Staff>>)
    requires store.Valid()
    ensures r.state.Valid()
    ensures r.outcome.Err? ==> r.state == store
    ensures !Given(name) || !Given(phone) || !Given(role) ==>
              r.outcome == Err(AppError("Name, phone, and role are required", 400))
    ensures Given(name) && Given(phone) && Given(role) && Violations(name, phone, role) != [] ==>
              r.outcome == Err(ValidationError(Violations(name, phone, role)))
    ensures Given(name) && Given(phone) && Given(role) && Violations(name, phone, role) == [] &&
            (exists k :: k in store.rows && store.rows[k].phone == Trim(phone.value)) ==>
              r.outcome == Err(DuplicateKey("phone"))
    ensures r.outcome.Ok? <==>
              && Given(name) && Given(phone) && Given(role) && Violations(name, phone, role) == []
              && forall k :: k in store.rows ==> store.rows[k].phone != Trim(phone.value)
    ensures r.outcome.Ok? ==>
              var e := r.outcome.value.data;
              && e.id !in store.rows && r.state.rows == store.rows[e.id := e.row]
              && e.row == Staff(Trim(name.value), Trim(phone.value), ParseRole(role.value).value, true, now, now)
              && ValidStaff(e.row)
              && r.outcome.value.status == 201 && r.outcome.value.message == "Staff member created"
    ensures AllValid(store) ==> AllValid(r.state)
    ensures UniquePhones(store) ==> UniquePhones(r.state)
  {
    if !Given(name) || !Given(phone) || !Given(role) then
      Handled(store, Err(AppError("Name, phone, and role are required", 400)))
    else if Violations(name, phone, role) != [] then
      Handled(store, Err(ValidationError(Violations(name, phone, role))))
    else if PhoneHolder(store, Trim(phone.value), None).Some? then
      Handled(store, Err(DuplicateKey("phone")))
    else
      var s := Staff(Trim(name.value), Trim(phone.value), ParseRole(role.value).value, true, now, now);
      var (store', id) := store.Insert(s);
      Handled(store', Ok(Reply(201, "Staff member created", Entry(id, s))))
  }

  /** Creating a second member with the same phone, however padded, is refused by the unique index. */
  lemma SecondCreateWithPhoneRefused(store: StaffTable, name: string, phone: string, role: string,
                                     name': string, phone': string, role': string, now: int, later: int)
    requires store.Valid()
    requires Trim(phone) == Trim(phone') && name' != "" && phone' != "" && role' != ""
    ensures var first := CreateStaff(store, Some(name), Some(phone), Some(role), now);
            var second := CreateStaff(first.state, Some(name'), Some(phone'), Some(role'), later);
            first.outcome.Ok? && Violations(Some(name'), Some(phone'), Some(role')) == [] ==>
              second.outcome == Err(DuplicateKey("phone"))
  {
    var first := CreateStaff(store, Some(name), Some(phone), Some(role), now);
    if first.outcome.Ok? && Violations(Some(name'), Some(phone'), Some(role')) == [] {
      var id := first.outcome.value.data.id;
      assert id in first.state.rows && first.state.rows[id].phone == Trim(phone');
      assert Given(Some(name')) && Given(Some(phone')) && Given(Some(role'));
    }
  }

  /** The member an update writes: each given field replaced (name and phone trimmed), the rest kept. */
  function Patched(s: Staff, name: Option<string>, phone: Option<string>, role: Option<string>, active: Option<bool>, now: int): (s': Staff)
    requires role.Some? ==> ParseRole(role.value).Some?
    ensures s'.name == (if name.Some? then Trim(name.value) else s.name)
    ensures s'.phone == (if phone.Some? then Trim(phone.value) else s.phone)
    ensures (role.Some? ==> RoleName(s'.role) == role.value) && (role.None? ==> s'.role == s.role)
    ensures s'.active == (if active.Some? then active.value else s.active)
    ensures s'.createdAt == s.createdAt && s'.updatedAt == now
  {
    Staff(if name.Some? then Trim(name.value) else s.name,
          if phone.Some? then Trim(phone.value) else s.phone,
          if role.Some? then ParseRole(role.value).value else s.role,
          if active.Some? then active.value else s.active,
          s.createdAt, now)
  }

  /**
   * `updateStaff`: the given fields are validated first (a field the body leaves out is
   * neither validated nor written); then an unknown id gives 404; then a phone held by
   * another member is refused; otherwise the given fields are replaced.
   */
  function UpdateStaff(store: StaffTable, id: nat, name: Option<string>, phone: Option<string>, role: Option<string>,
                       active: Option<bool>, now: int): (r: Handled<StaffTable, Entry<Staff>>)
    requires store.Valid()
    ensures r.state.Valid()
    ensures r.outcome.Err? ==> r.state == store
    ensures Violations(name, phone, role) != [] ==> r.outcome == Err(ValidationError(Violations(name, phone, role)))
    ensures Violations(name, phone, role) == [] && id !in store.rows ==>
              r.outcome == Err(AppError("Staff member not found", 404))
    ensures Violations(name, phone, role) == [] && id in store.rows && phone.Some?
            && PhoneHolder(store, Trim(phone.value), Some(id)).Some? ==>
              r.outcome == Err(DuplicateKey("phone"))
    ensures r.outcome.Ok? <==>
              && Violations(name, phone, role) == [] && id in store.rows
              && (phone.Some? ==> forall k :: k in store.rows && k != id ==> store.rows[k].phone != Trim(phone.value))
    ensures r.outcome.Ok? ==> id in r.state.rows
    ensures r.outcome.Ok? ==>
              var s := store.rows[id];
              var s' := r.state.rows[id];
              && r.state.rows == store.rows[id := s']
              && s'.name == (if name.Some? then Trim(name.value) else s.name)
              && s'.phone == (if phone.Some? then Trim(phone.value) else s.phone)
              && (role.Some? ==> RoleName(s'.role) == role.value) && (role.None? ==> s'.role == s.role)
              && s'.active == (if active.Some? then active.value else s.active)
              && s'.createdAt == s.createdAt && s'.updatedAt == now
              && r.outcome.value == Reply(200, "Staff member updated", Entry(id, s'))
    ensures AllValid(store) ==> AllValid(r.state)
    ensures UniquePhones(store) ==> UniquePhones(r.state)
  {
    var v := Violations(name, phone, role);
    if v != [] then Handled(store, Err(ValidationError(v)))
    else if id !in store.rows then Handled(store, Err(AppError("Staff member not found", 404)))
    else if phone.Some? && PhoneHolder(store, Trim(phone.value), Some(id)).Some? then
      Handled(store, Err(DuplicateKey("phone")))
    else
      var s' := Patched(store.rows[id], name, phone, role, active, now);
      PutKeepsValid(store, id, s');
      PutKeepsPhonesUnique(store, id, s');
      Handled(store.Put(id, s'), Ok(Reply(200, "Staff member updated", Entry(id, s'))))
  }

  lemma PutKeepsValid(store: StaffTable, id: nat, s': Staff)
    requires id in store.rows
    requires ValidStaff(store.rows[id]) ==> ValidStaff(s')
    ensures AllValid(store) ==> AllValid(store.Put(id, s'))
  {
  }

  lemma PutKeepsPhonesUnique(store: StaffTable, id: nat, s': Staff)
    requires id in store.rows
    requires s'.phone == store.rows[id].phone || forall k :: k in store.rows && k != id ==> store.rows[k].phone != s'.phone
    ensures UniquePhones(store) ==> UniquePhones(store.Put(id, s'))
  {
  }

  /** An empty update body validates nothing and changes nothing but the update instant. */
  lemma EmptyUpdateTouchesOnlyTimestamp(store: StaffTable, id: nat, now: int)
    requires store.Valid() && id in store.rows
    ensures UpdateStaff(store, id, None, None, None, None, now).state.rows == store.rows[id := store.rows[id].(updatedAt := now)]
  {
  }

  /**
   * `setStaffActive`: stores the truthiness of the body's `active` and the update instant,
   * nothing else; 404 for an unknown id.
   */
  function SetStaffActive(store: StaffTable, id: nat, active: Value, now: int): (r: Handled<StaffTable, Entry<Staff>>)
    ensures store.Valid() ==> r.state.Valid()
    ensures r.outcome.Ok? <==> id in store.rows
    ensures r.outcome.Err? ==> r.state == store && r.outcome.error == AppError("Staff member not found", 404)
    ensures r.outcome.Ok? ==>
              && r.state.rows == store.rows[id := store.rows[id].(active := Truthy(active), updatedAt := now)]
              && r.outcome.value == Reply(200, "Staff member updated", Entry(id, r.state.rows[id]))
    ensures AllValid(store) ==> AllValid(r.state)
    ensures UniquePhones(store) ==> UniquePhones(r.state)
  {
    if id !in store.rows then Handled(store, Err(AppError("Staff member not found", 404)))
    else
      var s' := store.rows[id].(active := Truthy(active), updatedAt := now);
      Handled(store.Put(id, s'), Ok(Reply(200, "Staff member updated", Entry(id, s'))))
  }

  /** The switch agrees with a full update of `active` alone, whatever value the body sends. */
  lemma SetActiveIsUpdateOfActive(store: StaffTable, id: nat, active: Value, now: int)
    requires store.Valid()
    ensures SetStaffActive(store, id, active, now) == UpdateStaff(store, id, None, None, None, Some(Truthy(active)), now)
  {
  }

  /** `deleteStaff`: removes the member and answers with the removed record; 404 for an unknown id. */
  function DeleteStaff(store: StaffTable, id: nat): (r: Handled<StaffTable, Entry<Staff>>)
    ensures store.Valid() ==> r.state.Valid()
    ensures r.outcome.Ok? <==> id in store.rows
    ensures r.outcome.Err? ==> r.state == store && r.outcome.error == AppError("Staff member not found", 404)
    ensures r.outcome.Ok? ==>
              && r.state.rows == store.rows - {id}
              && r.outcome.value == Reply(200, "Staff member deleted", Entry(id, store.rows[id]))
    ensures AllValid(store) ==> AllValid(r.state)
    ensures UniquePhones(store) ==> UniquePhones(r.state)
  {
    if id !in store.rows then Handled(store, Err(AppError("Staff member not found", 404)))
    else Handled(store.Remove(id), Ok(Reply(200, "Staff member deleted", Entry(id, store.rows[id]))))
  }

  /** After a deletion the member is gone: updating, switching or deleting it again gives 404. */
  lemma DeletedStaffNotFound(store: StaffTable, id: nat, active: Value, now: int)
    requires store.Valid() && id in store.rows
    ensures var after := DeleteStaff(store, id).state;
            && UpdateStaff(after, id, None, None, None, None, now).outcome == Err(AppError("Staff member not found", 404))
            && SetStaffActive(after, id, active, now).outcome.Err?
            && DeleteStaff(after, id).outcome.Err?
  {
  }

  /** `sort({ active: -1, name: 1 })`: active members first, then by name. */
  predicate StaffBefore(a: Entry<Staff>, b: Entry<Staff>)
  {
    (a.row.active && !b.row.active) || (a.row.active == b.row.active && LexLess(a.row.name, b.row.name))
  }

  lemma StaffBeforeIsStrictWeakOrder()
    ensures StrictWeakOrder(StaffBefore)
  {
    forall a: Entry<Staff>, b: Entry<Staff> | StaffBefore(a, b)
      ensures !StaffBefore(b, a)
    {
      LexAsymmetric(a.row.name, b.row.name);
    }
    forall a: Entry<Staff>, b: Entry<Staff>, c: Entry<Staff> | StaffBefore(a, c)
      ensures StaffBefore(a, b) || StaffBefore(b, c)
    {
      LexTotal(a.row.name, b.row.name);
      if LexLess(b.row.name, a.row.name) && LexLess(a.row.name, c.row.name) {
        LexTransitive(b.row.name, a.row.name, c.row.name);
      }
    }
  }

  /** Members tie in the listing exactly when they agree on `active` and on the name. */
  lemma StaffTiedIffSameKey(a: Entry<Staff>, b: Entry<Staff>)
    ensures Tied(a, b, StaffBefore) <==> a.row.active == b.row.active && a.row.name == b.row.name
  {
    LexTotal(a.row.name, b.row.name);
    LexIrreflexive(a.row.name);
  }

  /** What an ordered listing means for the two sort keys. */
  lemma OrderedByKeys(s: seq<Entry<Staff>>)
    requires Ordered(s, StaffBefore)
    ensures forall i, j :: 0 <= i < j < |s| ==> s[i].row.active || !s[j].row.active
    ensures forall i, j :: 0 <= i < j < |s| && s[i].row.active == s[j].row.active ==>
              !LexLess(s[j].row.name, s[i].row.name)
  {
    forall i, j | 0 <= i < j < |s|
      ensures s[i].row.active || !s[j].row.active
      ensures s[i].row.active == s[j].row.active ==> !LexLess(s[j].row.name, s[i].row.name)
    {
      assert !StaffBefore(s[j], s[i]);
    }
  }

  /**
   * `getAllStaff`: every member exactly once; active members before inactive ones, each
   * group by ascending name; members with the same flag and name in creation order.
   */
  function GetAllStaff(store: StaffTable): (r: Reply<seq<Entry<Staff>>>)
    requires store.Valid()
    ensures r.status == 200 && r.message == "Staff list retrieved"
    ensures multiset(r.data) == multiset(store.Entries())
    ensures forall e :: e in r.data <==> e.id in store.rows && e.row == store.rows[e.id]
    ensures forall i, j :: 0 <= i < j < |r.data| ==> r.data[i].row.active || !r.data[j].row.active
    ensures forall i, j :: 0 <= i < j < |r.data| && r.data[i].row.active == r.data[j].row.active ==>
              !LexLess(r.data[j].row.name, r.data[i].row.name)
    ensures forall y :: Ties(r.data, y, StaffBefore) == Ties(store.Entries(), y, StaffBefore)
  {
    var all := store.Entries();
    var sorted := Sort(all, StaffBefore);
    StaffBeforeIsStrictWeakOrder();
    SortOrderedAndStable(all, StaffBefore);
    OrderedByKeys(sorted);
    assert forall e :: e in sorted <==> e in all by {
      forall e ensures e in sorted <==> e in all {
        assert e in sorted <==> e in multiset(sorted);
        assert e in all <==> e in multiset(all);
      }
    }
    EntriesMembership(store);
    Reply(200, "Staff list retrieved", sorted)
  }
}

=== FILE: staff_model.dfy ===
/**
 * The staff document of src/modules/staff/staff.model.ts: a trimmed, required name and
 * phone (the phone unique across all staff), a role from a fixed enumeration, and an
 * `active` flag that defaults to true.
 */
module StaffModel {
  import opened Outcomes
  import opened Text
  import opened Tables
  import opened Errors

  datatype StaffRole = Cleaner | Supervisor | Driver

  function RoleName(r: StaffRole): string
  {
    match r
    case Cleaner => "Cleaner"
    case Supervisor => "Supervisor"
    case Driver => "Driver"
  }

  /** The role a string names, if it is one of the schema's enum (case matters). */
  function ParseRole(s: string): (r: Option<StaffRole>)
    ensures r.Some? ==> RoleName(r.value) == s
    ensures r.None? ==> forall role :: RoleName(role) != s
  {
    if s == "Cleaner" then Some(Cleaner)
    else if s == "Supervisor" then Some(Supervisor)
    else if s == "Driver" then Some(Driver)
    else None
  }

  lemma RoleNamesRoundTrip(r: StaffRole)
    ensures ParseRole(RoleName(r)) == Some(r)
  {
  }

  datatype Staff = Staff(name: string, phone: string, role: StaffRole, active: bool, createdAt: int, updatedAt: int)

  type StaffTable = Table<Staff>

  /** What the schema guarantees of a stored member: name and phone present and trimmed. */
  predicate ValidStaff(s: Staff)
  {
    s.name != "" && Trimmed(s.name) && s.phone != "" && Trimmed(s.phone)
  }

  predicate AllValid(store: StaffTable)
  {
    forall k :: k in store.rows ==> ValidStaff(store.rows[k])
  }

  /** The unique index on `phone`: no two members share a phone. */
  ghost predicate UniquePhones(store: StaffTable)
  {
    forall i, j :: i in store.rows && j in store.rows && store.rows[i].phone == store.rows[j].phone ==> i == j
  }

  /** The role validators: `required` first, and only when that passes, `enum`. */
  function RoleViolation(role: string): (v: seq<string>)
    ensures v == [] <==> ParseRole(role).Some?
  {
    if role == "" then [RequiredMessage("role")]
    else Check(ParseRole(role).Some?, EnumMessage(role, "role"))
  }

  /**
   * The messages of the validators that run on the paths being written, after trimming,
   * in schema order: a path that is not written is not validated.
   */
  function Violations(name: Option<string>, phone: Option<string>, role: Option<string>): (v: seq<string>)
    ensures v == [] <==>
              && (name.Some? ==> Trim(name.value) != "")
              && (phone.Some? ==> Trim(phone.value) != "")
              && (role.Some? ==> ParseRole(role.value).Some?)
  {
    (if name.Some? then Check(Trim(name.value) != "", "Name is required") else [])
    + (if phone.Some? then Check(Trim(phone.value) != "", "Phone number is required") else [])
    + (if role.Some? then RoleViolation(role.value) else [])
  }

  /** A name or phone of spaces alone passes a truthiness test but not the schema. */
  lemma BlankNameRejected(name: string, phone: string, role: string)
    requires name != "" && forall i :: 0 <= i < |name| ==> IsSpace(name[i])
    ensures Violations(Some(name), Some(phone), Some(role)) != []
    ensures Violations(Some(name), Some(phone), Some(role))[0] == "Name is required"
  {
    assert LeadingSpaces(name) == |name|;
  }
}

=== FILE: tables.dfy ===
/**
 * A document collection of the store, seen as a finite map from id to record. Ids are handed
 * out in increasing order, so ascending id order is creation order: a `findOne` without a
 * sort returns the earliest-created match, and a `find()` lists documents in id order.
 */
module Tables {
  import opened Outcomes

  /** One stored document with its id. */
  datatype Entry<R> = Entry(id: nat, row: R)

  datatype Table<R> = Table(rows: map<nat, R>, next: nat) {

    /** Every stored id was handed out before `next`. */
    predicate Valid()
    {
      forall k :: k in rows ==> k < next
    }

    /** `findById`. */
    function Get(id: nat): (r: Option<R>)
      ensures r.Some? <==> id in rows
      ensures r.Some? ==> r.value == rows[id]
    {
      if id in rows then Some(rows[id]) else None
    }

    /** `create`: stores `r` under a fresh id and returns that id. */
    function Insert(r: R): (res: (Table<R>, nat))
      requires Valid()
      ensures res.1 !in rows
      ensures res.0.rows == rows[res.1 := r]
      ensures res.0.Valid()
    {
      (Table(rows[next := r], next + 1), next)
    }

    /** Replaces the document stored under `id`; every other document is unchanged. */
    function Put(id: nat, r: R): (t: Table<R>)
      requires id in rows
      ensures t.rows == rows[id := r] && t.rows.Keys == rows.Keys
      ensures Valid() ==> t.Valid()
    {
      Table(rows[id := r], next)
    }

    /** `findByIdAndDelete`: removes the document stored under `id`. */
    function Remove(id: nat): (t: Table<R>)
      ensures t.rows == rows - {id}
      ensures Valid() ==> t.Valid()
    {
      Table(rows - {id}, next)
    }

    /** The least id from `i` on whose document satisfies `p`. */
    function FirstFrom(i: nat, p: R -> bool): (r: Option<nat>)
      ensures r.Some? ==> i <= r.value && r.value in rows && p(rows[r.value])
      ensures r.Some? ==> forall k :: i <= k < r.value && k in rows ==> !p(rows[k])
      ensures r.None? ==> forall k :: i <= k < next && k in rows ==> !p(rows[k])
      decreases next - i
    {
      if i >= next then None
      else if i in rows && p(rows[i]) then Some(i)
      else FirstFrom(i + 1, p)
    }

    /** `findOne(filter)`: the earliest-created document satisfying `p`, if any. */
    function FirstWhere(p: R -> bool): (r: Option<nat>)
      requires Valid()
      ensures r.Some? ==> r.value in rows && p(rows[r.value])
      ensures r.Some? ==> forall k :: k in rows && k < r.value ==> !p(rows[k])
      ensures r.None? <==> forall k :: k in rows ==> !p(rows[k])
    {
      FirstFrom(0, p)
    }

    /** The stored documents with ids from `i` on, in ascending id order. */
    function EntriesFrom(i: nat): (es: seq<Entry<R>>)
      ensures forall j :: 0 <= j < |es| ==> es[j].id in rows && es[j].row == rows[es[j].id] && i <= es[j].id
      ensures forall j, k :: 0 <= j < k < |es| ==> es[j].id < es[k].id
      decreases next - i
    {
      if i >= next then []
      else if i in rows then [Entry(i, rows[i])] + EntriesFrom(i + 1)
      else EntriesFrom(i + 1)
    }

    /** Every stored document with an id from `i` up to `next` is listed. */
    lemma {:induction false} EntriesFromCovers(i: nat, k: nat)
      requires k in rows && i <= k < next
      ensures exists j :: 0 <= j < |EntriesFrom(i)| && EntriesFrom(i)[j].id == k
      decreases next - i
    {
      var es := EntriesFrom(i);
      if k == i {
        assert es[0].id == k;
      } else {
        EntriesFromCovers(i + 1, k);
        var rest := EntriesFrom(i + 1);
        var j :| 0 <= j < |rest| && rest[j].id == k;
        if i in rows {
          assert es[j + 1] == rest[j];
        } else {
          assert es[j] == rest[j];
        }
      }
    }

    /** `find()`: every stored document exactly once, in creation order. */
    function Entries(): (es: seq<Entry<R>>)
      requires Valid()
      ensures forall j :: 0 <= j < |es| ==> es[j].id in rows && es[j].row == rows[es[j].id]
      ensures forall j, k :: 0 <= j < k < |es| ==> es[j].id < es[k].id
      ensures forall k :: k in rows ==> exists j :: 0 <= j < |es| && es[j].id == k
    {
      forall k | k in rows
        ensures exists j :: 0 <= j < |EntriesFrom(0)| && EntriesFrom(0)[j].id == k
      {
        EntriesFromCovers(0, k);
      }
      EntriesFrom(0)
    }

    /** The documents of `find()`, without their ids. */
    function Rows(): (rs: seq<R>)
      requires Valid()
      ensures |rs| == |Entries()|
      ensures forall j :: 0 <= j < |rs| ==> rs[j] == Entries()[j].row
    {
      var es := Entries();
      seq(|es|, j requires 0 <= j < |es| => es[j].row)
    }
  }

  /** A document is listed by `find()` exactly when it is stored under its id. */
  lemma EntriesMembership<R>(t: Table<R>)
    requires t.Valid()
    ensures forall e :: e in t.Entries() <==> e.id in t.rows && e.row == t.rows[e.id]
  {
    var es := t.Entries();
    forall e: Entry<R> | e.id in t.rows && e.row == t.rows[e.id]
      ensures e in es
    {
      var j :| 0 <= j < |es| && es[j].id == e.id;
      assert es[j] == e;
    }
  }
}

=== FILE: text.dfy ===
/**
 * The JavaScript string primitives the server relies on: the `<` / `>` comparison of
 * strings, `trim()`, `toLowerCase()`, the `\s` class of regular expressions, and the
 * email and date patterns of the booking schema.
 */
module Text {

  /** JavaScript's `a < b` on strings: compare character by character; a proper prefix is smaller. */
  function LexLess(a: string, b: string): bool
  {
    if |b| == 0 then false
    else if |a| == 0 then true
    else if a[0] != b[0] then a[0] < b[0]
    else LexLess(a[1..], b[1..])
  }

  lemma {:induction false} LexIrreflexive(a: string)
    ensures !LexLess(a, a)
  {
    if |a| > 0 {
      LexIrreflexive(a[1..]);
    }
  }

  lemma {:induction false} LexAsymmetric(a: string, b: string)
    ensures LexLess(a, b) ==> !LexLess(b, a)
  {
    if |a| > 0 && |b| > 0 && a[0] == b[0] {
      LexAsymmetric(a[1..], b[1..]);
    }
  }

  lemma {:induction false} LexTransitive(a: string, b: string, c: string)
    requires LexLess(a, b) && LexLess(b, c)
    ensures LexLess(a, c)
  {
    if |a| > 0 && a[0] == b[0] && b[0] == c[0] {
      LexTransitive(a[1..], b[1..], c[1..]);
    }
  }

  /** Two different strings are always ordered one way or the other. */
  lemma {:induction false} LexTotal(a: string, b: string)
    ensures a == b || LexLess(a, b) || LexLess(b, a)
  {
    if |a| > 0 && |b| > 0 && a[0] == b[0] {
      LexTotal(a[1..], b[1..]);
      if a[1..] == b[1..] {
        assert a == [a[0]] + a[1..] && b == [b[0]] + b[1..];
      }
    }
  }

  /** The empty string is below every other string. */
  lemma EmptyIsLeast(a: string)
    ensures !LexLess(a, "")
    ensures a != "" ==> LexLess("", a)
  {
  }

  /**
   * Comparing two strings whose first parts have the same length compares the first
   * parts, and only when those are equal the rest.
   */
  lemma {:induction false} LexAppend(x: string, y: string, x': string, y': string)
    requires |x| == |x'|
    ensures LexLess(x + y, x' + y') <==> LexLess(x, x') || (x == x' && LexLess(y, y'))
  {
    if |x| == 0 {
      assert x + y == y && x' + y' == y';
    } else {
      assert (x + y)[0] == x[0] && (x' + y')[0] == x'[0];
      if x[0] == x'[0] {
        assert (x + y)[1..] == x[1..] + y && (x' + y')[1..] == x'[1..] + y';
        LexAppend(x[1..], y, x'[1..], y');
        if x[1..] == x'[1..] {
          assert x == [x[0]] + x[1..] && x' == [x'[0]] + x'[1..];
        }
      }
    }
  }

  /** The characters JavaScript's `trim()` removes and its `\s` class matches (WhiteSpace and LineTerminator). */
  predicate IsSpace(c: char)
  {
    || c == ' ' || c == '\t' || c == '\n' || c == '\U{B}' || c == '\U{C}' || c == '\r'
    || c == '\U{A0}' || c == '\U{1680}' || ('\U{2000}' <= c <= '\U{200A}')
    || c == '\U{2028}' || c == '\U{2029}' || c == '\U{202F}' || c == '\U{205F}'
    || c == '\U{3000}' || c == '\U{FEFF}'
  }

  predicate NoSpace(s: string)
  {
    forall i :: 0 <= i < |s| ==> !IsSpace(s[i])
  }

  /** How many characters `s` starts with that `trim()` removes. */
  function LeadingSpaces(s: string): (k: nat)
    ensures k <= |s|
    ensures forall i :: 0 <= i < k ==> IsSpace(s[i])
    ensures k < |s| ==> !IsSpace(s[k])
  {
    if |s| == 0 || !IsSpace(s[0]) then 0 else 1 + LeadingSpaces(s[1..])
  }

  /** How many characters `s` ends with that `trim()` removes. */
  function TrailingSpaces(s: string): (k: nat)
    ensures k <= |s|
    ensures forall i :: |s| - k <= i < |s| ==> IsSpace(s[i])
    ensures k < |s| ==> !IsSpace(s[|s| - k - 1])
  {
    if |s| == 0 || !IsSpace(s[|s| - 1]) then 0 else 1 + TrailingSpaces(s[..|s| - 1])
  }

  /** JavaScript's `s.trim()`; the schema's `trim: true` setter applies it before validation. */
  function Trim(s: string): (r: string)
    ensures |r| <= |s|
    ensures Trimmed(r)
  {
    var t := s[LeadingSpaces(s)..];
    t[..|t| - TrailingSpaces(t)]
  }

  /**
   * `trim()` removes exactly the white space at both ends: the result is the slice of `s`
   * between its leading and trailing white space, and whatever lies outside it is white space.
   */
  lemma TrimIsSlice(s: string)
    ensures var k := LeadingSpaces(s); var r := Trim(s);
            && k + |r| <= |s| && r == s[k..k + |r|]
            && (forall i :: 0 <= i < k ==> IsSpace(s[i]))
            && (forall i :: k + |r| <= i < |s| ==> IsSpace(s[i]))
  {
  }

  /** A string `trim()` leaves alone. */
  predicate Trimmed(s: string)
  {
    |s| == 0 || (!IsSpace(s[0]) && !IsSpace(s[|s| - 1]))
  }

  lemma TrimOfTrimmed(s: string)
    requires Trimmed(s)
    ensures Trim(s) == s
  {
  }

  /** Trimming twice is trimming once. */
  lemma TrimIdempotent(s: string)
    ensures Trimmed(Trim(s))
    ensures Trim(Trim(s)) == Trim(s)
  {
    TrimOfTrimmed(Trim(s));
  }

  /** `toLowerCase()` on one character; only the ASCII letters are modelled. */
  function LowerChar(c: char): char
  {
    if 'A' <= c <= 'Z' then (c as int + 32) as char else c
  }

  predicate IsLower(s: string)
  {
    forall i :: 0 <= i < |s| ==> LowerChar(s[i]) == s[i]
  }

  /** JavaScript's `s.toLowerCase()` (ASCII letters only). */
  function ToLower(s: string): (r: string)
    ensures |r| == |s|
    ensures IsLower(r)
    ensures forall i :: 0 <= i < |s| ==> r[i] == LowerChar(s[i])
  {
    seq(|s|, i requires 0 <= i < |s| => LowerChar(s[i]))
  }

  lemma LowerOfLower(s: string)
    requires IsLower(s)
    ensures ToLower(s) == s
  {
  }

  /** Lower-casing never turns a non-space character into a space or back. */
  lemma LowerKeepsSpaces(s: string)
    ensures forall i :: 0 <= i < |s| ==> (IsSpace(ToLower(s)[i]) <==> IsSpace(s[i]))
  {
  }

  /** The schema's email pattern `^\S+@\S+\.\S+$`. */
  predicate MatchesEmail(s: string)
  {
    && NoSpace(s)
    && exists i, j :: 0 < i && i + 1 < j && j + 1 < |s| && s[i] == '@' && s[j] == '.'
  }

  /** Every address of the shape `local@domain.tld` with space-free non-empty parts matches. */
  lemma EmailShapeMatches(local: string, domain: string, tld: string)
    requires |local| > 0 && |domain| > 0 && |tld| > 0
    requires NoSpace(local) && NoSpace(domain) && NoSpace(tld)
    ensures MatchesEmail(local + "@" + domain + "." + tld)
  {
    var s := local + "@" + domain + "." + tld;
    var i, j := |local|, |local| + 1 + |domain|;
    assert s[i] == '@' && s[j] == '.';
    forall k | 0 <= k < |s|
      ensures !IsSpace(s[k])
    {
      if k < i { assert s[k] == local[k]; }
      else if i < k < j { assert s[k] == domain[k - i - 1]; }
      else if j < k { assert s[k] == tld[k - j - 1]; }
    }
  }

  /** A string with a space in it never matches the email pattern. */
  lemma SpacedNeverMatches(s: string, k: int)
    requires 0 <= k < |s| && IsSpace(s[k])
    ensures !MatchesEmail(s)
  {
  }

  /** The characters `\d` matches. */
  predicate IsDigit(c: char)
  {
    '0' <= c <= '9'
  }

  predicate AllDigits(s: string)
  {
    forall i :: 0 <= i < |s| ==> IsDigit(s[i])
  }

  /** The number a string of decimal digits denotes. */
  function DigitsValue(s: string): (n: nat)
    requires AllDigits(s)
  {
    if |s| == 0 then 0 else 10 * DigitsValue(s[..|s| - 1]) + (s[|s| - 1] as int - '0' as int)
  }

  /**
   * For digit strings of equal length, string order is numeric order and string equality is
   * numeric equality.
   */
  lemma {:induction false} DigitOrderIsNumericOrder(a: string, b: string)
    requires AllDigits(a) && AllDigits(b) && |a| == |b|
    ensures LexLess(a, b) <==> DigitsValue(a) < DigitsValue(b)
    ensures a == b <==> DigitsValue(a) == DigitsValue(b)
  {
    if |a| > 0 {
      var n := |a| - 1;
      var a', b' := a[..n], b[..n];
      var ca, cb := a[n], b[n];
      DigitOrderIsNumericOrder(a', b');
      var x, y := ca as int - '0' as int, cb as int - '0' as int;
      assert DigitsValue(a) == 10 * DigitsValue(a') + x;
      assert DigitsValue(b) == 10 * DigitsValue(b') + y;
      DecimalStep(DigitsValue(a'), x, DigitsValue(b'), y);
      assert a == a' + [ca] && b == b' + [cb];
      LexAppend(a', [ca], b', [cb]);
      assert LexLess([ca], [cb]) <==> x < y;
      assert a == b <==> a' == b' && ca == cb;
    }
  }

  /** Appending one decimal digit to two numbers keeps their order, and breaks ties by the digit. */
  lemma DecimalStep(u: nat, x: int, v: nat, y: int)
    requires 0 <= x < 10 && 0 <= y < 10
    ensures 10 * u + x < 10 * v + y <==> u < v || (u == v && x < y)
    ensures 10 * u + x == 10 * v + y <==> u == v && x == y
  {
    if u < v {
      assert 10 * u + 10 <= 10 * v;
    } else if v < u {
      assert 10 * v + 10 <= 10 * u;
    }
  }
}

=== FILE: user_controller.dfy ===
/**
 * The handlers of src/modules/user/user.controller.ts: listing and reading users, the
 * caller's own profile and its update, and deletion. Every answer is a `Profile`, the
 * account without its password.
 */
module UserController {
  import opened Outcomes
  import opened Js
  import opened Tables
  import opened Errors
  import opened Accounts
  import opened Sorting
  import Http
  import AuthController
  import AuthMiddleware

  /** The profiles of a list of stored accounts, in the same order. */
  function Profiles(es: seq<Entry<Account>>): (ps: seq<Profile>)
    ensures |ps| == |es|
    ensures forall i :: 0 <= i < |es| ==> ps[i] == ProfileOf(es[i].id, es[i].row)
  {
    seq(|es|, i requires 0 <= i < |es| => ProfileOf(es[i].id, es[i].row))
  }

  /** `sort({ createdAt: -1 })`: the later-created profile comes first. */
  predicate NewerProfile(a: Profile, b: Profile)
  {
    a.createdAt > b.createdAt
  }

  lemma NewerProfileIsStrictWeakOrder()
    ensures StrictWeakOrder(NewerProfile)
  {
  }

  /** Every listed profile is the profile of an account stored under its id, and vice versa. */
  lemma ProfilesOfEntries(store: Accounts)
    requires store.Valid()
    ensures forall p :: p in Profiles(store.Entries()) <==> p.id in store.rows && p == ProfileOf(p.id, store.rows[p.id])
  {
    var es := store.Entries();
    var ps := Profiles(es);
    EntriesMembership(store);
    forall p: Profile | p.id in store.rows && p == ProfileOf(p.id, store.rows[p.id])
      ensures p in ps
    {
      assert Entry(p.id, store.rows[p.id]) in es;
      var j :| 0 <= j < |es| && es[j] == Entry(p.id, store.rows[p.id]);
      assert ps[j] == p;
    }
  }

  /**
   * `getAllUsers`: every account's profile exactly once, newest first; profiles created at
   * the same instant keep their creation order.
   */
  function GetAllUsers(store: Accounts): (r: Reply<seq<Profile>>)
    requires store.Valid()
    ensures r.status == 200 && r.message == "Users retrieved successfully"
    ensures multiset(r.data) == multiset(Profiles(store.Entries()))
    ensures forall p :: p in r.data <==> p.id in store.rows && p == ProfileOf(p.id, store.rows[p.id])
    ensures forall i, j :: 0 <= i < j < |r.data| ==> r.data[i].createdAt >= r.data[j].createdAt
    ensures forall y :: Ties(r.data, y, NewerProfile) == Ties(Profiles(store.Entries()), y, NewerProfile)
  {
    var all := Profiles(store.Entries());
    var sorted := Sort(all, NewerProfile);
    NewerProfileIsStrictWeakOrder();
    SortOrderedAndStable(all, NewerProfile);
    SortKeepsMembers(all, NewerProfile);
    ProfilesOfEntries(store);
    Reply(200, "Users retrieved successfully", sorted)
  }

  /** `getUserById`: the account's profile, or 404. */
  function GetUserById(store: Accounts, id: nat): (r: Result<Reply<Profile>, Thrown>)
    ensures r.Ok? <==> id in store.rows
    ensures r.Ok? ==> r.value == Reply(200, "User retrieved successfully", ProfileOf(id, store.rows[id]))
    ensures r.Err? ==> r.error == AppError("User not found", 404)
  {
    if id in store.rows then Ok(Reply(200, "User retrieved successfully", ProfileOf(id, store.rows[id])))
    else Err(AppError("User not found", 404))
  }

  /** `getCurrentUser`: the caller's profile, or 404 when there is no such account. */
  function GetCurrentUser(store: Accounts, caller: Option<nat>): (r: Result<Reply<Profile>, Thrown>)
    ensures r.Ok? <==> caller.Some? && caller.value in store.rows
    ensures r.Ok? ==> r.value.data == ProfileOf(caller.value, store.rows[caller.value])
    ensures r.Err? ==> r.error == AppError("User not found", 404)
  {
    if caller.Some? && caller.value in store.rows then
      Ok(Reply(200, "User profile retrieved successfully", ProfileOf(caller.value, store.rows[caller.value])))
    else Err(AppError("User not found", 404))
  }

  /** `/users/me` and `/auth/me` answer identically. */
  lemma CurrentUserIsGetMe(store: Accounts, caller: Option<nat>)
    ensures GetCurrentUser(store, caller) == AuthController.GetMe(store, caller).outcome
  {
  }

  /** What `updateUserProfile` writes: only the truthy fields among name and email. */
  function ProfileUpdate(a: Account, name: Option<string>, email: Option<string>): (a': Account)
    ensures a'.name == (if Given(name) then name.value else a.name)
    ensures a'.email == (if Given(email) then email.value else a.email)
    ensures a' == a.(name := a'.name, email := a'.email)
  {
    a.(name := if Given(name) then name.value else a.name,
       email := if Given(email) then email.value else a.email)
  }

  /**
   * `updateUserProfile`: the caller's name and email are replaced by whichever of them is
   * given (the email as supplied, not lower-cased); nothing else changes; 404 when the
   * caller's account is gone.
   */
  function UpdateUserProfile(store: Accounts, caller: Option<nat>, name: Option<string>, email: Option<string>): (r: Handled<Accounts, Profile>)
    ensures store.Valid() ==> r.state.Valid()
    ensures r.outcome.Ok? <==> caller.Some? && caller.value in store.rows
    ensures r.outcome.Err? ==> r.state == store && r.outcome.error == AppError("User not found", 404)
    ensures r.outcome.Ok? ==>
              var id := caller.value;
              var a := store.rows[id];
              && id in r.state.rows
              && r.state.rows == store.rows[id := a.(name := r.state.rows[id].name, email := r.state.rows[id].email)]
              && (Given(name) ==> r.state.rows[id].name == name.value)
              && (!Given(name) ==> r.state.rows[id].name == a.name)
              && (Given(email) ==> r.state.rows[id].email == email.value)
              && (!Given(email) ==> r.state.rows[id].email == a.email)
              && r.outcome.value == Reply(200, "User profile updated successfully", ProfileOf(id, r.state.rows[id]))
  {
    if caller.None? || caller.value !in store.rows then
      Handled(store, Err(AppError("User not found", 404)))
    else
      var id := caller.value;
      var a := ProfileUpdate(store.rows[id], name, email);
      Handled(store.Put(id, a), Ok(Reply(200, "User profile updated successfully", ProfileOf(id, a))))
  }

  /** Sending the same profile update twice has the effect of sending it once. */
  lemma UpdateUserProfileIdempotent(store: Accounts, caller: Option<nat>, name: Option<string>, email: Option<string>)
    ensures var once := UpdateUserProfile(store, caller, name, email);
            UpdateUserProfile(once.state, caller, name, email) == once
  {
    if caller.Some? && caller.value in store.rows {
      var id := caller.value;
      var a := ProfileUpdate(store.rows[id], name, email);
      assert ProfileUpdate(a, name, email) == a;
      assert store.Put(id, a).Put(id, a) == store.Put(id, a);
    }
  }

  /** A profile update keeps the role and every account flag: it cannot promote or reinstate. */
  lemma UpdateKeepsRoleAndStanding(store: Accounts, caller: Option<nat>, name: Option<string>, email: Option<string>)
    requires caller.Some? && caller.value in store.rows
    ensures var a := store.rows[caller.value];
            var a' := UpdateUserProfile(store, caller, name, email).state.rows[caller.value];
            && a'.role == a.role && a'.password == a.password
            && a'.isVerified == a.isVerified && a'.isSuspended == a.isSuspended
            && a'.isDeleted == a.isDeleted && a'.isActive == a.isActive
  {
  }

  /** `deleteUser`: removes the account outright and answers 204; 404 for an unknown id. */
  function DeleteUser(store: Accounts, id: nat): (r: Handled<Accounts, ()>)
    ensures store.Valid() ==> r.state.Valid()
    ensures r.outcome.Ok? <==> id in store.rows
    ensures r.outcome.Ok? ==> r.state.rows == store.rows - {id} && r.outcome.value == Reply(204, "User deleted successfully", ())
    ensures r.outcome.Err? ==> r.state == store && r.outcome.error == AppError("User not found", 404)
  {
    if id !in store.rows then Handled(store, Err(AppError("User not found", 404)))
    else Handled(store.Remove(id), Ok(Reply(204, "User deleted successfully", ())))
  }

  /**
   * A successful delete answers 204, so the client receives the status alone and no
   * envelope; an unknown id gets the 404 error envelope.
   */
  lemma DeleteUserSendsNoBody(store: Accounts, id: nat, production: bool, now: string)
    ensures var r := Respond(DeleteUser(store, id), production, now);
            && (Http.Delivered(r).None? <==> id in store.rows)
            && r.status == (if id in store.rows then 204 else 404)
  {
  }

  /**
   * A deleted user is gone for good: reading it gives 404, and any token signed for it is
   * turned away by `protect` with 401.
   */
  lemma DeletedUserIsLockedOut(store: Accounts, id: nat, req: AuthMiddleware.Request, crypto: Crypto)
    requires id in store.rows
    requires req.verb != "OPTIONS"
    requires var t := AuthMiddleware.BearerToken(req.authorization); Given(t) && crypto.verify(t.value) == Some(id)
    ensures var after := DeleteUser(store, id).state;
            && GetUserById(after, id).Err?
            && AuthMiddleware.Protect(req, after, crypto) == AuthMiddleware.Reject(AuthMiddleware.UserGone)
  {
  }
}
